=== FILE: README.md ===
# mylink: a Dafny model of the portfolio back end's logic

mylink is a personal portfolio site. It has a React front end and an Express
back end that proxies third-party APIs, and a small messaging system in
which Discord-authenticated visitors write to the site owner (the
"administrator"). This project models the parts of it whose behaviour is
precise, and proves what they promise.

- **Messaging store and routes.** The PostgreSQL tables of `server/db.ts`
  (`users`, `conversations`, `messages`) are modelled as one immutable `Db`
  value. Every route of `server/index.ts` under `/api/conversations` and
  `/api/admin/users`, and the login callback, is a pure function of the
  configuration, the store, the session and the request. Each returns the
  reply (a value or an HTTP failure), the new store and the new session. The
  guards `isAuthenticated` and `isAdmin` are shared predicates. The laws
  about sequences of requests are in `route_laws.dfy`.
- **Discord badge decoder** (`/api/discord/profile` in `server/index.js`).
  It maps `public_flags` and four profile features to the ordered badge list.
- **Integer formatters and the WakaTime fold**: `formatDuration`,
  `formatUptime`, `formatElapsedTime`, `calculateAge`, and the
  total, best-day and per-language fold of `/api/wakatime/stats`.
- **Scripts**: the badge change checker (`scripts/check-badge-changes.js`)
  and the environment checker (`scripts/check-env.js`).

The model follows `server/index.ts`. Its compiled twin `server/index.js`
has the same messaging logic. The badge decoder, the WakaTime route and
`formatDuration` are cited from `index.js`, where they are written out.

Modules, one file each:

- `Basics`: options, filtering, a stable descending sort.
- `Text`: JavaScript's `trim`, `startsWith`, decimal `toString`,
  `padStart`, and `split`/`join` on one character.
- `Store`: the tables and the SQL statements.
- `Api`: the routes.
- `RouteLaws`: laws about sequences of requests.
- `Badges`: the badge decoder.
- `TimeFormat`: the time formatters.
- `WakaTime`: the statistics fold.
- `BadgeHistory`: the badge change checker.
- `EnvCheck`: the environment checker.

A closed conversation still accepts messages. The chat view hides its input
box when `status` is `closed` (src/components/messages/ChatView.tsx:279-315),
but the send route (server/index.ts:347-396) never reads `status`. A request
sent directly therefore stores the message, and the model says so
(`RouteLaws.ClosedConversationStillAcceptsMessages`).

## Model

| member | source | states |
|---|---|---|
| Api.RequireAdmin | server/index.ts:147-160 | no session gives 401; a session whose id is not the configured admin id gives 403; otherwise the caller passes, whatever the block flag says |
| Api.RequireUser | server/index.ts:163-179 | no session gives 401; a caller whose stored row is blocked is logged out and gets 403; everyone else passes with the session unchanged |
| Api.ClientIp | server/index.ts:108-110 | the address is the first comma-separated entry of `x-forwarded-for` when non-empty, else the remote address, else "Unknown"; it is never empty |
| Api.AuthCallback | server/index.ts:97-130 | the login is recorded with display name, avatar URL and client address; a user whose stored row is blocked ends logged out and redirected to the blocked page, anyone else keeps the session and goes to the messages page |
| Api.VisibleConversations | server/index.ts:259-282 | exactly the conversations the caller may see (all for the admin, their own otherwise), newest `last_message_at` first, none twice |
| Api.ListConversations | server/index.ts:259-282 | behind `isAuthenticated`; the admin gets every conversation, anyone else exactly those with their `user_id`; newest first; the store is unchanged |
| Api.ConversationsNoDup | server/db.ts:50-52 | in a valid store no two conversation rows are the same row (ids are unique) |
| Api.GetConversation | server/index.ts:285-310 | 404 for an absent id, checked before ownership; 403 for a non-admin non-owner; otherwise the row with that id |
| Api.ConversationMessages | server/index.ts:334-337 | exactly the messages of the conversation, oldest `created_at` first, as a permutation of the stored ones |
| Api.ListMessages | server/index.ts:313-344 | the same 404-then-403 check as reading the conversation, before any message is read; on success exactly that conversation's messages, oldest first |
| Api.PostMessage | server/index.ts:375-391 | one new message with a fresh id, the conversation id, the caller's id, name and avatar, the content, `is_admin` iff the caller is the admin, and the time; that conversation's `last_message` and time become the content and time; nothing else changes |
| Api.SendMessage | server/index.ts:347-396 | missing or blank content gives 400 before any lookup, then 404, then 403; a refused request leaves the store alone; success is exactly one posted message; `status` is never consulted; stored contents stay non-blank |
| Api.CreateConversation | server/index.ts:399-412 | behind `isAuthenticated`: the caller's existing conversation, or a new open one; the store stays valid |
| Api.DeleteConversationRoute | server/index.ts:415-425 | admin only; the conversation and all its messages are gone, everything else is kept |
| Api.CloseConversation | server/index.ts:428-442 | admin only; only the status of the conversation with that id changes, to closed |
| Api.ReopenConversation | server/index.ts:445-459 | admin only; only the status of the conversation with that id changes, to open |
| Api.ListUsers | server/index.ts:186-196 | admin only; one row per stored user with its fields, most recent `last_login` first |
| Api.BlockReason | server/index.ts:204-206 | the given reason when it is present and non-empty; 'No reason provided' when it is missing or empty; never empty |
| Api.BlockUser | server/index.ts:199-214 | admin only; the target's row becomes blocked with the reason; other rows and tables are unchanged; an unknown id changes nothing |
| Api.UnblockUser | server/index.ts:217-231 | admin only; the target's row becomes unblocked with no reason and keeps every other field; other rows and tables are unchanged; an unknown id changes nothing |
| Api.DeleteUser | server/index.ts:234-252 | admin only; the conversations left are exactly those not owned by the user, the messages left exactly those not sent by the user whose conversation is left (the cascade); the user ids become the old ones less this one, every other user row unchanged |
| Store.EmptyDbValid | server/db.ts:33-75 | the empty store meets the schema's constraints (unique ids, messages referring to existing conversations) |
| Store.FindConversation | server/index.ts:292-296 | the lookup fails exactly when no row has the id, and otherwise returns a row with that id |
| Store.FindConversationUnique | server/db.ts:50-52 | in a valid store the lookup by a row's id returns that row |
| Store.LogUserLogin | server/db.ts:98-130 | an existing user gets new name, avatar, address and login time; a new user is inserted; other users and the other tables are untouched |
| Store.LoginKeepsBlockState | server/db.ts:98-130 | logging in never changes whether a user is blocked, and a first login leaves the user unblocked |
| Store.SetBlocked | server/index.ts:203-207 | only the target row changes: blocked, with the reason |
| Store.ClearBlocked | server/index.ts:221-224 | only the target row changes: unblocked, without a reason |
| Store.UnblockAfterBlock | server/index.ts:199-231 | unblocking after blocking leaves the row unblocked with no reason and every other field as before |
| Store.GetOrCreateConversation | server/db.ts:147-172 | the returned conversation belongs to the user and is in the store; an existing one is returned unchanged with the store untouched; otherwise a new open one with a fresh id is appended |
| Store.GetOrCreateIdempotent | server/db.ts:147-172 | a second call for the same user returns the same conversation and changes nothing |
| Store.SetStatus | server/index.ts:432-435 | only the status of rows with that id changes |
| Store.TouchConversation | server/index.ts:383-389 | only the last message and its time of rows with that id change |
| Store.InsertMessage | server/index.ts:375-381 | the new message has a fresh id and the given fields; the store stays valid |
| Store.DeleteConversation | server/db.ts:67 | the conversation is removed and the cascade removes exactly its messages |
| Store.DeleteMessagesBySender | server/index.ts:238-239 | exactly the messages with that sender are removed |
| Store.DeleteConversationsOf | server/index.ts:241-242 | exactly the user's conversations are removed, and with them every message of those conversations |
| Store.RemoveUser | server/index.ts:244-245 | exactly the user's row is removed |
| RouteLaws.BlockedCallerRefusedEverywhere | server/index.ts:163-179 | a blocked caller gets 403 and is logged out on every conversation route, and the store is unchanged |
| RouteLaws.BlockTakesEffect | server/index.ts:170-176 | after a block the target's very next request is refused |
| RouteLaws.UnblockRestoresAccess | server/index.ts:217-231 | after unblocking, the target passes `isAuthenticated` again |
| RouteLaws.BlockBeforeFirstLoginIsLost | server/index.ts:203-207 | blocking an id without a user row marks nothing, so that user's first login succeeds |
| RouteLaws.LoginKeepsBlock | server/index.ts:112-121 | logging in again neither lifts a block nor yields a session |
| RouteLaws.BlockedAdminKeepsAdminRoutes | server/index.ts:147-179 | a blocked admin is refused the conversation routes but passes `isAdmin`, which does not read the flag |
| RouteLaws.ForeignConversationForbidden | server/index.ts:294-303 | a non-admin non-owner gets 403 on reading, listing or writing an existing conversation, and the store is unchanged |
| RouteLaws.OwnerSeesOwnConversation | server/index.ts:285-344 | the owner reads their conversation and all of its messages |
| RouteLaws.AdminSeesEverything | server/index.ts:259-282 | the admin's listing holds every conversation |
| RouteLaws.PostKeepsOwner | server/index.ts:375-389 | posting keeps the conversation, its owner and every user row |
| RouteLaws.PostAppendsToListing | server/index.ts:334-337 | with no newer earlier message, the posted message comes last in the listing, after the earlier ones in their order |
| RouteLaws.SendThenList | server/index.ts:347-396 | a sent message is the last one the next listing returns, with its content as sent |
| RouteLaws.ClosedConversationStillAcceptsMessages | server/index.ts:347-396 | closing does not stop the owner from writing: the send succeeds |
| RouteLaws.OwnerMaySend | server/index.ts:347-396 | an admitted owner sending non-blank content to their own conversation succeeds |
| RouteLaws.CreateConversationIdempotent | server/index.ts:399-412 | creating twice returns the same conversation and the second call changes nothing |
| RouteLaws.DeletedConversationIsGone | server/index.ts:415-425 | after the delete, reading, listing or writing the conversation answers 404 and none of its messages remain |
| RouteLaws.DeletedUserLeavesNoTrace | server/index.ts:234-252 | after a user is deleted no conversation they owned and no message they sent remains |
| RouteLaws.CloseIdempotent | server/index.ts:428-442 | closing twice equals closing once |
| RouteLaws.ReopenIdempotent | server/index.ts:445-459 | reopening twice equals reopening once |
| RouteLaws.ReopenUndoesClose | server/index.ts:428-459 | reopening a conversation that was open and then closed restores the store |
| Badges.FlagTableMasks | server/index.js:452-465 | the twelve masks are the powers of two of the table's bits, strictly increasing, all below bit 31 |
| Badges.BitIsMaskTest | server/index.js:476-480 | the bit test used by the model agrees with `(flags / 2^k) % 2 == 1`, the value of `flags & 2^k` being non-zero |
| Badges.PrefixOf | server/index.js:472-492 | the fixed prefix holds Nitro, HypeSquad Bravery, Active Developer and Server Booster exactly when their conditions hold, then Completed a Quest and Apprentice, in display order; Nitro is first iff its condition holds |
| Badges.EarnedByParts | server/index.js:476-499 | a badge is earned exactly when the prefix holds it or its table flag is set |
| Badges.DecodeBadges | server/index.js:466-499 | at least two badges; exactly the earned ones; in the fixed display order (prefix, then ascending masks); none twice; Nitro first iff a profile feature is present |
| Badges.BadgeNames | server/index.js:466-499 | the names sent are exactly the names of the earned badges, position by position in display order (strictly increasing rank), pairwise distinct |
| Badges.NoFlagsOnlyFeatureBadges | server/index.js:450 | with missing or zero `public_flags` only the feature badges and the two constant badges are earned |
| TimeFormat.Pad2 | src/utils/hooks.ts:58-60 | `padStart(2, '0')` of the decimal text: from 10 on exactly the decimal text of the number, below 10 a "0" followed by the single digit; it reads back as the number |
| Text.CanonicalText | src/utils/hooks.ts:58-60 | a digit run without a leading zero (or a single digit) is exactly the decimal text of its own value, so the formatters' unpadded fields are `String(n)` |
| TimeFormat.Hms | server/index.js:607-608 | the hours, minutes below 60 and seconds below 60 make up exactly the given seconds |
| TimeFormat.ClockValueUnique | src/utils/hooks.ts:53-56 | fields with minutes and seconds below 60 are determined by the seconds they make up |
| TimeFormat.FormatDuration | server/index.js:606-614 | "H hrs M mins" from an hour on, "M mins" from a minute on, "S secs" below; every number is the decimal text of its value, without leading zeros; the fields bracket the input to the minute |
| TimeFormat.ReadFormatDuration | server/index.js:606-614 | reading the text back gives the seconds below a minute, else the seconds rounded down to a whole minute |
| TimeFormat.FormatUptime | src/utils/hooks.ts:52-61 | three colon-separated fields, each the two-digit padding of its value, the hours unwrapped, minutes and seconds below 60, summing to `floor(ms/1000)` seconds |
| TimeFormat.UptimeSameSecond | src/utils/hooks.ts:52-61 | two uptimes show the same text exactly when they fall in the same whole second |
| TimeFormat.UptimeMonotone | src/utils/hooks.ts:52-61 | a later uptime never reads as fewer seconds |
| TimeFormat.FormatElapsedTime | src/components/DiscordPresence.tsx:12-21 | ends in " elapsed"; "H:MM:SS" from an hour on and "M:SS" below; the leading field is the decimal text of its value without leading zeros, the others two digits and below 60; the fields sum to the whole seconds |
| TimeFormat.ElapsedFields | src/components/DiscordPresence.tsx:13-20 | the hours, minutes-of-hour and seconds-of-minute derived through `minutes` are the same fields as whole hours, minutes of the hour and seconds of the minute; below an hour `minutes` is the minutes of the hour |
| TimeFormat.ReadFormatElapsedTime | src/components/DiscordPresence.tsx:12-21 | the text reads back as the whole seconds of `ms` |
| TimeFormat.CalculateAge | src/components/DiscordPresence.tsx:23-33 | today is on or after the birthday anniversary of the age and before the next one |
| TimeFormat.AgeUnique | src/components/DiscordPresence.tsx:23-33 | that bracket determines the age: any number of years with the same bracket is the age |
| TimeFormat.AgeOnBirthday | src/components/DiscordPresence.tsx:28 | on the exact birthday the age is the full year difference |
| WakaTime.FoldTotal | server/index.js:560-562 | the fold's total equals the sum of the day totals, missing ones counting 0 |
| WakaTime.FoldBestDay | server/index.js:561-569 | the best day is the first day with the strictly greatest positive total, and none when no day is positive |
| WakaTime.MergeFacts | server/index.js:570-575 | merging by name yields unique names, exactly the names seen, each with the sum of its entries' seconds |
| WakaTime.FoldLangs | server/index.js:560-576 | merging day by day equals merging all entries of all days in order |
| WakaTime.AddLangFacts | server/index.js:571-574 | one update adds the entry's seconds to exactly the entry of its name, creating it at the end if absent |
| WakaTime.SortedLangs | server/index.js:577-578 | the same entries, non-increasing by total, names still unique |
| WakaTime.Languages | server/index.js:570-578 | the reported languages: sorted by total, unique names, exactly the names seen, each with the sum over all days |
| WakaTime.HumanTotal | server/index.js:585-587 | from a minute on it is `formatDuration` of the total; below a minute "0 mins" |
| WakaTime.LanguageRows | server/index.js:570-584 | the language rows: sorted by total, unique names, exactly the names seen, each with the sum over all days and its `formatDuration` text |
| WakaTime.Summarize | server/index.js:555-598 | the route's data: the summed total and its human text, no best day exactly when every day is zero, else the first day with the greatest total, and the language rows above |
| BadgeHistory.CompareBadges | scripts/check-badge-changes.js:76-81 | `added` holds exactly the new badges not in the old list and `removed` the reverse, each a subsequence of its list that keeps every copy of a badge it holds (so a repeated badge stays repeated); `changed` iff the two lists hold different sets |
| BadgeHistory.DifferenceFacts | scripts/check-badge-changes.js:76-81 | one of the two differences is non-empty exactly when the badge sets differ |
| BadgeHistory.BadgeName | scripts/check-badge-changes.js:86-108 | a mapped key gives its friendly name, different from the key; any other key is returned as is |
| BadgeHistory.UnnamedDecodedBadges | scripts/check-badge-changes.js:86-108 | of the badges the profile route sends, exactly `premium_early_supporter` and `hypesquad` have no friendly name |
| BadgeHistory.FriendlyName | src/components/DiscordPresence.tsx:39-44 | the corrected lookup: a mapped key gives its friendly name, any other key itself |
| BadgeHistory.EveryDecodedBadgeNamed | src/components/DiscordPresence.tsx:36-53 | with the corrected table every badge the route sends has a friendly name, and the old names are unchanged |
| BadgeHistory.Record | scripts/check-badge-changes.js:155-165 | the change is appended and only the last 30 entries are kept; the change is the last entry |
| BadgeHistory.Run | scripts/check-badge-changes.js:113-185 | no fetched list ends with status 1; otherwise the stored badges become the fetched ones, the check time is set, and an entry is logged exactly when the sets differ |
| BadgeHistory.RunKeepsCap | scripts/check-badge-changes.js:155-165 | a history of at most 30 entries stays at most 30, and a new entry is the logged change |
| BadgeHistory.FirstRunAddsEverything | scripts/check-badge-changes.js:42-54 | without a readable history file every fetched badge counts as added, and an entry is logged exactly when something was fetched |
| BadgeHistory.SecondRunLogsNothing | scripts/check-badge-changes.js:133-171 | a second run with the same badges logs nothing |
| EnvCheck.ParseLine | scripts/check-env.js:45-54 | a line records a setting iff it trims to non-comment text with something both before and after its first `=`; the key is the trimmed text before it, the value the trimmed rest (which may contain `=`), both non-empty |
| EnvCheck.RecordedTextIsNonEmpty | scripts/check-env.js:46-51 | the trimmed key and value of a recorded line are non-empty and the key has no `=` |
| EnvCheck.SettingsLastWins | scripts/check-env.js:45-54 | a key is set iff some line records it, and its value is the one from the last such line |
| EnvCheck.ParseEnv | scripts/check-env.js:42-54 | no recorded value is empty, so an empty value and a missing one are alike to the checks |
| EnvCheck.ExampleKey | scripts/check-env.js:31-39 | an example line yields a key iff it trims to non-comment text with something before its first `=`; the key is that text trimmed |
| EnvCheck.SettingKeyIsExampleKey | scripts/check-env.js:31-54 | a line recorded by the `.env` parser yields the same key in the example parser |
| EnvCheck.RequiredVars | scripts/check-env.js:29-39 | a name is required iff some example line yields it |
| EnvCheck.CheckEnv | scripts/check-env.js:21-115 | a missing `.env` or example file ends with status 1; errors are exactly the critical variables absent, `your_…` or the example secret; warnings are exactly the optional ones absent or `your_…`; with both files present the verdict is incomplete exactly when some critical variable is unset, and configured otherwise; status 1 iff a file is missing or some critical variable is in error |
| EnvCheck.CheckEnvListOrder | scripts/check-env.js:56-101 | the errors are a subsequence of the critical variable list and the warnings of the optional one, so each is reported in list order |
| EnvCheck.ClassifiedMembers | scripts/check-env.js:81-101 | the error and warning lists hold exactly the flagged names; an error exists iff some critical variable is unset |
| EnvCheck.OptionalNeverFails | scripts/check-env.js:93-108 | two `.env` texts that agree on the critical variables give the same exit status |

## Left out

- Express, passport and session plumbing (the OAuth exchange, cookies, CORS, the duplicated route registrations) is left out: the caller is an explicit `Option<Identity>` and logging out is the session becoming `None`.
- The rate limiters on the message route and the API are left out, because their fixed-window logic lives in a library that is not part of this model.
- SQL execution and errors are left out. Each route is one atomic state transition, so races between its several statements are not modelled. A database error (500), including a non-numeric path id, is not modelled; path ids are naturals.
- An unordered `SELECT ... LIMIT`-free lookup that could match several rows is modelled as taking the first stored row. Only `getOrCreateConversation` can meet two rows, since `conversations.user_id` is not unique.
- The `created_at`/`updated_at` columns that no route reads are left out. Every timestamp is a `now: nat` parameter.
- The HTTP proxies (Lanyard, Last.fm, Discord profile fetch, WakaTime fetch) and the contact routes are foreign I/O and left out. Only the computations done on the fetched data are modelled.
- WakaTime `percent` is left out, because it uses floating-point division and `Math.round`. The date range and the credential check before the fetch are also left out.
- WakaTime.Summarize, WakaTime.SortedLangs, WakaTime.Languages and WakaTime.LanguageRows: seconds are naturals, although the service sends fractional seconds. Ties in the sort keep first-seen order (the sort is a stable insertion sort), which these contracts do not state. A language named like an array index (which `Object.values` lists first) or like an `Object.prototype` member is not modelled.
- Badges.DecodeBadges: `public_flags` is an unbounded natural. JavaScript's `&` keeps the low 32 bits of its operand and every mask is at most 2^22, so the bit test agrees with the model for every value a double holds exactly, that is every natural below 2^53. A larger value may be rounded when the JSON is parsed, which is not modelled.
- Api.AuthCallback: a client address longer than the 45 characters of `ip_address` (server/db.ts:39), possible with a long first `x-forwarded-for` entry (server/index.ts:108), makes `logUserLogin` throw. The catch (server/index.ts:124-127) then redirects to the messages page with the session kept, no row written and `isUserBlocked` skipped. Column widths are not modelled, so the model always records the login.
- Api.SendMessage: content is a string or missing. A JSON body whose `content` is a truthy non-string (a number, an object) throws on `trim` and gets 500 from the catch (server/index.ts:357, 392-395); `0` or `false` gets 400. Non-string bodies are not modelled.
- BadgeHistory.BadgeName: keys that are `Object.prototype` members (such as `constructor`) are not modelled.
- BadgeHistory.Run: the console output is not modelled. Nor is a history file whose JSON lacks the `history` array, on which the script throws.
- TimeFormat.FormatUptime and TimeFormat.FormatElapsedTime: negative or fractional milliseconds are not modelled; `ms` is a natural.
- TimeFormat.CalculateAge: dates are (year, month, day) triples. Time zones and the `Date` parsing of the caller are not modelled.
- The React components, hooks with timers, static pages and build configuration are presentational and left out.
- File reads and writes in the scripts are left out: file contents are parameters, and a missing file is `None`.

## Findings

| source | as written | input that shows it | evidently intended | confidence | as-written member | corrected member |
|---|---|---|---|---|---|---|
| scripts/check-badge-changes.js:86-108 | `BADGE_NAMES` has `early_supporter` and no `hypesquad`, but the profile route sends `premium_early_supporter` (mask 512) and `hypesquad` (mask 4) | a profile with `public_flags = 516`: the checker prints the raw keys `premium_early_supporter` and `hypesquad` | the names the profile card gives those keys (src/components/DiscordPresence.tsx:39,44): "Early Supporter" and "HypeSquad Events" | medium, not executed | BadgeHistory.UnnamedDecodedBadges | BadgeHistory.EveryDecodedBadgeNamed |

=== FILE: api.dfy ===
/** The messaging routes of the server (`server/index.ts`, deployed as
    `server/index.js`): the `isAdmin` and `isAuthenticated` guards, the
    conversation and message handlers and the admin user-management handlers.
    Each handler is a pure function from the configuration, the database, the
    caller's session and the request's parameters to the reply, the database
    afterwards and the session afterwards (a blocked caller is logged out). */
module Api {
  import opened Basics
  import opened Text
  import opened Store

  /** The Discord profile kept in the session after OAuth login; a profile
      field that is missing is the empty string. */
  datatype Identity = Identity(id: string, username: string, globalName: string, avatar: string)

  /** The logged-in identity, or `None` for an anonymous caller. */
  type Session = Option<Identity>

  /** Deployment configuration: `ADMIN_DISCORD_ID`, possibly unset. */
  datatype Config = Config(adminId: Option<string>)

  /** The error replies of the routes, each with its HTTP status. */
  datatype Failure =
    | Unauthenticated   // 401 'Not authenticated'
    | Blocked           // 403 'Your account has been blocked...'
    | AdminRequired     // 403 'Forbidden: Admin access required'
    | Forbidden         // 403 'Forbidden'
    | NotFound          // 404 'Conversation not found'
    | BadRequest        // 400 'Message content is required'

  function StatusCode(f: Failure): nat {
    match f
    case Unauthenticated => 401
    case Blocked => 403
    case AdminRequired => 403
    case Forbidden => 403
    case NotFound => 404
    case BadRequest => 400
  }

  datatype Reply<T> = Ok(value: T) | Fail(failure: Failure)

  /** What a handler leaves behind: its reply, the database, and the session. */
  datatype Outcome<T> = Outcome(reply: Reply<T>, db: Db, session: Session)

  /** `userId === process.env.ADMIN_DISCORD_ID`: nobody is admin when it is unset. */
  predicate IsAdminId(cfg: Config, id: string) {
    cfg.adminId == Some(id)
  }

  /** `user.username || user.global_name || 'Unknown'`. */
  function DisplayName(u: Identity): string {
    if u.username != "" then u.username
    else if u.globalName != "" then u.globalName
    else "Unknown"
  }

  /** The CDN address of the caller's avatar, or `null` when there is none. */
  function AvatarUrl(u: Identity): Option<string> {
    if u.avatar != "" then Some("https://cdn.discordapp.com/avatars/" + u.id + "/" + u.avatar + ".png")
    else None
  }

  /** An administrator may see and write every conversation, anyone else only
      the conversations whose `user_id` is theirs. */
  predicate MayAccess(cfg: Config, caller: Identity, c: Conversation) {
    IsAdminId(cfg, caller.id) || c.userId == caller.id
  }

  // ------------------------------------------------------------------ guards

  /** `isAdmin`: 401 for an anonymous caller, 403 for anyone but the
      administrator. The block flag is not consulted. */
  function RequireAdmin(cfg: Config, session: Session): (r: Reply<Identity>)
    ensures r.Ok? <==> session.Some? && IsAdminId(cfg, session.value.id)
    ensures r.Ok? ==> r.value == session.value
    ensures session.None? ==> r == Fail(Unauthenticated)
    ensures session.Some? && !IsAdminId(cfg, session.value.id) ==> r == Fail(AdminRequired)
  {
    match session
    case None => Fail(Unauthenticated)
    case Some(u) => if IsAdminId(cfg, u.id) then Ok(u) else Fail(AdminRequired)
  }

  /** The caller is logged in, has a (truthy) id and is blocked in the store. */
  predicate CallerBlocked(db: Db, session: Session) {
    session.Some? && session.value.id != "" && IsUserBlocked(db, session.value.id)
  }

  /** The caller gets past `isAuthenticated`. */
  predicate Admitted(db: Db, session: Session) {
    session.Some? && !CallerBlocked(db, session)
  }

  /** `isAuthenticated`: 401 for an anonymous caller; a caller whose stored
      `is_blocked` is true is logged out and gets 403. The block flag is read
      from the store on every request, not from the session. */
  function RequireUser(db: Db, session: Session): (r: (Reply<Identity>, Session))
    ensures session.None? ==> r == (Fail(Unauthenticated), None)
    ensures CallerBlocked(db, session) ==> r == (Fail(Blocked), None)
    ensures r.0.Ok? <==> Admitted(db, session)
    ensures r.0.Ok? ==> r.0.value == session.value && r.1 == session
  {
    match session
    case None => (Fail(Unauthenticated), None)
    case Some(u) =>
      if u.id != "" && IsUserBlocked(db, u.id) then (Fail(Blocked), None)
      else (Ok(u), session)
  }

  /** How an `isAuthenticated` route answers a caller the guard stops: the
      guard's reply, the guard's session, and no change to the store. */
  predicate UserGuarded<T>(db: Db, session: Session, o: Outcome<T>) {
    && (session.None? ==> o.reply == Fail(Unauthenticated) && o.session == None)
    && (CallerBlocked(db, session) ==> o.reply == Fail(Blocked) && o.session == None)
    && (!Admitted(db, session) ==> o.db == db)
    && (Admitted(db, session) ==> o.session == session)
  }

  /** How an `isAdmin` route answers: the guard's reply for anyone but the
      administrator, with no change to the store; the session is never touched. */
  predicate AdminGuarded<T>(cfg: Config, db: Db, session: Session, o: Outcome<T>) {
    && (session.None? ==> o.reply == Fail(Unauthenticated))
    && (session.Some? && !IsAdminId(cfg, session.value.id) ==> o.reply == Fail(AdminRequired))
    && (o.reply.Ok? <==> session.Some? && IsAdminId(cfg, session.value.id))
    && (o.reply.Fail? ==> o.db == db)
    && o.session == session
  }

  // ------------------------------------------------------------- login

  /** Where the OAuth callback sends the browser. */
  datatype Redirect = ToMessages | ToBlockedError

  /** `x-forwarded-for` split at ',' and its first part, else the socket's
      remote address, else 'Unknown' (each alternative taken only when truthy). */
  function ClientIp(forwardedFor: Option<string>, remoteAddress: Option<string>): (r: string)
    ensures forwardedFor.Some? && BeforeFirst(forwardedFor.value, ',') != "" ==>
      r == BeforeFirst(forwardedFor.value, ',')
    ensures (forwardedFor.None? || BeforeFirst(forwardedFor.value, ',') == "") ==>
      r == if remoteAddress.Some? && remoteAddress.value != "" then remoteAddress.value else "Unknown"
    ensures r != ""
  {
    var first := FirstForwarded(forwardedFor);
    if first != "" then first
    else if remoteAddress.Some? && remoteAddress.value != "" then remoteAddress.value
    else "Unknown"
  }

  /** The first entry of an `x-forwarded-for` header, or "" without one. */
  function FirstForwarded(forwardedFor: Option<string>): (r: string)
    ensures r == if forwardedFor.Some? then BeforeFirst(forwardedFor.value, ',') else ""
  {
    match forwardedFor
    case None => ""
    case Some(h) =>
      SplitFirst(h, ',');
      Split(h, ',')[0]
  }

  /** The OAuth callback once Discord has authenticated `profile`: records the
      login (`logUserLogin`), then logs a blocked user straight out again. */
  function AuthCallback(db: Db, profile: Identity, forwardedFor: Option<string>, remoteAddress: Option<string>, now: nat)
    : (r: (Db, Session, Redirect))
    ensures r.0 == LogUserLogin(db, profile.id, DisplayName(profile), AvatarUrl(profile),
                                ClientIp(forwardedFor, remoteAddress), now)
    ensures IsUserBlocked(db, profile.id) <==> r.2 == ToBlockedError
    ensures r.2 == ToBlockedError ==> r.1 == None
    ensures r.2 == ToMessages ==> r.1 == Some(profile)
  {
    var db' := LogUserLogin(db, profile.id, DisplayName(profile), AvatarUrl(profile),
                            ClientIp(forwardedFor, remoteAddress), now);
    if IsUserBlocked(db', profile.id) then (db', None, ToBlockedError)
    else (db', Some(profile), ToMessages)
  }

  // ------------------------------------------------- conversation routes

  /** The body of `GET /api/conversations`. */
  datatype ConversationList = ConversationList(conversations: seq<Conversation>, isAdmin: bool)

  function ByLastMessage(): Conversation -> int {
    (c: Conversation) => c.lastMessageAt
  }

  function OldestFirst(): Message -> int {
    (m: Message) => -(m.createdAt as int)
  }

  /** Messages in non-decreasing `created_at` order. */
  predicate ChronologicalOrder(ms: seq<Message>) {
    forall i, j :: 0 <= i < j < |ms| ==> ms[i].createdAt <= ms[j].createdAt
  }

  function VisibleTo(cfg: Config, caller: Identity): Conversation -> bool {
    (c: Conversation) => MayAccess(cfg, caller, c)
  }

  /** The conversations `caller` may see, most recent activity first. */
  function VisibleConversations(cfg: Config, db: Db, caller: Identity): (r: seq<Conversation>)
    requires Valid(db)
    ensures forall c :: c in r <==> c in db.conversations && MayAccess(cfg, caller, c)
    ensures SortedDesc(r, ByLastMessage())
    ensures NoDup(r)
  {
    var visible := Filter(db.conversations, VisibleTo(cfg, caller));
    SortFilterMembers(db.conversations, VisibleTo(cfg, caller), ByLastMessage());
    ConversationsNoDup(db);
    FilterPairwise(db.conversations, VisibleTo(cfg, caller), Different());
    SortDescNoDup(visible, ByLastMessage());
    SortDesc(visible, ByLastMessage())
  }

  /** `GET /api/conversations`: every conversation for the administrator, the
      caller's own for anyone else, newest `last_message_at` first. */
  function ListConversations(cfg: Config, db: Db, session: Session): (o: Outcome<ConversationList>)
    requires Valid(db)
    ensures UserGuarded(db, session, o) && o.db == db
    ensures o.reply.Ok? <==> Admitted(db, session)
    ensures o.reply.Ok? ==>
      var caller := session.value;
      var list := o.reply.value;
      && list.isAdmin == IsAdminId(cfg, caller.id)
      && (forall c :: c in list.conversations <==>
            c in db.conversations && (list.isAdmin || c.userId == caller.id))
      && SortedDesc(list.conversations, ByLastMessage())
      && NoDup(list.conversations)
  {
    var (g, s) := RequireUser(db, session);
    match g
    case Fail(f) => Outcome(Fail(f), db, s)
    case Ok(caller) =>
      Outcome(Ok(ConversationList(VisibleConversations(cfg, db, caller), IsAdminId(cfg, caller.id))), db, s)
  }

  function Different(): (Conversation, Conversation) -> bool {
    (a: Conversation, b: Conversation) => a != b
  }

  /** Conversation rows of a valid store are pairwise different (their ids are). */
  lemma ConversationsNoDup(db: Db)
    requires Valid(db)
    ensures forall i, j :: 0 <= i < j < |db.conversations| ==> Different()(db.conversations[i], db.conversations[j])
  {
  }

  /** `GET /api/conversations/:id`: 404 when no row has the id, then 403 when
      the caller may not see it. */
  function GetConversation(cfg: Config, db: Db, session: Session, id: nat): (o: Outcome<Conversation>)
    ensures UserGuarded(db, session, o) && o.db == db
    ensures Admitted(db, session) && id !in ConversationIds(db) ==> o.reply == Fail(NotFound)
    ensures Admitted(db, session) && id in ConversationIds(db) ==>
      var c := FindConversation(db, id).value;
      o.reply == if MayAccess(cfg, session.value, c) then Ok(c) else Fail(Forbidden)
    ensures o.reply.Ok? ==> o.reply.value in db.conversations && o.reply.value.id == id
  {
    var (g, s) := RequireUser(db, session);
    match g
    case Fail(f) => Outcome(Fail(f), db, s)
    case Ok(caller) =>
      match FindConversation(db, id)
      case None => Outcome(Fail(NotFound), db, s)
      case Some(c) =>
        if !MayAccess(cfg, caller, c) then Outcome(Fail(Forbidden), db, s)
        else Outcome(Ok(c), db, s)
  }

  /** The messages of conversation `id`, oldest first. */
  function ConversationMessages(db: Db, id: nat): (r: seq<Message>)
    ensures forall m :: m in r <==> m in db.messages && m.conversationId == id
    ensures ChronologicalOrder(r)
    ensures multiset(r) == multiset(MessagesOf(db, id))
  {
    SortFilterMembers(db.messages, InConversation(id), OldestFirst());
    SortDesc(MessagesOf(db, id), OldestFirst())
  }

  /** `GET /api/conversations/:id/messages`: the same 404 and 403 checks as
      reading the conversation, before any message is read; then exactly the
      conversation's messages, oldest first. */
  function ListMessages(cfg: Config, db: Db, session: Session, id: nat): (o: Outcome<seq<Message>>)
    ensures UserGuarded(db, session, o) && o.db == db
    ensures Admitted(db, session) && id !in ConversationIds(db) ==> o.reply == Fail(NotFound)
    ensures (Admitted(db, session) && id in ConversationIds(db) &&
             !MayAccess(cfg, session.value, FindConversation(db, id).value)) ==> o.reply == Fail(Forbidden)
    ensures o.reply.Ok? <==>
      Admitted(db, session) && id in ConversationIds(db) && MayAccess(cfg, session.value, FindConversation(db, id).value)
    ensures o.reply.Ok? ==> o.reply.value == ConversationMessages(db, id)
  {
    var (g, s) := RequireUser(db, session);
    match g
    case Fail(f) => Outcome(Fail(f), db, s)
    case Ok(caller) =>
      match FindConversation(db, id)
      case None => Outcome(Fail(NotFound), db, s)
      case Some(c) =>
        if !MayAccess(cfg, caller, c) then Outcome(Fail(Forbidden), db, s)
        else Outcome(Ok(ConversationMessages(db, id)), db, s)
  }

  /** `!content || content.trim() === ''`. */
  predicate BlankContent(content: Option<string>) {
    content.None? || Trim(content.value) == []
  }

  /** Every stored message has content that is not blank: the send route is the
      only writer of `messages` and refuses blank content. */
  predicate NonBlankMessages(db: Db) {
    forall i :: 0 <= i < |db.messages| ==> NonBlank(db.messages[i])
  }

  /** The message's content does not trim to the empty string. */
  predicate NonBlank(m: Message) {
    Trim(m.content) != []
  }

  /** Conversation `id` after a message with `content` was sent at `now`;
      every other conversation as it was. */
  predicate Touched(before: Db, after: Db, id: nat, content: string, now: nat) {
    && |after.conversations| == |before.conversations|
    && forall i :: 0 <= i < |before.conversations| ==>
         after.conversations[i] ==
           if before.conversations[i].id == id
           then before.conversations[i].(lastMessage := Some(content), lastMessageAt := now)
           else before.conversations[i]
  }

  /** The two statements of a successful send: insert the message, then set
      the conversation's last message and its time. */
  function PostMessage(cfg: Config, db: Db, caller: Identity, id: nat, content: string, now: nat)
    : (r: (Message, Db))
    requires Valid(db) && id in ConversationIds(db)
    ensures Valid(r.1)
    ensures r.0 == Message(r.0.id, id, caller.id, DisplayName(caller), AvatarUrl(caller), content,
                           IsAdminId(cfg, caller.id), now)
    ensures forall i :: 0 <= i < |db.messages| ==> db.messages[i].id != r.0.id
    ensures r.1.messages == db.messages + [r.0]
    ensures r.1.users == db.users
    ensures Touched(db, r.1, id, content, now)
  {
    var (m, db1) := InsertMessage(db, id, caller.id, DisplayName(caller), AvatarUrl(caller),
                                  content, IsAdminId(cfg, caller.id), now);
    var db2 := TouchConversation(db1, id, content, now);
    TouchValid(db1, id, content, now);
    (m, db2)
  }

  /** `POST /api/conversations/:id/messages`: 400 for blank content before any
      lookup, then 404, then 403; otherwise exactly one message is stored, with
      the content as sent, and the conversation's last message becomes it. The
      conversation's `status` is not consulted. */
  function SendMessage(cfg: Config, db: Db, session: Session, id: nat, content: Option<string>, now: nat)
    : (o: Outcome<Message>)
    requires Valid(db)
    ensures Valid(o.db)
    ensures UserGuarded(db, session, o)
    ensures Admitted(db, session) && BlankContent(content) ==> o.reply == Fail(BadRequest)
    ensures (Admitted(db, session) && !BlankContent(content) && id !in ConversationIds(db)) ==>
      o.reply == Fail(NotFound)
    ensures (Admitted(db, session) && !BlankContent(content) && id in ConversationIds(db) &&
             !MayAccess(cfg, session.value, FindConversation(db, id).value)) ==> o.reply == Fail(Forbidden)
    ensures o.reply.Fail? ==> o.db == db
    ensures o.reply.Ok? <==>
      && Admitted(db, session) && !BlankContent(content) && id in ConversationIds(db)
      && MayAccess(cfg, session.value, FindConversation(db, id).value)
    ensures o.reply.Ok? ==>
      (o.reply.value, o.db) == PostMessage(cfg, db, session.value, id, content.value, now)
    ensures NonBlankMessages(db) ==> NonBlankMessages(o.db)
  {
    var (g, s) := RequireUser(db, session);
    match g
    case Fail(f) => Outcome(Fail(f), db, s)
    case Ok(caller) =>
      if BlankContent(content) then Outcome(Fail(BadRequest), db, s)
      else
        match FindConversation(db, id)
        case None => Outcome(Fail(NotFound), db, s)
        case Some(c) =>
          if !MayAccess(cfg, caller, c) then Outcome(Fail(Forbidden), db, s)
          else
            var (m, db') := PostMessage(cfg, db, caller, id, content.value, now);
            AllSnoc(db.messages, m, NonBlank);
            Outcome(Ok(m), db', s)
  }

  /** `POST /api/conversations`: the caller's conversation, created open if
      they have none. */
  function CreateConversation(cfg: Config, db: Db, session: Session, now: nat): (o: Outcome<Conversation>)
    requires Valid(db)
    ensures Valid(o.db)
    ensures UserGuarded(db, session, o)
    ensures o.reply.Ok? <==> Admitted(db, session)
    ensures o.reply.Ok? ==>
      o.reply.value.userId == session.value.id && o.reply.value in o.db.conversations &&
      (o.reply.value, o.db) == GetOrCreateConversation(db, session.value.id, DisplayName(session.value),
                                                        AvatarUrl(session.value), now)
  {
    var (g, s) := RequireUser(db, session);
    match g
    case Fail(f) => Outcome(Fail(f), db, s)
    case Ok(caller) =>
      var (c, db') := GetOrCreateConversation(db, caller.id, DisplayName(caller), AvatarUrl(caller), now);
      Outcome(Ok(c), db', s)
  }

  /** `DELETE /api/conversations/:id` (administrator only): the row and, by
      cascade, its messages; succeeds whether or not the id exists. */
  function DeleteConversationRoute(cfg: Config, db: Db, session: Session, id: nat): (o: Outcome<()>)
    requires Valid(db)
    ensures Valid(o.db)
    ensures AdminGuarded(cfg, db, session, o)
    ensures o.reply.Ok? ==>
      && id !in ConversationIds(o.db)
      && (forall c :: c in o.db.conversations <==> c in db.conversations && c.id != id)
      && (forall m :: m in o.db.messages <==> m in db.messages && m.conversationId != id)
      && o.db.users == db.users
  {
    match RequireAdmin(cfg, session)
    case Fail(f) => Outcome(Fail(f), db, session)
    case Ok(_) => Outcome(Ok(()), DeleteConversation(db, id), session)
  }

  /** `PATCH /api/conversations/:id/close` (administrator only). */
  function CloseConversation(cfg: Config, db: Db, session: Session, id: nat): (o: Outcome<()>)
    requires Valid(db)
    ensures Valid(o.db)
    ensures AdminGuarded(cfg, db, session, o)
    ensures o.reply.Ok? ==> StatusChanged(db, o.db, id, Closed)
  {
    match RequireAdmin(cfg, session)
    case Fail(f) => Outcome(Fail(f), db, session)
    case Ok(_) =>
      SetStatusValid(db, id, Closed);
      Outcome(Ok(()), SetStatus(db, id, Closed), session)
  }

  /** `PATCH /api/conversations/:id/reopen` (administrator only). */
  function ReopenConversation(cfg: Config, db: Db, session: Session, id: nat): (o: Outcome<()>)
    requires Valid(db)
    ensures Valid(o.db)
    ensures AdminGuarded(cfg, db, session, o)
    ensures o.reply.Ok? ==> StatusChanged(db, o.db, id, Open)
  {
    match RequireAdmin(cfg, session)
    case Fail(f) => Outcome(Fail(f), db, session)
    case Ok(_) =>
      SetStatusValid(db, id, Open);
      Outcome(Ok(()), SetStatus(db, id, Open), session)
  }

  /** `after` differs from `before` only in the status of the conversation with
      id `id`, which is `s`; nothing else in any table changes. */
  predicate StatusChanged(before: Db, after: Db, id: nat, s: Status) {
    && after.users == before.users && after.messages == before.messages
    && after.nextConversationId == before.nextConversationId
    && after.nextMessageId == before.nextMessageId
    && |after.conversations| == |before.conversations|
    && forall i :: 0 <= i < |before.conversations| ==>
         && after.conversations[i].(status := before.conversations[i].status) == before.conversations[i]
         && after.conversations[i].status == if before.conversations[i].id == id then s
                                             else before.conversations[i].status
  }

  // ------------------------------------------------------ admin user routes

  /** A row of `GET /api/admin/users`. */
  datatype UserRow = UserRow(userId: string, user: User)

  function ByLastLogin(): UserRow -> int {
    (r: UserRow) => r.user.lastLogin
  }

  /** `GET /api/admin/users` (administrator only): every user row, most recent
      login first. */
  method ListUsers(cfg: Config, db: Db, session: Session) returns (o: Outcome<seq<UserRow>>)
    ensures AdminGuarded(cfg, db, session, o) && o.db == db
    ensures o.reply.Ok? ==>
      && (forall row :: row in o.reply.value <==> row.userId in db.users && db.users[row.userId] == row.user)
      && NoDup(o.reply.value)
      && SortedDesc(o.reply.value, ByLastLogin())
  {
    if RequireAdmin(cfg, session).Fail? {
      return Outcome(Fail(RequireAdmin(cfg, session).failure), db, session);
    }
    var rows: seq<UserRow> := [];
    var left := db.users.Keys;
    while left != {}
      invariant left <= db.users.Keys
      invariant forall row :: row in rows <==> row.userId in db.users.Keys - left && db.users[row.userId] == row.user
      invariant forall i :: 0 <= i < |rows| ==> rows[i].userId !in left
      invariant NoDup(rows)
      decreases left
    {
      var k :| k in left;
      rows := rows + [UserRow(k, db.users[k])];
      left := left - {k};
    }
    var sorted := SortDesc(rows, ByLastLogin());
    forall row {
      SortDescMembers(rows, ByLastLogin(), row);
    }
    SortDescNoDup(rows, ByLastLogin());
    return Outcome(Ok(sorted), db, session);
  }

  /** `reason || 'No reason provided'`. */
  function BlockReason(reason: Option<string>): (r: string)
    ensures r != ""
    ensures reason.Some? && reason.value != "" ==> r == reason.value
    ensures reason.None? || reason.value == "" ==> r == "No reason provided"
  {
    if reason.Some? && reason.value != "" then reason.value else "No reason provided"
  }

  /** `POST /api/admin/users/:userId/block` (administrator only): marks a known
      user blocked with the given reason or the default one; an unknown id
      changes nothing. */
  function BlockUser(cfg: Config, db: Db, session: Session, userId: string, reason: Option<string>)
    : (o: Outcome<()>)
    requires Valid(db)
    ensures Valid(o.db)
    ensures AdminGuarded(cfg, db, session, o)
    ensures o.reply.Ok? ==>
      && o.db.conversations == db.conversations && o.db.messages == db.messages
      && o.db.users.Keys == db.users.Keys
      && (forall u :: u in db.users && u != userId ==> o.db.users[u] == db.users[u])
      && (userId in db.users ==>
            && IsUserBlocked(o.db, userId)
            && o.db.users[userId].blockReason == Some(BlockReason(reason))
            && o.db.users[userId].(isBlocked := db.users[userId].isBlocked,
                                   blockReason := db.users[userId].blockReason) == db.users[userId])
      && (userId !in db.users ==> o.db == db)
  {
    match RequireAdmin(cfg, session)
    case Fail(f) => Outcome(Fail(f), db, session)
    case Ok(_) => Outcome(Ok(()), SetBlocked(db, userId, BlockReason(reason)), session)
  }

  /** `POST /api/admin/users/:userId/unblock` (administrator only): clears the
      flag and the reason. */
  function UnblockUser(cfg: Config, db: Db, session: Session, userId: string): (o: Outcome<()>)
    requires Valid(db)
    ensures Valid(o.db)
    ensures AdminGuarded(cfg, db, session, o)
    ensures o.reply.Ok? ==>
      && o.db.conversations == db.conversations && o.db.messages == db.messages
      && o.db.users.Keys == db.users.Keys
      && (forall u :: u in db.users && u != userId ==> o.db.users[u] == db.users[u])
      && !IsUserBlocked(o.db, userId)
      && (userId in db.users ==>
            o.db.users[userId] == db.users[userId].(isBlocked := false, blockReason := None))
      && (userId !in db.users ==> o.db == db)
  {
    match RequireAdmin(cfg, session)
    case Fail(f) => Outcome(Fail(f), db, session)
    case Ok(_) => Outcome(Ok(()), ClearBlocked(db, userId), session)
  }

  /** `DELETE /api/admin/users/:userId` (administrator only): the user's
      messages, then the user's conversations (cascading to every message in
      them), then the user row. */
  function DeleteUser(cfg: Config, db: Db, session: Session, userId: string): (o: Outcome<()>)
    requires Valid(db)
    ensures Valid(o.db)
    ensures AdminGuarded(cfg, db, session, o)
    ensures o.reply.Ok? ==>
      && o.db.users.Keys == db.users.Keys - {userId}
      && (forall u :: u in db.users && u != userId ==> o.db.users[u] == db.users[u])
      && (forall c :: c in o.db.conversations <==> c in db.conversations && c.userId != userId)
      && (forall m :: m in o.db.messages <==>
            && m in db.messages && m.senderId != userId
            && m.conversationId in ConversationIds(o.db))
  {
    match RequireAdmin(cfg, session)
    case Fail(f) => Outcome(Fail(f), db, session)
    case Ok(_) =>
      var db1 := DeleteMessagesBySender(db, userId);
      var db2 := DeleteConversationsOf(db1, userId);
      var db3 := RemoveUser(db2, userId);
      Outcome(Ok(()), db3, session)
  }
}

=== FILE: badge_history.dfy ===
/** The badge change checker (`scripts/check-badge-changes.js`): the
    comparison of the stored badge list with the current one, the friendly
    names it prints, and the update of the stored history with its cap of 30
    entries. Reading and writing the history file, the HTTP fetch and the clock
    are parameters. */
module BadgeHistory {
  import opened Basics
  import Badges

  /** One logged change. */
  datatype Change = Change(timestamp: string, added: seq<string>, removed: seq<string>, badges: seq<string>)

  /** The stored state; `badges` may be missing from a hand-edited file. */
  datatype History = History(badges: Option<seq<string>>, lastChecked: Option<string>, history: seq<Change>)

  /** What reading the history file gives. */
  datatype HistoryFile = Missing | Unreadable | Stored(contents: History)

  /** How a run ends: status 1 when the badges could not be fetched, else the
      state written back. */
  datatype RunResult = FetchFailed | Saved(state: History)

  /** The most changes kept. */
  const HistoryCap: nat := 30

  /** `loadBadgeHistory`: the stored state, or the empty one. */
  function LoadBadgeHistory(f: HistoryFile): History {
    match f
    case Stored(h) => h
    case _ => History(Some([]), None, [])
  }

  // --------------------------------------------------------- comparison

  datatype Comparison = Comparison(added: seq<string>, removed: seq<string>, changed: bool)

  function NotIn(xs: seq<string>): string -> bool {
    (b: string) => b !in xs
  }

  /** The distinct elements of a list. */
  function Elements(xs: seq<string>): set<string> {
    set b | b in xs
  }

  /** `compareBadges`: the new badges missing from the old list and the old
      ones missing from the new list, each in its list's order and with every
      repetition kept; `changed`
      exactly when the two lists hold different sets of badges, so order and
      repetition do not count as a change. */
  function CompareBadges(previous: seq<string>, current: seq<string>): (c: Comparison)
    ensures forall b :: b in c.added <==> b in current && b !in previous
    ensures forall b :: b in c.removed <==> b in previous && b !in current
    ensures Subseq(c.added, current) && Subseq(c.removed, previous)
    ensures forall b :: multiset(c.added)[b] == if b in previous then 0 else multiset(current)[b]
    ensures forall b :: multiset(c.removed)[b] == if b in current then 0 else multiset(previous)[b]
    ensures c.changed <==> Elements(previous) != Elements(current)
  {
    var added := Filter(current, NotIn(previous));
    var removed := Filter(previous, NotIn(current));
    FilterSubseq(current, NotIn(previous));
    FilterSubseq(previous, NotIn(current));
    KeptCounts(current, previous);
    KeptCounts(previous, current);
    DifferenceFacts(previous, current);
    Comparison(added, removed, |added| > 0 || |removed| > 0)
  }

  /** The difference of `xs` and `other` keeps every copy of a badge not in
      `other`. */
  lemma KeptCounts(xs: seq<string>, other: seq<string>)
    ensures forall b :: multiset(Filter(xs, NotIn(other)))[b] == if b in other then 0 else multiset(xs)[b]
  {
    forall b {
      FilterCounts(xs, NotIn(other), b);
    }
  }

  /** The two differences hold what they should, and one of them is non-empty
      exactly when the sets of badges differ. */
  lemma DifferenceFacts(previous: seq<string>, current: seq<string>)
    ensures var added := Filter(current, NotIn(previous));
      var removed := Filter(previous, NotIn(current));
      && (forall b :: b in added <==> b in current && b !in previous)
      && (forall b :: b in removed <==> b in previous && b !in current)
      && (|added| > 0 || |removed| > 0 <==> Elements(previous) != Elements(current))
  {
    var added := Filter(current, NotIn(previous));
    var removed := Filter(previous, NotIn(current));
    forall b ensures b in added <==> b in current && b !in previous {
      FilterMember(current, NotIn(previous), b);
    }
    forall b ensures b in removed <==> b in previous && b !in current {
      FilterMember(previous, NotIn(current), b);
    }
    if Elements(previous) != Elements(current) {
      if !(Elements(current) <= Elements(previous)) {
        var b :| b in Elements(current) && b !in Elements(previous);
        assert b in added;
      } else {
        var b :| b in Elements(previous) && b !in Elements(current);
        assert b in removed;
      }
    }
    if added != [] {
      assert added[0] in added && added[0] in Elements(current);
    }
    if removed != [] {
      assert removed[0] in removed && removed[0] in Elements(previous);
    }
  }

  // ------------------------------------------------------ friendly names

  /** `BADGE_NAMES`. */
  const FriendlyNames: map<string, string> := map[
    "nitro_gold" := "Nitro (Gold Tier)",
    "nitro_subscriber" := "Nitro Subscriber",
    "hypesquad_online_house_1" := "HypeSquad Bravery",
    "hypesquad_online_house_2" := "HypeSquad Brilliance",
    "hypesquad_online_house_3" := "HypeSquad Balance",
    "active_developer" := "Active Developer",
    "premium_guild_subscriber" := "Server Booster",
    "quest_completed" := "Completed A Quest",
    "apprentice" := "Apprentice",
    "early_supporter" := "Early Supporter",
    "verified_developer" := "Early Verified Bot Developer",
    "staff" := "Discord Staff",
    "partner" := "Partnered Server Owner",
    "certified_moderator" := "Moderator Programs Alumni",
    "bug_hunter_level_1" := "Bug Hunter Level 1",
    "bug_hunter_level_2" := "Bug Hunter Level 2",
    "clan_badge" := "Clan Badge"
  ]

  /** `getBadgeName`: the mapped name, or the key itself. */
  function BadgeName(key: string): (r: string)
    ensures key in FriendlyNames ==> r == FriendlyNames[key] && r != key
    ensures key !in FriendlyNames ==> r == key
  {
    if key in FriendlyNames && FriendlyNames[key] != "" then FriendlyNames[key] else key
  }

  /** Two keys the profile route sends are missing from `BADGE_NAMES`, which
      lists `early_supporter` where the route says `premium_early_supporter`:
      the checker prints exactly those two keys raw. */
  lemma UnnamedDecodedBadges(b: Badges.Badge)
    ensures BadgeName(Badges.Name(b)) == Badges.Name(b) <==>
              b == Badges.PremiumEarlySupporter || b == Badges.Hypesquad
  {
    match b
    case PremiumEarlySupporter =>
    case Hypesquad =>
    case _ =>
  }

  /** `BADGE_NAMES` with the two keys the profile route sends under the names
      the profile card gives them. */
  const CorrectedNames: map<string, string> :=
    FriendlyNames["premium_early_supporter" := "Early Supporter"]["hypesquad" := "HypeSquad Events"]

  /** The friendly name with the corrected table. */
  function FriendlyName(key: string): (r: string)
    ensures key in CorrectedNames ==> r == CorrectedNames[key] && r != key
    ensures key !in CorrectedNames ==> r == key
  {
    if key in CorrectedNames && CorrectedNames[key] != "" then CorrectedNames[key] else key
  }

  /** With the corrected table every badge the profile route can send has a
      friendly name, and every name `BADGE_NAMES` had is unchanged. */
  lemma EveryDecodedBadgeNamed(b: Badges.Badge, key: string)
    ensures FriendlyName(Badges.Name(b)) != Badges.Name(b)
    ensures key in FriendlyNames ==> FriendlyName(key) == BadgeName(key)
  {
    DecodedBadgeNamed(b);
    if key in FriendlyNames {
      KeptName(key);
    }
  }

  lemma DecodedBadgeNamed(b: Badges.Badge)
    ensures FriendlyName(Badges.Name(b)) != Badges.Name(b)
  {
    match b
    case PremiumEarlySupporter =>
    case Hypesquad =>
    case _ =>
  }

  /** The two added keys are not keys of `BADGE_NAMES`, so its entries stay. */
  lemma KeptName(key: string)
    requires key in FriendlyNames
    ensures FriendlyName(key) == BadgeName(key)
  {
    assert "premium_early_supporter" !in FriendlyNames && "hypesquad" !in FriendlyNames;
    assert CorrectedNames[key] == FriendlyNames[key];
  }

  // -------------------------------------------------------------- a run

  /** The history after recording a change: appended, then only the last 30. */
  function Record(changes: seq<Change>, c: Change): (r: seq<Change>)
    ensures |r| == if |changes| + 1 > HistoryCap then HistoryCap else |changes| + 1
    ensures r == (changes + [c])[|changes| + 1 - |r|..]
    ensures r[|r| - 1] == c
  {
    var all := changes + [c];
    if |all| > HistoryCap then all[|all| - HistoryCap..] else all
  }

  /** `main` after a fetch: status 1 when nothing was fetched; otherwise the
      stored badges become the fetched ones, `lastChecked` becomes `now`, and a
      change entry is logged exactly when the badge sets differ. */
  function Run(fetched: Option<seq<string>>, file: HistoryFile, now: string): (r: RunResult)
    ensures fetched.None? <==> r.FetchFailed?
    ensures r.Saved? ==> var prev := LoadBadgeHistory(file);
      var previous := prev.badges.GetOr([]);
      var c := CompareBadges(previous, fetched.value);
      && r.state.badges == Some(fetched.value)
      && r.state.lastChecked == Some(now)
      && (!c.changed ==> r.state.history == prev.history)
      && (c.changed ==> r.state.history == Record(prev.history, Change(now, c.added, c.removed, fetched.value)))
  {
    match fetched
    case None => FetchFailed
    case Some(current) =>
      var h := LoadBadgeHistory(file);
      var c := CompareBadges(h.badges.GetOr([]), current);
      var log := if c.changed then Record(h.history, Change(now, c.added, c.removed, current)) else h.history;
      Saved(History(Some(current), Some(now), log))
  }

  /** A run never grows a history of at most 30 entries past 30, and a
      logged change is the last entry. */
  lemma RunKeepsCap(fetched: Option<seq<string>>, file: HistoryFile, now: string)
    requires |LoadBadgeHistory(file).history| <= HistoryCap
    ensures Run(fetched, file, now).Saved? ==> |Run(fetched, file, now).state.history| <= HistoryCap
    ensures Run(fetched, file, now).Saved? && Run(fetched, file, now).state.history != LoadBadgeHistory(file).history ==>
      var c := CompareBadges(LoadBadgeHistory(file).badges.GetOr([]), fetched.value);
      && c.changed
      && Run(fetched, file, now).state.history[|Run(fetched, file, now).state.history| - 1] == Change(now, c.added, c.removed, fetched.value)
  {
  }

  /** Without a readable history file every fetched badge counts as added, and
      a change is logged exactly when something was fetched. */
  lemma FirstRunAddsEverything(fetched: seq<string>, file: HistoryFile, now: string)
    requires !file.Stored?
    ensures var r := Run(Some(fetched), file, now);
      && CompareBadges([], fetched).added == fetched
      && CompareBadges([], fetched).removed == []
      && (r.state.history != [] <==> fetched != [])
  {
    FilterKeepsAll(fetched, NotIn([]));
    if fetched != [] {
      assert fetched[0] in Elements(fetched);
    }
  }

  /** Running twice with the same badges logs nothing the second time. */
  lemma SecondRunLogsNothing(fetched: seq<string>, file: HistoryFile, now: string, later: string)
    requires Run(Some(fetched), file, now).Saved?
    ensures var first := Run(Some(fetched), file, now).state;
      Run(Some(fetched), Stored(first), later).state.history == first.history
  {
  }
}

=== FILE: badges.dfy ===
/** The Discord badge decoder of the profile route (`server/index.js`): from a
    user's `public_flags` bit mask and four profile features to the ordered list
    of badges the profile card shows. */
module Badges {
  import opened Basics
  import opened Text

  /** The parts of Discord's user object the decoder reads. `publicFlags` is
      `None` when the field is missing; each `has...` field says whether the
      corresponding object is present (not `null`). */
  datatype Profile = Profile(
    publicFlags: Option<nat>,
    banner: Option<string>,
    hasAvatarDecoration: bool,
    hasDisplayNameStyles: bool,
    hasCollectibles: bool)

  /** Every badge the decoder can report. */
  datatype Badge =
    | Staff | Partner | Hypesquad | BugHunterLevel1
    | HypesquadOnlineHouse1 | HypesquadOnlineHouse2 | HypesquadOnlineHouse3
    | PremiumEarlySupporter | BugHunterLevel2 | VerifiedDeveloper
    | CertifiedModerator | ActiveDeveloper
    | NitroGold | PremiumGuildSubscriber | QuestCompleted | Apprentice

  /** The name the route sends for a badge. */
  function Name(b: Badge): string {
    match b
    case Staff => "staff"
    case Partner => "partner"
    case Hypesquad => "hypesquad"
    case BugHunterLevel1 => "bug_hunter_level_1"
    case HypesquadOnlineHouse1 => "hypesquad_online_house_1"
    case HypesquadOnlineHouse2 => "hypesquad_online_house_2"
    case HypesquadOnlineHouse3 => "hypesquad_online_house_3"
    case PremiumEarlySupporter => "premium_early_supporter"
    case BugHunterLevel2 => "bug_hunter_level_2"
    case VerifiedDeveloper => "verified_developer"
    case CertifiedModerator => "certified_moderator"
    case ActiveDeveloper => "active_developer"
    case NitroGold => "nitro_gold"
    case PremiumGuildSubscriber => "premium_guild_subscriber"
    case QuestCompleted => "quest_completed"
    case Apprentice => "apprentice"
  }

  /** One entry of the flag table: the bit a single-bit mask selects, and
      its badge. */
  datatype FlagEntry = FlagEntry(bit: nat, badge: Badge)

  /** The twelve known flags, in ascending mask order (the order in which
      `Object.entries` lists integer keys). */
  function FlagTable(): seq<FlagEntry> {
    [ FlagEntry(0, Staff),
      FlagEntry(1, Partner),
      FlagEntry(2, Hypesquad),
      FlagEntry(3, BugHunterLevel1),
      FlagEntry(6, HypesquadOnlineHouse1),
      FlagEntry(7, HypesquadOnlineHouse2),
      FlagEntry(8, HypesquadOnlineHouse3),
      FlagEntry(9, PremiumEarlySupporter),
      FlagEntry(14, BugHunterLevel2),
      FlagEntry(17, VerifiedDeveloper),
      FlagEntry(18, CertifiedModerator),
      FlagEntry(22, ActiveDeveloper) ]
  }

  function Pow2(k: nat): (r: nat)
    ensures r >= 1
  {
    if k == 0 then 1 else 2 * Pow2(k - 1)
  }

  /** The masks the route writes as the table's keys. */
  function FlagMasks(): seq<nat> {
    [1, 2, 4, 8, 64, 128, 256, 512, 16384, 131072, 262144, 4194304]
  }

  /** The table's bits are the route's masks, strictly increasing and all
      below bit 31. */
  lemma FlagTableMasks()
    ensures |FlagMasks()| == |FlagTable()|
    ensures forall t :: 0 <= t < |FlagTable()| ==> FlagTable()[t].bit < 31 && Pow2(FlagTable()[t].bit) == FlagMasks()[t]
    ensures forall s, t :: 0 <= s < t < |FlagTable()| ==> FlagMasks()[s] < FlagMasks()[t]
  {
    Pow2Values();
  }

  /** The powers of two the table uses. */
  lemma Pow2Values()
    ensures Pow2(0) == 1 && Pow2(1) == 2 && Pow2(2) == 4 && Pow2(3) == 8
    ensures Pow2(6) == 64 && Pow2(7) == 128 && Pow2(8) == 256 && Pow2(9) == 512
    ensures Pow2(14) == 16384 && Pow2(17) == 131072 && Pow2(18) == 262144
    ensures Pow2(22) == 4194304
  {
    assert Pow2(9) == 512;
    assert Pow2(14) == 16384;
    assert Pow2(18) == 262144;
  }

  /** Bit `k` of `flags` is set. */
  predicate Bit(flags: nat, k: nat) {
    if k == 0 then flags % 2 == 1 else Bit(flags / 2, k - 1)
  }

  lemma MulAtLeast(x: int, d: int)
    requires x >= 1 && d > 0
    ensures x * d >= d
  {
    assert x * d == d + (x - 1) * d;
  }

  /** Integer division is determined by quotient and in-range remainder. */
  lemma DivUnique(a: int, d: int, q: int, r: int)
    requires d > 0 && a == q * d + r && 0 <= r < d
    ensures a / d == q
  {
    var q' := a / d;
    var r' := a % d;
    assert (q - q') * d == r' - r by {
      assert a == q' * d + r';
      assert q * d - q' * d == (q - q') * d;
    }
    if q' < q {
      MulAtLeast(q - q', d);
    } else if q' > q {
      MulAtLeast(q' - q, d);
    }
  }

  lemma DivHalf(a: nat, b: nat)
    requires b >= 1
    ensures a / (2 * b) == (a / 2) / b
  {
    var q := (a / 2) / b;
    var r := (a / 2) % b;
    assert a / 2 == q * b + r;
    assert a == q * (2 * b) + (2 * r + a % 2);
    DivUnique(a, 2 * b, q, 2 * r + a % 2);
  }

  /** `flags & 2^k` is non-zero exactly when bit `k` is set. For a
      non-negative `flags` the 32-bit conversion of `&` keeps every bit below
      31, so for the table's bits this is JavaScript's test. */
  lemma {:induction false} BitIsMaskTest(flags: nat, k: nat)
    ensures Bit(flags, k) <==> (flags / Pow2(k)) % 2 == 1
  {
    if k > 0 {
      BitIsMaskTest(flags / 2, k - 1);
      DivHalf(flags, Pow2(k - 1));
    }
  }

  /** `userData?.public_flags || 0`. */
  function Flags(p: Profile): nat {
    p.publicFlags.GetOr(0)
  }

  /** `userData.banner?.startsWith('a_')`. */
  predicate AnimatedBanner(p: Profile) {
    p.banner.Some? && StartsWith(p.banner.value, "a_")
  }

  /** Any of the four features that make the decoder infer Nitro. */
  predicate AnyFeature(p: Profile) {
    AnimatedBanner(p) || p.hasAvatarDecoration || p.hasDisplayNameStyles || p.hasCollectibles
  }

  /** Display-name styles or an avatar decoration, which make it infer Server Booster. */
  predicate BoosterFeature(p: Profile) {
    p.hasDisplayNameStyles || p.hasAvatarDecoration
  }

  /** One of the first `k` table entries is `b`'s, with its bit set in `flags`. */
  predicate FlagSetBelow(flags: nat, b: Badge, k: nat) {
    exists t :: 0 <= t < k && t < |FlagTable()| && FlagTable()[t].badge == b && Bit(flags, FlagTable()[t].bit)
  }

  /** The table flag of badge `b` is set in `flags`. */
  predicate FlagSet(flags: nat, b: Badge) {
    FlagSetBelow(flags, b, |FlagTable()|)
  }

  /** Looking at one more table entry adds exactly that entry's badge, when
      its bit is set. */
  lemma FlagSetBelowNext(flags: nat, b: Badge, k: nat)
    requires k < |FlagTable()|
    ensures FlagSetBelow(flags, b, k + 1) <==>
      FlagSetBelow(flags, b, k) || (FlagTable()[k].badge == b && Bit(flags, FlagTable()[k].bit))
  {
    if FlagSetBelow(flags, b, k + 1) && !FlagSetBelow(flags, b, k) {
      var t :| 0 <= t < k + 1 && t < |FlagTable()| && FlagTable()[t].badge == b && Bit(flags, FlagTable()[t].bit);
      assert t == k;
    }
  }

  /** The badges the profile has, independently of their order: Nitro when
      some feature is present, Server Booster when display-name styles or an
      avatar decoration are, the two badges every profile gets, and the badge
      of every table flag that is set. */
  predicate Earned(p: Profile, b: Badge) {
    || (b == NitroGold && AnyFeature(p))
    || (b == PremiumGuildSubscriber && BoosterFeature(p))
    || b == QuestCompleted
    || b == Apprentice
    || FlagSet(Flags(p), b)
  }

  /** Where a badge appears on the card: the six badges of the fixed prefix
      first, in their order, then the remaining table flags in ascending mask
      order. */
  function Rank(b: Badge): nat {
    match b
    case NitroGold => 0
    case HypesquadOnlineHouse1 => 1
    case ActiveDeveloper => 2
    case PremiumGuildSubscriber => 3
    case QuestCompleted => 4
    case Apprentice => 5
    case Staff => 6
    case Partner => 7
    case Hypesquad => 8
    case BugHunterLevel1 => 9
    case HypesquadOnlineHouse2 => 11
    case HypesquadOnlineHouse3 => 12
    case PremiumEarlySupporter => 13
    case BugHunterLevel2 => 14
    case VerifiedDeveloper => 15
    case CertifiedModerator => 16
  }

  /** Past the prefix badges, a table entry's rank is its position plus six. */
  lemma EntryRank(t: nat)
    requires t < |FlagTable()| && t != 4 && t != 11
    ensures Rank(FlagTable()[t].badge) == 6 + t
  {
  }

  /** Different badges have different names, so a list without a repeated
      badge has no repeated name. */
  lemma NameInjective(a: Badge, b: Badge)
    ensures Name(a) == Name(b) <==> a == b
  {
  }

  /** Strictly increasing rank: the fixed display order, and no badge twice. */
  predicate InDisplayOrder(r: seq<Badge>) {
    forall i, j :: 0 <= i < j < |r| ==> Rank(r[i]) < Rank(r[j])
  }

  /** The fixed prefix from its four conditions: Nitro, HypeSquad Bravery,
      Active Developer and Server Booster when they apply, then Completed a
      Quest and Apprentice, one conditional push after another. */
  function PrefixOf(nitro: bool, house1: bool, activeDev: bool, booster: bool): (r: seq<Badge>)
    ensures 2 <= |r|
    ensures InDisplayOrder(r)
    ensures RanksBelow(r, 6)
    ensures forall b :: b in r <==>
      || (b == NitroGold && nitro) || (b == HypesquadOnlineHouse1 && house1)
      || (b == ActiveDeveloper && activeDev) || (b == PremiumGuildSubscriber && booster)
      || b == QuestCompleted || b == Apprentice
    ensures r[0] == NitroGold <==> nitro
  {
    var r := PushFront(booster, PremiumGuildSubscriber, [QuestCompleted, Apprentice]);
    var r := PushFront(activeDev, ActiveDeveloper, r);
    var r := PushFront(house1, HypesquadOnlineHouse1, r);
    var r := PushFront(nitro, NitroGold, r);
    MembersRankBelow(r, 6);
    r
  }

  /** A list whose every member ranks below `n` has all its ranks below `n`. */
  lemma MembersRankBelow(r: seq<Badge>, n: nat)
    requires forall b :: b in r ==> Rank(b) < n
    ensures RanksBelow(r, n)
  {
    forall i | 0 <= i < |r| ensures Rank(r[i]) < n {
      assert r[i] in r;
    }
  }

  /** Every badge of `r` ranks below `n`. */
  predicate RanksBelow(r: seq<Badge>, n: nat) {
    forall i :: 0 <= i < |r| ==> Rank(r[i]) < n
  }

  /** A badge ranked above everything in an ordered list extends it in order. */
  lemma AppendInOrder(r: seq<Badge>, b: Badge)
    requires InDisplayOrder(r) && RanksBelow(r, Rank(b))
    ensures InDisplayOrder(r + [b]) && RanksBelow(r + [b], Rank(b) + 1)
  {
    var r' := r + [b];
    forall i, j | 0 <= i < j < |r'| ensures Rank(r'[i]) < Rank(r'[j]) {
      assert r'[i] == r[i];
    }
  }

  lemma RanksBelowMore(r: seq<Badge>, n: nat)
    requires RanksBelow(r, n)
    ensures RanksBelow(r, n + 1)
  {
  }

  /** `b` in front of `r` when `c` holds, else `r`: the conditional pushes of
      the prefix, read from the back. */
  function PushFront(c: bool, b: Badge, r: seq<Badge>): (r': seq<Badge>)
    requires InDisplayOrder(r)
    requires forall i :: 0 <= i < |r| ==> Rank(b) < Rank(r[i])
    ensures InDisplayOrder(r')
    ensures forall i :: 0 <= i < |r'| ==> Rank(b) <= Rank(r'[i])
    ensures forall x :: x in r' <==> (c && x == b) || x in r
    ensures |r'| == if c then |r| + 1 else |r|
    ensures c ==> |r'| > 0 && r'[0] == b
    ensures !c ==> r' == r
  {
    if c then [b] + r else r
  }

  /** The profile's prefix (bit 6 is mask 64, bit 22 is mask 4194304). */
  function Prefix(p: Profile): seq<Badge> {
    PrefixOf(AnyFeature(p), Bit(Flags(p), 6), Bit(Flags(p), 22), BoosterFeature(p))
  }

  /** A badge is earned exactly when the prefix holds it or its table flag is
      set: the two flag badges of the prefix are also table entries. */
  lemma EarnedByParts(p: Profile, b: Badge)
    ensures Earned(p, b) <==> b in Prefix(p) || FlagSet(Flags(p), b)
  {
    if b == HypesquadOnlineHouse1 && Bit(Flags(p), 6) {
      assert FlagTable()[4].badge == b;
    }
    if b == ActiveDeveloper && Bit(Flags(p), 22) {
      assert FlagTable()[11].badge == b;
    }
  }

  /** The profile route's badge list: the fixed prefix, then every other set
      table flag in ascending mask order, skipping badges already present. */
  method DecodeBadges(p: Profile) returns (r: seq<Badge>)
    ensures |r| >= 2
    ensures forall b :: b in r <==> Earned(p, b)
    ensures InDisplayOrder(r)
    ensures NoDup(r)
    ensures r[0] == NitroGold <==> AnyFeature(p)
  {
    var flags := Flags(p);
    r := Prefix(p);
    var k := 0;
    while k < |FlagTable()|
      invariant 0 <= k <= |FlagTable()|
      invariant |Prefix(p)| <= |r| && r[..|Prefix(p)|] == Prefix(p)
      invariant InDisplayOrder(r)
      invariant RanksBelow(r, 6 + k)
      invariant forall b :: b in r <==> b in Prefix(p) || FlagSetBelow(flags, b, k)
    {
      var e := FlagTable()[k];
      forall b {
        FlagSetBelowNext(flags, b, k);
      }
      if Bit(flags, e.bit) && e.badge !in r {
        assert k != 4 && k != 11;
        EntryRank(k);
        AppendInOrder(r, e.badge);
        r := r + [e.badge];
      } else {
        RanksBelowMore(r, 6 + k);
      }
      k := k + 1;
    }
    forall b ensures b in r <==> Earned(p, b) {
      EarnedByParts(p, b);
    }
  }

  /** The names of a list of badges, position by position; a list without a
      repeated badge gives a list without a repeated name, and the name of a
      badge is sent exactly when the badge is in the list. */
  function Names(r: seq<Badge>): (names: seq<string>)
    ensures |names| == |r| && forall i :: 0 <= i < |r| ==> names[i] == Name(r[i])
    ensures NoDup(r) ==> NoDup(names)
    ensures forall b :: Name(b) in names <==> b in r
  {
    var names := seq(|r|, i requires 0 <= i < |r| => Name(r[i]));
    forall i, j | 0 <= i < j < |names| ensures r[i] != r[j] ==> names[i] != names[j] {
      NameInjective(r[i], r[j]);
    }
    forall b ensures Name(b) in names <==> b in r {
      if Name(b) in names {
        var i :| 0 <= i < |names| && names[i] == Name(b);
        NameInjective(r[i], b);
      }
      if b in r {
        var i :| 0 <= i < |r| && r[i] == b;
        assert names[i] == Name(b);
      }
    }
    names
  }

  /** The names the route sends: the name of each decoded badge, in the
      display order of the decoded list, none repeated. */
  method BadgeNames(p: Profile) returns (r: seq<Badge>, names: seq<string>)
    ensures forall b :: b in r <==> Earned(p, b)
    ensures InDisplayOrder(r)
    ensures |names| == |r| && forall i :: 0 <= i < |r| ==> names[i] == Name(r[i])
    ensures |names| >= 2 && NoDup(names)
    ensures forall b :: Name(b) in names <==> Earned(p, b)
  {
    r := DecodeBadges(p);
    names := Names(r);
  }

  /** A profile without flags gets only the feature badges and the two badges
      every profile gets. */
  lemma NoFlagsOnlyFeatureBadges(p: Profile, b: Badge)
    requires p.publicFlags.None? || p.publicFlags == Some(0)
    ensures Earned(p, b) <==>
      || (b == NitroGold && AnyFeature(p))
      || (b == PremiumGuildSubscriber && BoosterFeature(p))
      || b == QuestCompleted || b == Apprentice
  {
    assert Flags(p) == 0;
    assert !FlagSet(0, b) by {
      forall k: nat ensures !Bit(0, k) {
        ZeroHasNoBits(k);
      }
    }
  }

  lemma {:induction false} ZeroHasNoBits(k: nat)
    ensures !Bit(0, k)
  {
    if k > 0 {
      ZeroHasNoBits(k - 1);
    }
  }
}

=== FILE: basics.dfy ===
/** Generic building blocks shared by the other modules: an optional value,
    order-preserving filtering (JavaScript's `Array.prototype.filter`) and the
    stable descending sort used for every `ORDER BY` and `Array.prototype.sort`
    of the system. */
module Basics {

  /** A value that may be missing: JavaScript's `undefined`/`null`, or SQL `NULL`. */
  datatype Option<+T> = None | Some(value: T) {

    /** The value, or `default` when missing (JavaScript's `x || default` on a defined `x`). */
    function GetOr(default: T): T {
      match this
      case Some(v) => v
      case None => default
    }
  }

  /** The position of the first element of `s` that satisfies `p`, if any. */
  function FindFirst<T>(s: seq<T>, p: T -> bool): (r: Option<nat>)
    ensures r.None? <==> forall i :: 0 <= i < |s| ==> !p(s[i])
    ensures r.Some? ==> r.value < |s| && p(s[r.value])
    ensures r.Some? ==> forall i :: 0 <= i < r.value ==> !p(s[i])
  {
    if s == [] then None
    else if p(s[0]) then Some(0)
    else
      match FindFirst(s[1..], p)
      case None => None
      case Some(i) => Some(i + 1)
  }

  /** No element occurs twice. */
  predicate NoDup<T(==)>(s: seq<T>) {
    forall i, j :: 0 <= i < j < |s| ==> s[i] != s[j]
  }

  /** The elements of `s` that satisfy `p`, in their original order. */
  function Filter<T>(s: seq<T>, p: T -> bool): (r: seq<T>)
    ensures |r| <= |s|
    ensures forall i :: 0 <= i < |r| ==> r[i] in s && p(r[i])
    ensures forall i :: 0 <= i < |s| && p(s[i]) ==> s[i] in r
  {
    if s == [] then []
    else (if p(s[0]) then [s[0]] else []) + Filter(s[1..], p)
  }

  /** Filtering distributes over concatenation: it keeps the relative order of
      what it keeps. */
  lemma {:induction false} FilterConcat<T>(a: seq<T>, b: seq<T>, p: T -> bool)
    ensures Filter(a + b, p) == Filter(a, p) + Filter(b, p)
  {
    if a == [] {
      assert a + b == b;
    } else {
      assert (a + b)[0] == a[0];
      assert (a + b)[1..] == a[1..] + b;
      FilterConcat(a[1..], b, p);
    }
  }

  /** An element survives filtering exactly when it was there and passes. */
  lemma FilterMember<T>(s: seq<T>, p: T -> bool, x: T)
    ensures x in Filter(s, p) <==> x in s && p(x)
  {
    var r := Filter(s, p);
    if x in r {
      var i :| 0 <= i < |r| && r[i] == x;
    }
    if x in s && p(x) {
      var i :| 0 <= i < |s| && s[i] == x;
    }
  }

  /** Filtering keeps every copy of an element that passes and no copy of one
      that fails. */
  lemma {:induction false} FilterCounts<T>(s: seq<T>, p: T -> bool, x: T)
    ensures multiset(Filter(s, p))[x] == if p(x) then multiset(s)[x] else 0
  {
    if s != [] {
      FilterCounts(s[1..], p, x);
      assert s == [s[0]] + s[1..];
      assert multiset(s) == multiset([s[0]]) + multiset(s[1..]);
    }
  }

  /** Appending an element that satisfies `p` to a sequence whose every
      element does gives a sequence whose every element does. */
  lemma AllSnoc<T>(s: seq<T>, x: T, p: T -> bool)
    ensures (forall i :: 0 <= i < |s| ==> p(s[i])) && p(x) ==>
      forall i :: 0 <= i < |s + [x]| ==> p((s + [x])[i])
  {
    forall i | 0 <= i < |s| ensures (s + [x])[i] == s[i] {
    }
  }

  /** The elements that survive filtering are exactly those that were there and pass. */
  lemma FilterMembers<T>(s: seq<T>, p: T -> bool)
    ensures forall x :: x in Filter(s, p) <==> x in s && p(x)
  {
    forall x {
      FilterMember(s, p, x);
    }
  }

  /** Filtering leaves something exactly when some element passes. */
  lemma FilterNonEmpty<T>(s: seq<T>, p: T -> bool)
    ensures |Filter(s, p)| > 0 <==> exists k :: 0 <= k < |s| && p(s[k])
  {
    var r := Filter(s, p);
    if r != [] {
      FilterMember(s, p, r[0]);
    }
    if exists k :: 0 <= k < |s| && p(s[k]) {
      var k :| 0 <= k < |s| && p(s[k]);
      FilterMember(s, p, s[k]);
    }
  }

  /** A relation that holds between every earlier and later element still holds
      after filtering (filtering keeps relative order). */
  lemma {:induction false} FilterPairwise<T>(s: seq<T>, p: T -> bool, rel: (T, T) -> bool)
    requires forall i, j :: 0 <= i < j < |s| ==> rel(s[i], s[j])
    ensures forall i, j :: 0 <= i < j < |Filter(s, p)| ==> rel(Filter(s, p)[i], Filter(s, p)[j])
  {
    if s != [] {
      var t := Filter(s[1..], p);
      TailPairwise(s, rel);
      FilterPairwise(s[1..], p, rel);
      if p(s[0]) {
        forall k | 0 <= k < |t| ensures rel(s[0], t[k]) {
          var m :| 0 <= m < |s[1..]| && s[1..][m] == t[k];
          assert s[m + 1] == t[k];
        }
        ConsPairwise(s[0], t, rel);
        assert Filter(s, p) == [s[0]] + t;
      } else {
        assert Filter(s, p) == t;
      }
    }
  }

  /** A relation between every earlier and later element holds in the tail too. */
  lemma TailPairwise<T>(s: seq<T>, rel: (T, T) -> bool)
    requires s != [] && forall i, j :: 0 <= i < j < |s| ==> rel(s[i], s[j])
    ensures forall i, j :: 0 <= i < j < |s[1..]| ==> rel(s[1..][i], s[1..][j])
  {
    forall i, j | 0 <= i < j < |s[1..]| ensures rel(s[1..][i], s[1..][j]) {
      assert s[1..][i] == s[i + 1] && s[1..][j] == s[j + 1];
    }
  }

  /** A head related to every element of a tail in which every earlier element
      is related to every later one gives a sequence with the same property. */
  lemma ConsPairwise<T>(h: T, t: seq<T>, rel: (T, T) -> bool)
    requires forall i, j :: 0 <= i < j < |t| ==> rel(t[i], t[j])
    requires forall k :: 0 <= k < |t| ==> rel(h, t[k])
    ensures forall i, j :: 0 <= i < j < |[h] + t| ==> rel(([h] + t)[i], ([h] + t)[j])
  {
    var r := [h] + t;
    forall i, j | 0 <= i < j < |r| ensures rel(r[i], r[j]) {
      assert r[j] == t[j - 1];
      if i > 0 {
        assert r[i] == t[i - 1];
      }
    }
  }

  /** Filtering a sequence whose every element passes returns it unchanged. */
  lemma {:induction false} FilterKeepsAll<T>(s: seq<T>, p: T -> bool)
    requires forall i :: 0 <= i < |s| ==> p(s[i])
    ensures Filter(s, p) == s
  {
    if s != [] {
      FilterKeepsAll(s[1..], p);
    }
  }

  /** `a` is `b` with some elements left out (greedy matching). */
  predicate Subseq<T(==)>(a: seq<T>, b: seq<T>) {
    a == [] || (b != [] && if a[0] == b[0] then Subseq(a[1..], b[1..]) else Subseq(a, b[1..]))
  }

  /** Filtering only leaves elements out: what it keeps stays in order. */
  lemma {:induction false} FilterSubseq<T>(s: seq<T>, p: T -> bool)
    ensures Subseq(Filter(s, p), s)
  {
    if s != [] {
      FilterSubseq(s[1..], p);
      var t := Filter(s[1..], p);
      if p(s[0]) {
        assert Filter(s, p) == [s[0]] + t;
        assert ([s[0]] + t)[1..] == t;
      } else {
        assert Filter(s, p) == t;
        if t != [] {
          assert p(t[0]);
          assert t[0] != s[0];
        }
      }
    }
  }

  /** Non-increasing by `key`. */
  predicate SortedDesc<T>(s: seq<T>, key: T -> int) {
    forall i, j :: 0 <= i < j < |s| ==> key(s[i]) >= key(s[j])
  }

  /** Places `x` in front of the first element whose key is not greater than its own. */
  function Insert<T>(x: T, s: seq<T>, key: T -> int): (r: seq<T>)
    ensures |r| == |s| + 1
    ensures multiset(r) == multiset(s) + multiset{x}
  {
    if s == [] || key(s[0]) <= key(x) then [x] + s
    else
      assert s == [s[0]] + s[1..];
      [s[0]] + Insert(x, s[1..], key)
  }

  /** Every key in `s` is at most `k`. */
  predicate KeysAtMost<T>(s: seq<T>, key: T -> int, k: int) {
    forall i :: 0 <= i < |s| ==> key(s[i]) <= k
  }

  /** Inserting a key no greater than `k` keeps every key at most `k`. */
  lemma {:induction false} InsertKeysAtMost<T>(x: T, s: seq<T>, key: T -> int, k: int)
    requires KeysAtMost(s, key, k) && key(x) <= k
    ensures KeysAtMost(Insert(x, s, key), key, k)
  {
    if s != [] && key(s[0]) > key(x) {
      InsertKeysAtMost(x, s[1..], key, k);
    }
  }

  /** Insertion into a sorted sequence keeps it sorted. */
  lemma {:induction false} InsertSorted<T>(x: T, s: seq<T>, key: T -> int)
    requires SortedDesc(s, key)
    ensures SortedDesc(Insert(x, s, key), key)
  {
    if s != [] && key(s[0]) > key(x) {
      var t := s[1..];
      InsertSorted(x, t, key);
      assert KeysAtMost(t, key, key(s[0])) by {
        forall i | 0 <= i < |t| ensures key(t[i]) <= key(s[0]) {
          assert t[i] == s[i + 1];
        }
      }
      InsertKeysAtMost(x, t, key, key(s[0]));
      SortedCons(s[0], Insert(x, t, key), key);
    }
  }

  /** A head whose key bounds a sorted tail's keys leaves the whole sorted. */
  lemma SortedCons<T>(h: T, t: seq<T>, key: T -> int)
    requires SortedDesc(t, key) && KeysAtMost(t, key, key(h))
    ensures SortedDesc([h] + t, key)
  {
    var r := [h] + t;
    forall i, j | 0 <= i < j < |r| ensures key(r[i]) >= key(r[j]) {
      assert r[j] == t[j - 1];
      if i > 0 {
        assert r[i] == t[i - 1];
      }
    }
  }

  /** Stable insertion sort into non-increasing `key` order: elements with equal
      keys keep their input order, as JavaScript's `Array.prototype.sort` with the
      comparator `(a, b) => key(b) - key(a)` does. An ascending order is this sort
      on the negated key. */
  function SortDesc<T>(s: seq<T>, key: T -> int): (r: seq<T>)
    ensures multiset(r) == multiset(s)
    ensures SortedDesc(r, key)
  {
    if s == [] then []
    else
      assert s == [s[0]] + s[1..];
      InsertSorted(s[0], SortDesc(s[1..], key), key);
      Insert(s[0], SortDesc(s[1..], key), key)
  }

  /** Inserting before an element that sorts no later than everything leaves it last. */
  lemma {:induction false} InsertSnoc<T>(y: T, t: seq<T>, x: T, key: T -> int)
    requires key(x) <= key(y)
    ensures Insert(y, t + [x], key) == Insert(y, t, key) + [x]
  {
    if t == [] {
      assert Insert(y, [x], key) == [y, x];
    } else {
      var tx := t + [x];
      assert tx[0] == t[0];
      assert tx[1..] == t[1..] + [x];
      if key(t[0]) > key(y) {
        InsertSnoc(y, t[1..], x, key);
        ConsSnoc(t[0], Insert(y, t[1..], key), x);
      } else {
        ConsSnoc(y, t, x);
      }
    }
  }

  /** Putting an element in front commutes with appending one at the back. */
  lemma ConsSnoc<T>(h: T, t: seq<T>, x: T)
    ensures [h] + (t + [x]) == ([h] + t) + [x]
  {
  }

  /** An element appended after everything, with a key no greater than any other,
      comes out last and leaves the order of the rest as it was. */
  lemma {:induction false} SortDescSnoc<T>(s: seq<T>, x: T, key: T -> int)
    requires forall i :: 0 <= i < |s| ==> key(x) <= key(s[i])
    ensures SortDesc(s + [x], key) == SortDesc(s, key) + [x]
  {
    if s == [] {
      assert s + [x] == [x];
    } else {
      assert (s + [x])[0] == s[0];
      assert (s + [x])[1..] == s[1..] + [x];
      SortDescSnoc(s[1..], x, key);
      InsertSnoc(s[0], SortDesc(s[1..], key), x, key);
    }
  }

  /** Sorting keeps exactly the same elements. */
  lemma SortDescMembers<T>(s: seq<T>, key: T -> int, x: T)
    ensures x in SortDesc(s, key) <==> x in s
  {
    var r := SortDesc(s, key);
    assert x in r <==> x in multiset(r);
    assert x in s <==> x in multiset(s);
  }

  /** Sorting what a filter keeps leaves exactly the elements that pass. */
  lemma SortFilterMembers<T(!new)>(s: seq<T>, p: T -> bool, key: T -> int)
    ensures forall x :: x in SortDesc(Filter(s, p), key) <==> x in s && p(x)
  {
    forall x
      ensures x in SortDesc(Filter(s, p), key) <==> x in s && p(x)
    {
      SortDescMembers(Filter(s, p), key, x);
      FilterMember(s, p, x);
    }
  }

  /** Sorting a sequence without repetitions produces none. */
  lemma SortDescNoDup<T>(s: seq<T>, key: T -> int)
    requires NoDup(s)
    ensures NoDup(SortDesc(s, key))
  {
    var r := SortDesc(s, key);
    forall i, j | 0 <= i < j < |r|
      ensures r[i] != r[j]
    {
      if r[i] == r[j] {
        TwoOccurrences(r, i, j);
        MultiplicityNoDup(s, r[i]);
      }
    }
  }

  /** Two equal elements at different positions count twice in the multiset. */
  lemma TwoOccurrences<T>(r: seq<T>, i: nat, j: nat)
    requires i < j < |r| && r[i] == r[j]
    ensures multiset(r)[r[i]] >= 2
  {
    assert r == r[..j] + r[j..];
    assert multiset(r) == multiset(r[..j]) + multiset(r[j..]);
    assert r[i] in r[..j];
    assert r[j] in r[j..];
  }

  /** In a sequence without repetitions every element occurs at most once. */
  lemma {:induction false} MultiplicityNoDup<T>(s: seq<T>, x: T)
    requires NoDup(s)
    ensures multiset(s)[x] <= 1
  {
    if s != [] {
      assert s == [s[0]] + s[1..];
      assert NoDup(s[1..]);
      MultiplicityNoDup(s[1..], x);
      if s[0] == x {
        assert x !in s[1..];
      }
    }
  }
}

=== FILE: env_check.dfy ===
/** The environment checker (`scripts/check-env.js`): the `.env` line parser,
    the critical and optional variable lists, the classification of each
    variable and the exit status. File contents are parameters; a missing file
    is `None`. */
module EnvCheck {
  import opened Basics
  import opened Text

  /** A variable the parser records. */
  datatype Setting = Setting(key: string, value: string)

  /** A trimmed line that is neither empty nor a `#` comment. */
  predicate IsContent(t: string) {
    t != "" && !StartsWith(t, "#")
  }

  /** The text after the first `c`. */
  function AfterFirst(s: string, c: char): (r: string)
    requires c in s
    ensures |BeforeFirst(s, c)| + 1 + |r| == |s|
    ensures s == BeforeFirst(s, c) + [c] + r
  {
    var k := |BeforeFirst(s, c)|;
    assert s == s[..k] + [c] + s[k + 1..];
    s[k + 1..]
  }

  /** A string with a character that is not white space does not trim to empty. */
  lemma TrimKeepsText(s: string, i: nat)
    requires i < |s| && !IsSpace(s[i])
    ensures Trim(s) != ""
  {
    TrimEmptyIffAllSpace(s);
  }

  /** One line of `.env`: a content line with text both before and after its
      first `=` records the trimmed key and the trimmed rest of the line, which
      may itself contain `=`; both are then non-empty. */
  function ParseLine(line: string): (r: Option<Setting>)
    ensures var t := Trim(line);
      r.Some? <==> IsContent(t) && '=' in t && BeforeFirst(t, '=') != "" && AfterFirst(t, '=') != ""
    ensures var t := Trim(line);
      r.Some? ==> '=' in t && r.value == Setting(Trim(BeforeFirst(t, '=')), Trim(AfterFirst(t, '=')))
    ensures r.Some? ==> r.value.key != "" && r.value.value != "" && '=' !in r.value.key
  {
    var t := Trim(line);
    if t == "" || StartsWith(t, "#") then None
    else
      var parts := Split(t, '=');
      var key := parts[0];
      var value := Join(parts[1..], '=');
      SplitFirst(t, '=');
      if key != "" && value != "" then
        assert !IsSpace(t[0]) && !IsSpace(t[|t| - 1]);
        RecordedTextIsNonEmpty(t);
        Some(Setting(Trim(key), Trim(value)))
      else None
  }

  /** Key and value of a content line are non-empty after trimming, since the
      line itself starts and ends with a character that is not white space. */
  lemma RecordedTextIsNonEmpty(t: string)
    requires t != "" && !IsSpace(t[0]) && !IsSpace(t[|t| - 1])
    requires '=' in t && BeforeFirst(t, '=') != "" && AfterFirst(t, '=') != ""
    ensures Trim(BeforeFirst(t, '=')) != "" && Trim(AfterFirst(t, '=')) != ""
    ensures '=' !in Trim(BeforeFirst(t, '='))
  {
    KeyIsNonEmpty(t);
    ValueIsNonEmpty(t);
    TrimmedIsPart(BeforeFirst(t, '='));
  }

  lemma KeyIsNonEmpty(t: string)
    requires t != "" && !IsSpace(t[0])
    requires BeforeFirst(t, '=') != ""
    ensures Trim(BeforeFirst(t, '=')) != ""
  {
    var key := BeforeFirst(t, '=');
    assert key[0] == t[0];
    TrimKeepsText(key, 0);
  }

  lemma ValueIsNonEmpty(t: string)
    requires t != "" && !IsSpace(t[|t| - 1])
    requires '=' in t && AfterFirst(t, '=') != ""
    ensures Trim(AfterFirst(t, '=')) != ""
  {
    var value := AfterFirst(t, '=');
    assert value == t[|t| - |value|..];
    assert value[|value| - 1] == t[|t| - 1];
    TrimKeepsText(value, |value| - 1);
  }

  /** Trimming only removes characters. */
  lemma TrimmedIsPart(s: string)
    ensures forall c :: c in Trim(s) ==> c in s
  {
    var k := Trim(s);
    var n := LeadingSpaceCount(s);
    assert k == s[n..n + |k|];
    forall c | c in k ensures c in s {
      var i :| 0 <= i < |k| && k[i] == c;
      assert s[n + i] == c;
    }
  }

  /** The settings recorded by a list of parsed lines, a later line replacing
      an earlier one with the same key (`setVars.set`). */
  function Settings(parsed: seq<Option<Setting>>): map<string, string> {
    if parsed == [] then map[]
    else
      var before := Settings(parsed[..|parsed| - 1]);
      match parsed[|parsed| - 1]
      case Some(s) => before[s.key := s.value]
      case None => before
  }

  /** Parsed line `i` records `key`. */
  predicate Defines(parsed: seq<Option<Setting>>, i: int, key: string)
    requires 0 <= i < |parsed|
  {
    parsed[i].Some? && parsed[i].value.key == key
  }

  /** A key is set exactly when some line records it, and its value is the one
      the last such line records. */
  lemma {:induction false} SettingsLastWins(parsed: seq<Option<Setting>>, key: string)
    ensures key in Settings(parsed) <==> exists i :: 0 <= i < |parsed| && Defines(parsed, i, key)
    ensures key in Settings(parsed) ==>
      exists i :: 0 <= i < |parsed| && Defines(parsed, i, key) &&
        Settings(parsed)[key] == parsed[i].value.value &&
        forall j :: i < j < |parsed| ==> !Defines(parsed, j, key)
  {
    if parsed != [] {
      var n := |parsed| - 1;
      var p := parsed[..n];
      SettingsLastWins(p, key);
      assert forall i :: 0 <= i < n ==> parsed[i] == p[i];
      if !Defines(parsed, n, key) {
        if exists i :: 0 <= i < |parsed| && Defines(parsed, i, key) {
          var i :| 0 <= i < |parsed| && Defines(parsed, i, key);
          assert Defines(p, i, key);
        }
        if key in Settings(parsed) {
          var i :| 0 <= i < n && Defines(p, i, key) && Settings(p)[key] == p[i].value.value &&
                   forall j :: i < j < n ==> !Defines(p, j, key);
          assert Defines(parsed, i, key);
          assert Settings(parsed)[key] == Settings(p)[key];
          assert forall j :: i < j < |parsed| ==> !Defines(parsed, j, key) by {
            forall j | i < j < |parsed| ensures !Defines(parsed, j, key) {
              if j < n {
                assert !Defines(p, j, key);
              }
            }
          }
        }
      }
    }
  }

  /** The parse of every line. */
  function ParseLines(lines: seq<string>): (r: seq<Option<Setting>>)
    ensures |r| == |lines|
    ensures forall i :: 0 <= i < |lines| ==> r[i] == ParseLine(lines[i])
  {
    seq(|lines|, i requires 0 <= i < |lines| => ParseLine(lines[i]))
  }

  /** Settings recorded from lines with non-empty values have non-empty values. */
  lemma {:induction false} SettingsNonEmpty(parsed: seq<Option<Setting>>)
    requires forall i :: 0 <= i < |parsed| && parsed[i].Some? ==> parsed[i].value.value != ""
    ensures forall key :: key in Settings(parsed) ==> Settings(parsed)[key] != ""
  {
    if parsed != [] {
      SettingsNonEmpty(parsed[..|parsed| - 1]);
    }
  }

  /** Every parsed line records a non-empty value. */
  lemma ParsedValuesNonEmpty(lines: seq<string>)
    ensures forall i :: 0 <= i < |ParseLines(lines)| && ParseLines(lines)[i].Some? ==> ParseLines(lines)[i].value.value != ""
  {
  }

  /** The settings of a whole `.env` text, split at line feeds; no value is
      empty. */
  function ParseEnv(text: string): (r: map<string, string>)
    ensures forall key :: key in r ==> r[key] != ""
  {
    ParsedValuesNonEmpty(Split(text, '\n'));
    SettingsNonEmpty(ParseLines(Split(text, '\n')));
    Settings(ParseLines(Split(text, '\n')))
  }

  // --------------------------------------------------- `.env.example` keys

  /** One line of `.env.example`: the trimmed text before the first `=` of a
      content line, when there is any. */
  function ExampleKey(line: string): (r: Option<string>)
    ensures var t := Trim(line);
      r.Some? <==> IsContent(t) && BeforeFirst(t, '=') != ""
    ensures r.Some? ==> r.value == Trim(BeforeFirst(Trim(line), '='))
  {
    var t := Trim(line);
    if t == "" || StartsWith(t, "#") then None
    else
      var key := Split(t, '=')[0];
      SplitFirst(t, '=');
      if key != "" then Some(Trim(key)) else None
  }

  /** The `.env` parser records a line under the key the example parser reads
      from it, and the example parser reads a key from more lines (those
      without a value too). */
  lemma SettingKeyIsExampleKey(line: string)
    ensures ParseLine(line).Some? ==> ExampleKey(line) == Some(ParseLine(line).value.key)
    ensures ExampleKey(line).None? ==> ParseLine(line).None?
  {
  }

  /** The present values, in order. */
  function Present(s: seq<Option<string>>): (r: seq<string>)
    ensures forall k :: k in r <==> Some(k) in s
  {
    if s == [] then []
    else
      var rest := Present(s[1..]);
      assert forall x :: x in s <==> x == s[0] || x in s[1..];
      match s[0]
      case Some(k) => [k] + rest
      case None => rest
  }

  /** The example key of every line. */
  function ExampleKeys(lines: seq<string>): (r: seq<Option<string>>)
    ensures |r| == |lines|
    ensures forall i :: 0 <= i < |lines| ==> r[i] == ExampleKey(lines[i])
  {
    seq(|lines|, i requires 0 <= i < |lines| => ExampleKey(lines[i]))
  }

  /** `requiredVars` of the example file's lines: the example keys in file
      order; a name is required exactly when some line yields it. */
  function RequiredVars(lines: seq<string>): (r: seq<string>)
    ensures forall k :: k in r <==> exists i :: 0 <= i < |lines| && ExampleKey(lines[i]) == Some(k)
  {
    var keys := ExampleKeys(lines);
    SomeAt(keys);
    Present(keys)
  }

  lemma SomeAt(keys: seq<Option<string>>)
    ensures forall k :: Some(k) in keys <==> exists i :: 0 <= i < |keys| && keys[i] == Some(k)
  {
  }

  // ------------------------------------------------------- classification

  /** Variables without which the application does not start. */
  const Critical: seq<string> := ["DISCORD_USER_ID", "SESSION_SECRET", "FRONTEND_PORT", "BACKEND_PORT"]

  /** Variables some features need. */
  const Optional: seq<string> := [
    "DISCORD_CLIENT_ID", "DISCORD_CLIENT_SECRET", "LASTFM_USERNAME", "LASTFM_API_KEY",
    "WAKATIME_USERNAME", "WAKATIME_API_KEY", "SMTP_HOST", "SMTP_USER"
  ]

  /** A value copied from the example file rather than filled in. */
  predicate Placeholder(v: string) {
    StartsWith(v, "your_")
  }

  /** A critical variable that is missing, empty, a placeholder or the
      example's secret. */
  predicate CriticalUnset(settings: map<string, string>, name: string) {
    name !in settings || settings[name] == "" || Placeholder(settings[name]) ||
    settings[name] == "generate_random_secret_here"
  }

  /** An optional variable that is missing, empty or a placeholder. */
  predicate OptionalUnset(settings: map<string, string>, name: string) {
    name !in settings || settings[name] == "" || Placeholder(settings[name])
  }

  function CriticalIn(settings: map<string, string>): string -> bool {
    (name: string) => CriticalUnset(settings, name)
  }

  function OptionalIn(settings: map<string, string>): string -> bool {
    (name: string) => OptionalUnset(settings, name)
  }

  /** The outcome of a run. */
  datatype Verdict =
    | EnvMissing                                          // no `.env`
    | ExampleMissing                                      // reading `.env.example` throws
    | Incomplete(errors: seq<string>, warnings: seq<string>)
    | Configured(warnings: seq<string>)

  /** The process exit status. */
  function ExitStatus(v: Verdict): nat {
    if v.Configured? then 0 else 1
  }

  /** The whole script: the critical variables in error and the optional ones
      warned about (`CheckEnvListOrder` adds that each list keeps the order of
      its variable list); the status is 1 exactly when a file is missing or
      some critical variable is in error. */
  function CheckEnv(env: Option<string>, example: Option<string>): (v: Verdict)
    ensures env.None? ==> v == EnvMissing
    ensures env.Some? && example.None? ==> v == ExampleMissing
    ensures env.Some? && example.Some? ==>
      && (v.Incomplete? || v.Configured?)
      && (v.Incomplete? <==> exists k :: 0 <= k < |Critical| && CriticalUnset(ParseEnv(env.value), Critical[k]))
    ensures v.Incomplete? || v.Configured? ==>
      && env.Some? && example.Some?
      && (forall name :: name in v.warnings <==> name in Optional && OptionalUnset(ParseEnv(env.value), name))
      && (v.Incomplete? ==> forall name :: name in v.errors <==> name in Critical && CriticalUnset(ParseEnv(env.value), name))
    ensures ExitStatus(v) == 1 <==>
      env.None? || example.None? || exists k :: 0 <= k < |Critical| && CriticalUnset(ParseEnv(env.value), Critical[k])
  {
    match (env, example)
    case (None, _) => EnvMissing
    case (Some(_), None) => ExampleMissing
    case (Some(text), Some(_)) =>
      var settings := ParseEnv(text);
      var errors := Filter(Critical, CriticalIn(settings));
      var warnings := Filter(Optional, OptionalIn(settings));
      ClassifiedMembers(settings);
      if |errors| > 0 then Incomplete(errors, warnings) else Configured(warnings)
  }

  /** The errors and warnings `CheckEnv` reports come in the order of the
      critical and optional variable lists. */
  lemma CheckEnvListOrder(env: Option<string>, example: Option<string>)
    ensures var v := CheckEnv(env, example);
      && (v.Incomplete? || v.Configured? ==> Subseq(v.warnings, Optional))
      && (v.Incomplete? ==> Subseq(v.errors, Critical))
  {
    if env.Some? && example.Some? {
      ClassifiedOrder(ParseEnv(env.value));
    }
  }

  /** Membership of the error and warning lists, and an error exists exactly
      when some critical variable is unset. */
  lemma ClassifiedMembers(settings: map<string, string>)
    ensures forall name :: name in Filter(Critical, CriticalIn(settings)) <==> name in Critical && CriticalUnset(settings, name)
    ensures forall name :: name in Filter(Optional, OptionalIn(settings)) <==> name in Optional && OptionalUnset(settings, name)
    ensures |Filter(Critical, CriticalIn(settings))| > 0 <==> exists k :: 0 <= k < |Critical| && CriticalUnset(settings, Critical[k])
  {
    var critical := CriticalIn(settings);
    var optional := OptionalIn(settings);
    FilterMembers(Critical, critical);
    FilterMembers(Optional, optional);
    FilterNonEmpty(Critical, critical);
    assert forall k :: 0 <= k < |Critical| ==> critical(Critical[k]) == CriticalUnset(settings, Critical[k]);
  }

  /** The error and warning lists keep the order of the variable lists. */
  lemma ClassifiedOrder(settings: map<string, string>)
    ensures Subseq(Filter(Critical, CriticalIn(settings)), Critical)
    ensures Subseq(Filter(Optional, OptionalIn(settings)), Optional)
  {
    FilterSubseq(Critical, CriticalIn(settings));
    FilterSubseq(Optional, OptionalIn(settings));
  }

  /** Optional variables never decide the status: two `.env` texts that agree
      on the critical variables give the same status. */
  lemma OptionalNeverFails(env1: string, env2: string, example: string)
    requires forall k :: 0 <= k < |Critical| ==>
      CriticalUnset(ParseEnv(env1), Critical[k]) == CriticalUnset(ParseEnv(env2), Critical[k])
    ensures ExitStatus(CheckEnv(Some(env1), Some(example))) == ExitStatus(CheckEnv(Some(env2), Some(example)))
  {
  }
}

=== FILE: route_laws.dfy ===
/** Laws that relate several routes of the messaging server: how blocking,
    ownership, sending, creating, deleting, closing and reopening interact. */
module RouteLaws {
  import opened Basics
  import opened Text
  import opened Store
  import opened Api

  // ------------------------------------------------------------ blocking

  /** A blocked caller is refused by every `isAuthenticated` route, logged out,
      and leaves the store untouched, whatever session they still hold. */
  lemma BlockedCallerRefusedEverywhere(cfg: Config, db: Db, u: Identity, id: nat, content: Option<string>, now: nat)
    requires Valid(db) && u.id != "" && IsUserBlocked(db, u.id)
    ensures ListConversations(cfg, db, Some(u)) == Outcome(Fail(Blocked), db, None)
    ensures GetConversation(cfg, db, Some(u), id) == Outcome(Fail(Blocked), db, None)
    ensures ListMessages(cfg, db, Some(u), id) == Outcome(Fail(Blocked), db, None)
    ensures SendMessage(cfg, db, Some(u), id, content, now) == Outcome(Fail(Blocked), db, None)
    ensures CreateConversation(cfg, db, Some(u), now) == Outcome(Fail(Blocked), db, None)
  {
  }

  /** A block takes effect on the target's very next request. */
  lemma BlockTakesEffect(cfg: Config, db: Db, admin: Identity, target: Identity, reason: Option<string>,
                         id: nat, content: Option<string>, now: nat)
    requires Valid(db) && IsAdminId(cfg, admin.id)
    requires target.id != "" && target.id in db.users
    ensures var db1 := BlockUser(cfg, db, Some(admin), target.id, reason).db;
      && SendMessage(cfg, db1, Some(target), id, content, now) == Outcome(Fail(Blocked), db1, None)
      && ListConversations(cfg, db1, Some(target)).reply == Fail(Blocked)
  {
  }

  /** Unblocking after blocking lets the target back in, with the row as it
      was apart from an empty block state. */
  lemma UnblockRestoresAccess(cfg: Config, db: Db, admin: Identity, target: Identity, reason: Option<string>)
    requires Valid(db) && IsAdminId(cfg, admin.id) && target.id in db.users
    ensures var db1 := BlockUser(cfg, db, Some(admin), target.id, reason).db;
      var db2 := UnblockUser(cfg, db1, Some(admin), target.id).db;
      && Admitted(db2, Some(target))
      && db2.users[target.id] == db.users[target.id].(isBlocked := false, blockReason := None)
  {
    UnblockAfterBlock(db, target.id, BlockReason(reason));
  }

  /** Blocking an id that has never logged in is lost: there is no row to
      mark, so the first login afterwards lets the user in. */
  lemma BlockBeforeFirstLoginIsLost(cfg: Config, db: Db, admin: Identity, target: Identity, reason: Option<string>,
                                    forwardedFor: Option<string>, remoteAddress: Option<string>, now: nat)
    requires Valid(db) && IsAdminId(cfg, admin.id) && target.id !in db.users
    ensures var db1 := BlockUser(cfg, db, Some(admin), target.id, reason).db;
      && db1 == db
      && AuthCallback(db1, target, forwardedFor, remoteAddress, now).2 == ToMessages
      && Admitted(AuthCallback(db1, target, forwardedFor, remoteAddress, now).0, Some(target))
  {
    var r := AuthCallback(db, target, forwardedFor, remoteAddress, now);
    LoginKeepsBlockState(db, target.id, DisplayName(target), AvatarUrl(target),
                         ClientIp(forwardedFor, remoteAddress), now);
    assert !IsUserBlocked(r.0, target.id);
  }

  /** Logging in again neither lifts a block nor yields a session. */
  lemma LoginKeepsBlock(db: Db, profile: Identity, forwardedFor: Option<string>, remoteAddress: Option<string>, now: nat)
    requires IsUserBlocked(db, profile.id)
    ensures var r := AuthCallback(db, profile, forwardedFor, remoteAddress, now);
      r.2 == ToBlockedError && r.1 == None && IsUserBlocked(r.0, profile.id)
  {
    LoginKeepsBlockState(db, profile.id, DisplayName(profile), AvatarUrl(profile),
                         ClientIp(forwardedFor, remoteAddress), now);
  }

  /** A blocked administrator is shut out of the conversation routes but still
      passes the admin guard, which does not consult the block flag. */
  lemma BlockedAdminKeepsAdminRoutes(cfg: Config, db: Db, admin: Identity, id: nat)
    requires Valid(db) && IsAdminId(cfg, admin.id) && admin.id != "" && IsUserBlocked(db, admin.id)
    ensures ListConversations(cfg, db, Some(admin)).reply == Fail(Blocked)
    ensures CloseConversation(cfg, db, Some(admin), id).reply == Ok(())
    ensures DeleteConversationRoute(cfg, db, Some(admin), id).reply == Ok(())
  {
  }

  // ----------------------------------------------------------- ownership

  /** A caller who is neither the owner nor the administrator is refused with
      403 on every route that names an existing conversation, and the store
      does not change. */
  lemma ForeignConversationForbidden(cfg: Config, db: Db, u: Identity, c: Conversation, content: string, now: nat)
    requires Valid(db) && c in db.conversations
    requires Admitted(db, Some(u)) && !IsAdminId(cfg, u.id) && c.userId != u.id
    requires Trim(content) != []
    ensures GetConversation(cfg, db, Some(u), c.id).reply == Fail(Forbidden)
    ensures ListMessages(cfg, db, Some(u), c.id).reply == Fail(Forbidden)
    ensures SendMessage(cfg, db, Some(u), c.id, Some(content), now) == Outcome(Fail(Forbidden), db, Some(u))
  {
    FindConversationUnique(db, c);
  }

  /** The owner of a conversation reads it and all of its messages. */
  lemma OwnerSeesOwnConversation(cfg: Config, db: Db, u: Identity, c: Conversation)
    requires Valid(db) && c in db.conversations && c.userId == u.id && Admitted(db, Some(u))
    ensures GetConversation(cfg, db, Some(u), c.id).reply == Ok(c)
    ensures ListMessages(cfg, db, Some(u), c.id).reply == Ok(ConversationMessages(db, c.id))
    ensures c in ListConversations(cfg, db, Some(u)).reply.value.conversations
  {
    FindConversationUnique(db, c);
  }

  /** The administrator sees every conversation and every conversation's
      messages, whoever owns them. */
  lemma AdminSeesEverything(cfg: Config, db: Db, admin: Identity)
    requires Valid(db) && IsAdminId(cfg, admin.id) && Admitted(db, Some(admin))
    ensures var o := ListConversations(cfg, db, Some(admin));
      && o.reply.Ok? && o.reply.value.isAdmin
      && (forall c :: c in o.reply.value.conversations <==> c in db.conversations)
    ensures forall c :: c in db.conversations ==>
      ListMessages(cfg, db, Some(admin), c.id).reply == Ok(ConversationMessages(db, c.id))
  {
  }

  // ------------------------------------------------------------- sending

  /** Posting a message keeps the conversation, and its owner. */
  lemma PostKeepsOwner(cfg: Config, db: Db, caller: Identity, id: nat, content: string, now: nat)
    requires Valid(db) && id in ConversationIds(db)
    ensures var db1 := PostMessage(cfg, db, caller, id, content, now).1;
      id in ConversationIds(db1) && FindConversation(db1, id).value.userId == FindConversation(db, id).value.userId
  {
    var db1 := PostMessage(cfg, db, caller, id, content, now).1;
    var c := FindConversation(db, id).value;
    var k :| 0 <= k < |db.conversations| && db.conversations[k] == c;
    assert db1.conversations[k].id == id && db1.conversations[k].userId == c.userId;
    FindConversationUnique(db1, db1.conversations[k]);
  }

  /** The posted message comes last in the conversation's listing, after the
      earlier ones in their earlier order, when no earlier message is newer. */
  lemma PostAppendsToListing(cfg: Config, db: Db, caller: Identity, id: nat, content: string, now: nat)
    requires Valid(db) && id in ConversationIds(db)
    requires forall m :: m in MessagesOf(db, id) ==> m.createdAt <= now
    ensures var (m, db1) := PostMessage(cfg, db, caller, id, content, now);
      ConversationMessages(db1, id) == ConversationMessages(db, id) + [m]
  {
    var (m, db1) := PostMessage(cfg, db, caller, id, content, now);
    var before := MessagesOf(db, id);
    FilterConcat(db.messages, [m], InConversation(id));
    assert MessagesOf(db1, id) == before + [m];
    forall i | 0 <= i < |before| ensures OldestFirst()(m) <= OldestFirst()(before[i]) {
      assert before[i] in before;
    }
    SortDescSnoc(before, m, OldestFirst());
  }

  /** A message sent to a conversation is the last one the next listing
      returns, with its content as sent, after the earlier messages in their
      earlier order (given a clock that does not run backwards). */
  lemma SendThenList(cfg: Config, db: Db, session: Session, id: nat, content: Option<string>, now: nat)
    requires Valid(db)
    requires SendMessage(cfg, db, session, id, content, now).reply.Ok?
    requires forall m :: m in MessagesOf(db, id) ==> m.createdAt <= now
    ensures var o := SendMessage(cfg, db, session, id, content, now);
      && o.reply.value.content == content.value
      && ListMessages(cfg, o.db, o.session, id).reply == Ok(ConversationMessages(db, id) + [o.reply.value])
  {
    PostKeepsOwner(cfg, db, session.value, id, content.value, now);
    PostAppendsToListing(cfg, db, session.value, id, content.value, now);
  }

  /** An admitted owner may send non-blank content to their own conversation. */
  lemma OwnerMaySend(cfg: Config, db: Db, owner: Identity, c: Conversation, content: string, now: nat)
    requires Valid(db) && c in db.conversations && c.userId == owner.id && Admitted(db, Some(owner))
    requires Trim(content) != []
    ensures SendMessage(cfg, db, Some(owner), c.id, Some(content), now).reply.Ok?
  {
    FindConversationUnique(db, c);
  }

  /** Closing a conversation does not stop its owner from writing to it: the
      send route never reads `status`. */
  lemma ClosedConversationStillAcceptsMessages(cfg: Config, db: Db, admin: Identity, owner: Identity,
                                               c: Conversation, content: string, now: nat)
    requires Valid(db) && IsAdminId(cfg, admin.id)
    requires c in db.conversations && c.userId == owner.id && Admitted(db, Some(owner))
    requires Trim(content) != []
    ensures var db1 := CloseConversation(cfg, db, Some(admin), c.id).db;
      && (forall d :: d in db1.conversations && d.id == c.id ==> d.status == Closed)
      && SendMessage(cfg, db1, Some(owner), c.id, Some(content), now).reply.Ok?
  {
    var o := CloseConversation(cfg, db, Some(admin), c.id);
    var db1 := o.db;
    var k :| 0 <= k < |db.conversations| && db.conversations[k] == c;
    StatusChangedFacts(db, db1, c.id, Closed, k);
    OwnerMaySend(cfg, db1, owner, db1.conversations[k], content, now);
  }

  /** After a status change, the changed row keeps its id and owner and every
      row with that id has the new status. */
  lemma StatusChangedFacts(before: Db, after: Db, id: nat, s: Status, k: nat)
    requires StatusChanged(before, after, id, s)
    requires k < |before.conversations| && before.conversations[k].id == id
    ensures after.conversations[k].id == id && after.conversations[k].userId == before.conversations[k].userId
    ensures after.conversations[k] in after.conversations
    ensures forall d :: d in after.conversations && d.id == id ==> d.status == s
  {
    assert after.conversations[k].(status := before.conversations[k].status) == before.conversations[k];
    forall d | d in after.conversations && d.id == id ensures d.status == s {
      var j :| 0 <= j < |after.conversations| && after.conversations[j] == d;
      assert after.conversations[j].(status := before.conversations[j].status) == before.conversations[j];
    }
  }

  // ---------------------------------------------------- create and delete

  /** Creating a conversation twice returns the same conversation and the
      second call changes nothing. */
  lemma CreateConversationIdempotent(cfg: Config, db: Db, session: Session, now: nat, now': nat)
    requires Valid(db) && Admitted(db, session)
    ensures var o1 := CreateConversation(cfg, db, session, now);
      var o2 := CreateConversation(cfg, o1.db, o1.session, now');
      o2.reply == o1.reply && o2.db == o1.db && o2.session == session
  {
    var u := session.value;
    GetOrCreateIdempotent(db, u.id, DisplayName(u), AvatarUrl(u), now, DisplayName(u), AvatarUrl(u), now');
  }

  /** After the administrator deletes a conversation, reading, listing or
      writing to it answers 404 for everyone, and none of its messages remain. */
  lemma DeletedConversationIsGone(cfg: Config, db: Db, admin: Identity, id: nat, u: Identity,
                                  content: string, now: nat)
    requires Valid(db) && IsAdminId(cfg, admin.id)
    requires Trim(content) != []
    ensures var db1 := DeleteConversationRoute(cfg, db, Some(admin), id).db;
      && (forall m :: m in db1.messages ==> m.conversationId != id)
      && (Admitted(db1, Some(u)) ==>
            && GetConversation(cfg, db1, Some(u), id).reply == Fail(NotFound)
            && ListMessages(cfg, db1, Some(u), id).reply == Fail(NotFound)
            && SendMessage(cfg, db1, Some(u), id, Some(content), now).reply == Fail(NotFound))
  {
  }

  /** After a user is deleted, no conversation they owned and no message they
      sent is left, and the administrator's listing shows none of theirs. */
  lemma DeletedUserLeavesNoTrace(cfg: Config, db: Db, admin: Identity, userId: string)
    requires Valid(db) && IsAdminId(cfg, admin.id)
    ensures var db1 := DeleteUser(cfg, db, Some(admin), userId).db;
      && userId !in db1.users
      && (forall m :: m in db1.messages ==> m.senderId != userId)
      && (Admitted(db1, Some(admin)) ==>
            forall c :: c in ListConversations(cfg, db1, Some(admin)).reply.value.conversations ==> c.userId != userId)
  {
  }

  // ---------------------------------------------------- close and reopen

  /** Closing twice is closing once. */
  lemma CloseIdempotent(cfg: Config, db: Db, session: Session, id: nat)
    requires Valid(db)
    ensures var o1 := CloseConversation(cfg, db, session, id);
      CloseConversation(cfg, o1.db, o1.session, id) == o1
  {
    var o1 := CloseConversation(cfg, db, session, id);
    var o2 := CloseConversation(cfg, o1.db, o1.session, id);
    if o1.reply.Ok? {
      assert o2.db.conversations == o1.db.conversations;
    }
  }

  /** Reopening twice is reopening once. */
  lemma ReopenIdempotent(cfg: Config, db: Db, session: Session, id: nat)
    requires Valid(db)
    ensures var o1 := ReopenConversation(cfg, db, session, id);
      ReopenConversation(cfg, o1.db, o1.session, id) == o1
  {
    var o1 := ReopenConversation(cfg, db, session, id);
    var o2 := ReopenConversation(cfg, o1.db, o1.session, id);
    if o1.reply.Ok? {
      assert o2.db.conversations == o1.db.conversations;
    }
  }

  /** Reopening undoes closing a conversation that was open. */
  lemma ReopenUndoesClose(cfg: Config, db: Db, admin: Identity, id: nat)
    requires Valid(db) && IsAdminId(cfg, admin.id)
    requires forall c :: c in db.conversations && c.id == id ==> c.status == Open
    ensures var db1 := CloseConversation(cfg, db, Some(admin), id).db;
      ReopenConversation(cfg, db1, Some(admin), id).db == db
  {
    var db1 := CloseConversation(cfg, db, Some(admin), id).db;
    var db2 := ReopenConversation(cfg, db1, Some(admin), id).db;
    forall i | 0 <= i < |db.conversations| ensures db2.conversations[i] == db.conversations[i] {
      assert db.conversations[i] in db.conversations;
    }
    assert db2.conversations == db.conversations;
  }
}

=== FILE: store.dfy ===
/** The relational store of the messaging subsystem (`server/db.ts`): the
    `users`, `conversations` and `messages` tables as one immutable value, the
    row-level statements the server issues against them, and the schema's
    constraints (`UNIQUE`, `REFERENCES ... ON DELETE CASCADE`, defaults) as an
    invariant every statement keeps. */
module Store {
  import opened Basics

  /** A row of `users`. The table is keyed by its `UNIQUE` `user_id`, so it is
      a map from that id to the rest of the row. */
  datatype User = User(
    name: string,
    avatar: Option<string>,
    ip: string,
    isBlocked: bool,
    blockReason: Option<string>,
    lastLogin: nat)

  /** `conversations.status`; the server only ever writes 'open' or 'closed'. */
  datatype Status = Open | Closed

  /** A row of `conversations`; `user_id` is not unique in the schema. */
  datatype Conversation = Conversation(
    id: nat,
    userId: string,
    userName: string,
    userAvatar: Option<string>,
    lastMessage: Option<string>,
    lastMessageAt: nat,
    status: Status)

  /** A row of `messages`; `content` is `NOT NULL`. */
  datatype Message = Message(
    id: nat,
    conversationId: nat,
    senderId: string,
    senderName: string,
    senderAvatar: Option<string>,
    content: string,
    isAdmin: bool,
    createdAt: nat)

  /** The database: the three tables in insertion order, and the next values of
      the two `SERIAL` sequences that number conversations and messages. */
  datatype Db = Db(
    users: map<string, User>,
    conversations: seq<Conversation>,
    messages: seq<Message>,
    nextConversationId: nat,
    nextMessageId: nat)

  /** The freshly initialised schema. */
  function EmptyDb(): Db {
    Db(map[], [], [], 1, 1)
  }

  function ConversationIds(db: Db): set<nat> {
    set c | c in db.conversations :: c.id
  }

  /** The schema's constraints: `SERIAL PRIMARY KEY` ids are unique and below
      their sequence's next value, and every message refers to an existing
      conversation (`REFERENCES conversations(id)`). */
  predicate Valid(db: Db) {
    && (forall i, j :: 0 <= i < j < |db.conversations| ==>
          db.conversations[i].id != db.conversations[j].id)
    && (forall i :: 0 <= i < |db.conversations| ==>
          db.conversations[i].id < db.nextConversationId)
    && (forall i, j :: 0 <= i < j < |db.messages| ==>
          db.messages[i].id != db.messages[j].id)
    && (forall i :: 0 <= i < |db.messages| ==>
          db.messages[i].id < db.nextMessageId)
    && (forall i :: 0 <= i < |db.messages| ==>
          db.messages[i].conversationId in ConversationIds(db))
  }

  lemma EmptyDbValid()
    ensures Valid(EmptyDb())
  {
  }

  // Row selectors, written once so that every statement filters with the same predicate.

  function HasId(id: nat): Conversation -> bool {
    (c: Conversation) => c.id == id
  }

  function OwnedBy(userId: string): Conversation -> bool {
    (c: Conversation) => c.userId == userId
  }

  function InConversation(id: nat): Message -> bool {
    (m: Message) => m.conversationId == id
  }

  /** `SELECT * FROM conversations WHERE id = $1`, first row. */
  function FindConversation(db: Db, id: nat): (r: Option<Conversation>)
    ensures r.None? <==> id !in ConversationIds(db)
    ensures r.Some? ==> r.value in db.conversations && r.value.id == id
  {
    match FindFirst(db.conversations, HasId(id))
    case None => None
    case Some(i) => Some(db.conversations[i])
  }

  /** In a valid database a conversation is the only row with its id. */
  lemma FindConversationUnique(db: Db, c: Conversation)
    requires Valid(db) && c in db.conversations
    ensures FindConversation(db, c.id) == Some(c)
  {
    var r := FindConversation(db, c.id);
    var i :| 0 <= i < |db.conversations| && db.conversations[i] == c;
    var k := FindFirst(db.conversations, HasId(c.id)).value;
    assert db.conversations[k].id == c.id;
    assert k == i;
  }

  /** `SELECT * FROM messages WHERE conversation_id = $1`, in table order. */
  function MessagesOf(db: Db, id: nat): seq<Message> {
    Filter(db.messages, InConversation(id))
  }

  // ---------------------------------------------------------------- users

  /** `logUserLogin`: updates an existing user's name, avatar, address and
      login time, leaving the block state alone; inserts an unknown user as
      not blocked. */
  function LogUserLogin(db: Db, userId: string, name: string, avatar: Option<string>, ip: string, now: nat): (r: Db)
    ensures r.conversations == db.conversations && r.messages == db.messages
    ensures r.nextConversationId == db.nextConversationId && r.nextMessageId == db.nextMessageId
    ensures r.users.Keys == db.users.Keys + {userId}
    ensures forall u :: u in db.users && u != userId ==> r.users[u] == db.users[u]
    ensures var row := r.users[userId];
      && row.name == name && row.avatar == avatar && row.ip == ip && row.lastLogin == now
    ensures userId in db.users ==>
      && r.users[userId].isBlocked == db.users[userId].isBlocked
      && r.users[userId].blockReason == db.users[userId].blockReason
    ensures userId !in db.users ==>
      !r.users[userId].isBlocked && r.users[userId].blockReason.None?
  {
    if userId in db.users then
      var row := db.users[userId];
      db.(users := db.users[userId := row.(name := name, avatar := avatar, ip := ip, lastLogin := now)])
    else
      db.(users := db.users[userId := User(name, avatar, ip, false, None, now)])
  }

  /** `isUserBlocked`: the stored flag, `false` for an unknown user. */
  predicate IsUserBlocked(db: Db, userId: string) {
    userId in db.users && db.users[userId].isBlocked
  }

  /** Logging in never changes whether a user is blocked, and a first login
      leaves the user unblocked. */
  lemma LoginKeepsBlockState(db: Db, userId: string, name: string, avatar: Option<string>, ip: string, now: nat)
    ensures IsUserBlocked(LogUserLogin(db, userId, name, avatar, ip, now), userId) == IsUserBlocked(db, userId)
    ensures userId !in db.users ==> !IsUserBlocked(LogUserLogin(db, userId, name, avatar, ip, now), userId)
  {
  }

  /** `UPDATE users SET is_blocked = TRUE, block_reason = $1 WHERE user_id = $2`. */
  function SetBlocked(db: Db, userId: string, reason: string): (r: Db)
    ensures r.conversations == db.conversations && r.messages == db.messages
    ensures r.nextConversationId == db.nextConversationId && r.nextMessageId == db.nextMessageId
    ensures r.users.Keys == db.users.Keys
    ensures forall u :: u in db.users && u != userId ==> r.users[u] == db.users[u]
    ensures userId in db.users ==>
      r.users[userId] == db.users[userId].(isBlocked := true, blockReason := Some(reason))
  {
    if userId in db.users then
      db.(users := db.users[userId := db.users[userId].(isBlocked := true, blockReason := Some(reason))])
    else db
  }

  /** `UPDATE users SET is_blocked = FALSE, block_reason = NULL WHERE user_id = $1`. */
  function ClearBlocked(db: Db, userId: string): (r: Db)
    ensures r.conversations == db.conversations && r.messages == db.messages
    ensures r.nextConversationId == db.nextConversationId && r.nextMessageId == db.nextMessageId
    ensures r.users.Keys == db.users.Keys
    ensures forall u :: u in db.users && u != userId ==> r.users[u] == db.users[u]
    ensures userId in db.users ==>
      r.users[userId] == db.users[userId].(isBlocked := false, blockReason := None)
  {
    if userId in db.users then
      db.(users := db.users[userId := db.users[userId].(isBlocked := false, blockReason := None)])
    else db
  }

  /** Unblocking undoes blocking: the row is back to unblocked with no reason,
      whatever its state before. */
  lemma UnblockAfterBlock(db: Db, userId: string, reason: string)
    requires userId in db.users
    ensures var r := ClearBlocked(SetBlocked(db, userId, reason), userId);
      && !IsUserBlocked(r, userId)
      && r.users[userId] == db.users[userId].(isBlocked := false, blockReason := None)
  {
  }

  // -------------------------------------------------------- conversations

  /** `getOrCreateConversation`: the first conversation whose `user_id` is
      `userId` if there is one, and otherwise a new open conversation inserted
      with the next id of the sequence. */
  function GetOrCreateConversation(db: Db, userId: string, name: string, avatar: Option<string>, now: nat)
    : (r: (Conversation, Db))
    requires Valid(db)
    ensures Valid(r.1)
    ensures r.0.userId == userId && r.0 in r.1.conversations
    ensures r.1.users == db.users && r.1.messages == db.messages
    ensures (exists i :: 0 <= i < |db.conversations| && db.conversations[i].userId == userId) ==>
      r.1 == db && r.0 in db.conversations
    ensures (forall i :: 0 <= i < |db.conversations| ==> db.conversations[i].userId != userId) ==>
      && r.0.id !in ConversationIds(db)
      && r.0 == Conversation(r.0.id, userId, name, avatar, None, now, Open)
      && r.1.conversations == db.conversations + [r.0]
  {
    match FindFirst(db.conversations, OwnedBy(userId))
    case Some(i) => (db.conversations[i], db)
    case None =>
      var c := Conversation(db.nextConversationId, userId, name, avatar, None, now, Open);
      var db' := db.(conversations := db.conversations + [c], nextConversationId := db.nextConversationId + 1);
      assert ConversationIds(db') == ConversationIds(db) + {c.id};
      (c, db')
  }

  /** Get-or-create is idempotent: a second call for the same user returns the
      same conversation and changes nothing. */
  lemma GetOrCreateIdempotent(db: Db, userId: string, name: string, avatar: Option<string>, now: nat,
                              name': string, avatar': Option<string>, now': nat)
    requires Valid(db)
    ensures var (c1, db1) := GetOrCreateConversation(db, userId, name, avatar, now);
      var (c2, db2) := GetOrCreateConversation(db1, userId, name', avatar', now');
      c2 == c1 && db2 == db1
  {
    var (c1, db1) := GetOrCreateConversation(db, userId, name, avatar, now);
    if FindFirst(db.conversations, OwnedBy(userId)).None? {
      var n := |db.conversations|;
      assert db1.conversations == db.conversations + [c1];
      assert db1.conversations[n] == c1;
      assert forall i :: 0 <= i < n ==> db1.conversations[i] == db.conversations[i];
      assert FindFirst(db1.conversations, OwnedBy(userId)) == Some(n);
    }
  }

  /** `UPDATE conversations SET status = $s WHERE id = $1`. */
  function SetStatus(db: Db, id: nat, s: Status): (r: Db)
    ensures r.users == db.users && r.messages == db.messages
    ensures r.nextConversationId == db.nextConversationId && r.nextMessageId == db.nextMessageId
    ensures |r.conversations| == |db.conversations|
    ensures forall i :: 0 <= i < |db.conversations| ==>
      r.conversations[i] == if db.conversations[i].id == id then db.conversations[i].(status := s)
                            else db.conversations[i]
  {
    db.(conversations := seq(|db.conversations|, i requires 0 <= i < |db.conversations| =>
      if db.conversations[i].id == id then db.conversations[i].(status := s) else db.conversations[i]))
  }

  /** Setting a status keeps the ids of all conversations, hence validity. */
  lemma SetStatusValid(db: Db, id: nat, s: Status)
    requires Valid(db)
    ensures Valid(SetStatus(db, id, s))
  {
    var r := SetStatus(db, id, s);
    assert ConversationIds(r) == ConversationIds(db) by {
      forall x | x in ConversationIds(db) ensures x in ConversationIds(r) {
        var i :| 0 <= i < |db.conversations| && db.conversations[i].id == x;
        assert r.conversations[i].id == x;
      }
    }
  }

  /** `UPDATE conversations SET last_message = $1, last_message_at = now WHERE id = $2`. */
  function TouchConversation(db: Db, id: nat, content: string, now: nat): (r: Db)
    ensures r.users == db.users && r.messages == db.messages
    ensures r.nextConversationId == db.nextConversationId && r.nextMessageId == db.nextMessageId
    ensures |r.conversations| == |db.conversations|
    ensures forall i :: 0 <= i < |db.conversations| ==>
      r.conversations[i] ==
        if db.conversations[i].id == id
        then db.conversations[i].(lastMessage := Some(content), lastMessageAt := now)
        else db.conversations[i]
  {
    db.(conversations := seq(|db.conversations|, i requires 0 <= i < |db.conversations| =>
      if db.conversations[i].id == id
      then db.conversations[i].(lastMessage := Some(content), lastMessageAt := now)
      else db.conversations[i]))
  }

  /** Touching a conversation keeps the set of conversation ids and validity. */
  lemma TouchValid(db: Db, id: nat, content: string, now: nat)
    requires Valid(db)
    ensures ConversationIds(TouchConversation(db, id, content, now)) == ConversationIds(db)
    ensures Valid(TouchConversation(db, id, content, now))
  {
    var r := TouchConversation(db, id, content, now);
    forall x | x in ConversationIds(db) ensures x in ConversationIds(r) {
      var i :| 0 <= i < |db.conversations| && db.conversations[i].id == x;
      assert r.conversations[i].id == x;
    }
    forall x | x in ConversationIds(r) ensures x in ConversationIds(db) {
      var i :| 0 <= i < |r.conversations| && r.conversations[i].id == x;
      assert db.conversations[i].id == x;
    }
  }

  /** `INSERT INTO messages (...) RETURNING *`: a new row with the next id. */
  function InsertMessage(db: Db, conversationId: nat, senderId: string, senderName: string,
                         senderAvatar: Option<string>, content: string, isAdmin: bool, now: nat)
    : (r: (Message, Db))
    requires Valid(db) && conversationId in ConversationIds(db)
    ensures Valid(r.1)
    ensures r.0 == Message(r.0.id, conversationId, senderId, senderName, senderAvatar, content, isAdmin, now)
    ensures forall i :: 0 <= i < |db.messages| ==> db.messages[i].id != r.0.id
    ensures r.1.messages == db.messages + [r.0]
    ensures r.1.users == db.users && r.1.conversations == db.conversations
  {
    var m := Message(db.nextMessageId, conversationId, senderId, senderName, senderAvatar, content, isAdmin, now);
    (m, db.(messages := db.messages + [m], nextMessageId := db.nextMessageId + 1))
  }

  function NotId(id: nat): Conversation -> bool {
    (c: Conversation) => c.id != id
  }

  function NotOwnedBy(userId: string): Conversation -> bool {
    (c: Conversation) => c.userId != userId
  }

  function NotInConversation(id: nat): Message -> bool {
    (m: Message) => m.conversationId != id
  }

  function NotSentBy(userId: string): Message -> bool {
    (m: Message) => m.senderId != userId
  }

  function InAnyOf(ids: set<nat>): Message -> bool {
    (m: Message) => m.conversationId in ids
  }

  function DistinctConversations(): (Conversation, Conversation) -> bool {
    (a: Conversation, b: Conversation) => a.id != b.id
  }

  function DistinctMessages(): (Message, Message) -> bool {
    (a: Message, b: Message) => a.id != b.id
  }

  /** A subset of conversations with distinct ids below `next` keeps both. */
  lemma KeptConversations(cs0: seq<Conversation>, pc: Conversation -> bool, next: nat)
    requires forall i, j :: 0 <= i < j < |cs0| ==> cs0[i].id != cs0[j].id
    requires forall i :: 0 <= i < |cs0| ==> cs0[i].id < next
    ensures var cs := Filter(cs0, pc);
      && (forall i, j :: 0 <= i < j < |cs| ==> cs[i].id != cs[j].id)
      && (forall i :: 0 <= i < |cs| ==> cs[i].id < next)
  {
    var cs := Filter(cs0, pc);
    FilterPairwise(cs0, pc, DistinctConversations());
    forall i, j | 0 <= i < j < |cs| ensures cs[i].id != cs[j].id {
      assert DistinctConversations()(cs[i], cs[j]);
    }
    forall i | 0 <= i < |cs| ensures cs[i].id < next {
      var k :| 0 <= k < |cs0| && cs0[k] == cs[i];
    }
  }

  /** A subset of messages with distinct ids below `next` keeps both. */
  lemma KeptMessages(ms0: seq<Message>, pm: Message -> bool, next: nat)
    requires forall i, j :: 0 <= i < j < |ms0| ==> ms0[i].id != ms0[j].id
    requires forall i :: 0 <= i < |ms0| ==> ms0[i].id < next
    ensures var ms := Filter(ms0, pm);
      && (forall i, j :: 0 <= i < j < |ms| ==> ms[i].id != ms[j].id)
      && (forall i :: 0 <= i < |ms| ==> ms[i].id < next)
  {
    var ms := Filter(ms0, pm);
    FilterPairwise(ms0, pm, DistinctMessages());
    forall i, j | 0 <= i < j < |ms| ensures ms[i].id != ms[j].id {
      assert DistinctMessages()(ms[i], ms[j]);
    }
    forall i | 0 <= i < |ms| ensures ms[i].id < next {
      var k :| 0 <= k < |ms0| && ms0[k] == ms[i];
    }
  }

  /** Keeping a subset of conversations and only the messages that still refer
      to a kept conversation preserves validity. */
  lemma RestrictValid(db: Db, pc: Conversation -> bool, pm: Message -> bool)
    requires Valid(db)
    requires forall m :: m in Filter(db.messages, pm) ==>
      m.conversationId in ConversationIds(db.(conversations := Filter(db.conversations, pc)))
    ensures Valid(db.(conversations := Filter(db.conversations, pc), messages := Filter(db.messages, pm)))
  {
    var ms := Filter(db.messages, pm);
    var r := db.(conversations := Filter(db.conversations, pc), messages := ms);
    KeptConversations(db.conversations, pc, db.nextConversationId);
    KeptMessages(db.messages, pm, db.nextMessageId);
    forall i | 0 <= i < |ms| ensures ms[i].conversationId in ConversationIds(r) {
      assert ms[i] in ms;
    }
  }

  /** Dropping messages alone preserves validity. */
  lemma DropMessagesValid(db: Db, pm: Message -> bool)
    requires Valid(db)
    ensures Valid(db.(messages := Filter(db.messages, pm)))
  {
    var ms := Filter(db.messages, pm);
    var r := db.(messages := ms);
    assert ConversationIds(r) == ConversationIds(db);
    KeptMessagesValid(db.messages, ms, ConversationIds(db), db.nextMessageId);
    FilterPairwise(db.messages, pm, DistinctMessages());
  }

  /** Messages taken from a list whose conversations all exist and whose ids are
      below `next` have conversations that exist and ids below `next`. */
  lemma KeptMessagesValid(all: seq<Message>, kept: seq<Message>, ids: set<nat>, next: nat)
    requires forall i :: 0 <= i < |all| ==> all[i].conversationId in ids && all[i].id < next
    requires forall i :: 0 <= i < |kept| ==> kept[i] in all
    ensures forall i :: 0 <= i < |kept| ==> kept[i].conversationId in ids && kept[i].id < next
  {
    forall i | 0 <= i < |kept| ensures kept[i].conversationId in ids && kept[i].id < next {
      var k :| 0 <= k < |all| && all[k] == kept[i];
    }
  }

  /** `DELETE FROM conversations WHERE id = $1`, with `ON DELETE CASCADE`
      removing the conversation's messages. */
  function DeleteConversation(db: Db, id: nat): (r: Db)
    requires Valid(db)
    ensures Valid(r)
    ensures id !in ConversationIds(r)
    ensures forall c :: c in r.conversations <==> c in db.conversations && c.id != id
    ensures forall m :: m in r.messages <==> m in db.messages && m.conversationId != id
    ensures r.users == db.users
  {
    var cs := Filter(db.conversations, NotId(id));
    var ms := Filter(db.messages, NotInConversation(id));
    var r := db.(conversations := cs, messages := ms);
    assert forall c :: c in cs <==> c in db.conversations && c.id != id by {
      forall c { FilterMember(db.conversations, NotId(id), c); }
    }
    assert forall m :: m in ms <==> m in db.messages && m.conversationId != id by {
      forall m { FilterMember(db.messages, NotInConversation(id), m); }
    }
    assert forall m :: m in ms ==> m.conversationId in ConversationIds(r) by {
      forall m | m in ms ensures m.conversationId in ConversationIds(r) {
        var c :| c in db.conversations && c.id == m.conversationId;
        assert c in cs;
      }
    }
    RestrictValid(db, NotId(id), NotInConversation(id));
    r
  }

  /** `DELETE FROM messages WHERE sender_id = $1`. */
  function DeleteMessagesBySender(db: Db, userId: string): (r: Db)
    requires Valid(db)
    ensures Valid(r)
    ensures forall m :: m in r.messages <==> m in db.messages && m.senderId != userId
    ensures r.users == db.users && r.conversations == db.conversations
  {
    var ms := Filter(db.messages, NotSentBy(userId));
    assert forall m :: m in ms <==> m in db.messages && m.senderId != userId by {
      forall m { FilterMember(db.messages, NotSentBy(userId), m); }
    }
    DropMessagesValid(db, NotSentBy(userId));
    db.(messages := ms)
  }

  /** `DELETE FROM conversations WHERE user_id = $1`; the cascade also removes
      every message of those conversations, whoever sent it. */
  function DeleteConversationsOf(db: Db, userId: string): (r: Db)
    requires Valid(db)
    ensures Valid(r)
    ensures forall c :: c in r.conversations <==> c in db.conversations && c.userId != userId
    ensures forall m :: m in r.messages <==> m in db.messages && m.conversationId in ConversationIds(r)
    ensures r.users == db.users
  {
    var cs := Filter(db.conversations, NotOwnedBy(userId));
    var kept := set c | c in cs :: c.id;
    var ms := Filter(db.messages, InAnyOf(kept));
    var r := db.(conversations := cs, messages := ms);
    assert ConversationIds(r) == kept;
    assert forall c :: c in cs <==> c in db.conversations && c.userId != userId by {
      forall c { FilterMember(db.conversations, NotOwnedBy(userId), c); }
    }
    assert forall m :: m in ms <==> m in db.messages && m.conversationId in kept by {
      forall m { FilterMember(db.messages, InAnyOf(kept), m); }
    }
    RestrictValid(db, NotOwnedBy(userId), InAnyOf(kept));
    r
  }

  /** `DELETE FROM users WHERE user_id = $1`. */
  function RemoveUser(db: Db, userId: string): (r: Db)
    ensures r.users.Keys == db.users.Keys - {userId}
    ensures forall u :: u in r.users ==> r.users[u] == db.users[u]
    ensures r.conversations == db.conversations && r.messages == db.messages
    ensures r.nextConversationId == db.nextConversationId && r.nextMessageId == db.nextMessageId
  {
    db.(users := db.users - {userId})
  }
}

=== FILE: text.dfy ===
/** The JavaScript string operations the system relies on, over `seq<char>`:
    `trim`, `startsWith`, decimal `toString` of a non-negative integer,
    `padStart`, `indexOf` of one character, `split` on one character and
    `join`. */
module Text {
  import opened Basics

  /** The characters `String.prototype.trim` removes: the white space and line
      terminator characters of the ECMAScript standard (section 12.2 and 12.3 of
      ECMA-262), which include the Unicode space separators. */
  predicate IsSpace(c: char) {
    || c == ' ' || c == '\t' || c == '\n' || c == '\r'
    || c == '\U{000B}' || c == '\U{000C}' || c == '\U{00A0}' || c == '\U{1680}'
    || ('\U{2000}' <= c <= '\U{200A}')
    || c == '\U{2028}' || c == '\U{2029}' || c == '\U{202F}' || c == '\U{205F}'
    || c == '\U{3000}' || c == '\U{FEFF}'
  }

  /** Every character is white space (also true of the empty string). */
  predicate AllSpace(s: string) {
    forall i :: 0 <= i < |s| ==> IsSpace(s[i])
  }

  /** Drops the leading white space. */
  function TrimStart(s: string): (r: string)
    ensures |r| <= |s| && r == s[|s| - |r|..]
    ensures AllSpace(s[..|s| - |r|])
    ensures r == [] || !IsSpace(r[0])
  {
    if s != [] && IsSpace(s[0]) then TrimStart(s[1..]) else s
  }

  /** Drops the trailing white space. */
  function TrimEnd(s: string): (r: string)
    ensures |r| <= |s| && r == s[..|r|]
    ensures AllSpace(s[|r|..])
    ensures r == [] || !IsSpace(r[|r| - 1])
  {
    if s != [] && IsSpace(s[|s| - 1]) then
      var r := TrimEnd(s[..|s| - 1]);
      assert s[|r|..] == s[..|s| - 1][|r|..] + [s[|s| - 1]];
      r
    else s
  }

  /** How many white space characters `s` starts with. */
  function LeadingSpaceCount(s: string): (n: nat)
    ensures n <= |s| && AllSpace(s[..n])
    ensures n == |s| || !IsSpace(s[n])
  {
    |s| - |TrimStart(s)|
  }

  /** `String.prototype.trim`: the text of `s` between its leading and its
      trailing white space. */
  function Trim(s: string): (r: string)
    ensures var n := LeadingSpaceCount(s);
      && n + |r| <= |s| && r == s[n..n + |r|] && AllSpace(s[n + |r|..])
    ensures r == [] || (!IsSpace(r[0]) && !IsSpace(r[|r| - 1]))
  {
    var a := TrimStart(s);
    var r := TrimEnd(a);
    PrefixOfSuffix(s, a, r);
    r
  }

  /** A prefix `r` of a suffix `a` of `s` is the slice of `s` where `a` starts,
      and what `a` has after `r` is what `s` has after that slice. */
  lemma PrefixOfSuffix<T>(s: seq<T>, a: seq<T>, r: seq<T>)
    requires |a| <= |s| && a == s[|s| - |a|..]
    requires |r| <= |a| && r == a[..|r|]
    ensures var n := |s| - |a|; r == s[n..n + |r|] && a[|r|..] == s[n + |r|..]
    ensures r != [] ==> r[0] == a[0]
  {
  }

  /** A string trims to the empty string exactly when it is all white space. */
  lemma TrimEmptyIffAllSpace(s: string)
    ensures Trim(s) == [] <==> AllSpace(s)
  {
    var n := LeadingSpaceCount(s);
    if Trim(s) == [] {
      assert s == s[..n] + s[n..];
    }
  }

  /** `String.prototype.startsWith` with a literal prefix. */
  predicate StartsWith(s: string, prefix: string) {
    |prefix| <= |s| && s[..|prefix|] == prefix
  }

  predicate IsDigit(c: char) {
    '0' <= c <= '9'
  }

  /** A non-empty run of decimal digits. */
  predicate IsDecimal(s: string) {
    |s| > 0 && forall i :: 0 <= i < |s| ==> IsDigit(s[i])
  }

  /** The decimal digit character for `d`. */
  function DigitChar(d: nat): (c: char)
    requires d < 10
    ensures IsDigit(c) && c as int - '0' as int == d
  {
    ('0' as int + d) as char
  }

  /** The value of one decimal digit character. */
  function DigitValue(c: char): nat
    requires IsDigit(c)
  {
    c as int - '0' as int
  }

  /** The value of a run of decimal digits (leading zeros allowed). */
  function ParseNat(s: string): nat
    requires forall i :: 0 <= i < |s| ==> IsDigit(s[i])
  {
    if s == [] then 0
    else ParseNat(s[..|s| - 1]) * 10 + DigitValue(s[|s| - 1])
  }

  /** `String(n)` / `n.toString()` for a non-negative integer: decimal digits
      without leading zeros. */
  function NatToString(n: nat): (r: string)
    ensures IsDecimal(r)
    ensures |r| == 1 || r[0] != '0'
  {
    if n < 10 then [DigitChar(n)]
    else NatToString(n / 10) + [DigitChar(n % 10)]
  }

  /** Reading the decimal text of `n` back gives `n`. */
  lemma {:induction false} ParseNatToString(n: nat)
    ensures ParseNat(NatToString(n)) == n
  {
    var r := NatToString(n);
    if n >= 10 {
      assert r[..|r| - 1] == NatToString(n / 10);
      ParseNatToString(n / 10);
    } else {
      assert r[..0] == [];
    }
  }

  /** A digit run without leading zeros: the way `String(n)` writes a number. */
  predicate Canonical(s: string) {
    IsDecimal(s) && (|s| == 1 || s[0] != '0')
  }

  /** A digit run that does not start with '0' has a positive value. */
  lemma {:induction false} ParseNatPositive(s: string)
    requires IsDecimal(s) && s[0] != '0'
    ensures ParseNat(s) >= 1
    decreases |s|
  {
    if |s| > 1 {
      ParseNatPositive(s[..|s| - 1]);
    }
  }

  /** A canonical digit run is the decimal text of its own value; with
      `NatToString`'s contract, the canonical runs are exactly those texts. */
  lemma {:induction false} CanonicalText(s: string)
    requires Canonical(s)
    ensures s == NatToString(ParseNat(s))
    decreases |s|
  {
    if |s| == 1 {
      assert s[..0] == [];
    } else {
      var t := s[..|s| - 1];
      var n := ParseNat(s);
      ParseNatPositive(t);
      CanonicalText(t);
      assert n / 10 == ParseNat(t) && n % 10 == DigitValue(s[|s| - 1]);
      assert s == t + [s[|s| - 1]];
    }
  }

  /** `s.padStart(width, c)`: prefixes copies of `c` until the length is `width`. */
  function PadStart(s: string, width: nat, c: char): (r: string)
    ensures |r| == if |s| >= width then |s| else width
    ensures r[|r| - |s|..] == s
    ensures forall i :: 0 <= i < |r| - |s| ==> r[i] == c
    decreases width - |s|
  {
    if |s| >= width then s else PadStart([c] + s, width, c)
  }

  /** Leading zeros do not change a decimal value. */
  lemma {:induction false} ParseNatLeadingZeros(z: string, s: string)
    requires forall i :: 0 <= i < |z| ==> z[i] == '0'
    requires forall i :: 0 <= i < |s| ==> IsDigit(s[i])
    ensures ParseNat(z + s) == ParseNat(s)
    decreases |s|
  {
    if s == [] {
      assert z + s == z;
      ParseNatZeros(z);
    } else {
      var t := z + s;
      assert t[..|t| - 1] == z + s[..|s| - 1];
      ParseNatLeadingZeros(z, s[..|s| - 1]);
    }
  }

  /** A run of zeros reads as 0. */
  lemma {:induction false} ParseNatZeros(z: string)
    requires forall i :: 0 <= i < |z| ==> z[i] == '0'
    ensures ParseNat(z) == 0
  {
    if z != [] {
      ParseNatZeros(z[..|z| - 1]);
    }
  }

  /** Zero-padding the decimal text of `n` keeps it a decimal string of value `n`. */
  lemma ParsePadded(n: nat, width: nat)
    ensures IsDecimal(PadStart(NatToString(n), width, '0'))
    ensures ParseNat(PadStart(NatToString(n), width, '0')) == n
  {
    var d := NatToString(n);
    var r := PadStart(d, width, '0');
    var z := r[..|r| - |d|];
    assert r == z + d;
    ParseNatLeadingZeros(z, d);
    ParseNatToString(n);
  }

  /** The first position of `c` in `s`, if any (`indexOf`, with -1 as `None`). */
  function IndexOf(s: string, c: char): (r: Option<nat>)
    ensures r.None? <==> c !in s
    ensures r.Some? ==> r.value < |s| && s[r.value] == c && c !in s[..r.value]
  {
    if s == [] then None
    else if s[0] == c then Some(0)
    else
      match IndexOf(s[1..], c)
      case None => None
      case Some(i) =>
        assert s[..i + 1] == [s[0]] + s[1..][..i];
        Some(i + 1)
  }

  /** `parts.join(sep)`; the empty list joins to the empty string. */
  function Join(parts: seq<string>, sep: char): string {
    if |parts| == 0 then ""
    else if |parts| == 1 then parts[0]
    else parts[0] + [sep] + Join(parts[1..], sep)
  }

  /** `s.split(sep)` for a one-character separator: the pieces between
      occurrences of `sep`. */
  function Split(s: string, sep: char): (r: seq<string>)
    ensures |r| >= 1
    ensures forall i :: 0 <= i < |r| ==> sep !in r[i]
    ensures Join(r, sep) == s
    decreases |s|
  {
    match IndexOf(s, sep)
    case None => [s]
    case Some(i) =>
      var rest := Split(s[i + 1..], sep);
      assert s == s[..i] + [sep] + s[i + 1..];
      [s[..i]] + rest
  }

  /** Splitting the join of separator-free pieces gives the pieces back. */
  lemma {:induction false} SplitJoin(parts: seq<string>, sep: char)
    requires |parts| >= 1
    requires forall i :: 0 <= i < |parts| ==> sep !in parts[i]
    ensures Split(Join(parts, sep), sep) == parts
  {
    if |parts| == 1 {
      assert IndexOf(parts[0], sep).None?;
    } else {
      var s := Join(parts, sep);
      var p := parts[0];
      assert s == p + [sep] + Join(parts[1..], sep);
      assert s[|p|] == sep && s[..|p|] == p;
      assert IndexOf(s, sep) == Some(|p|);
      assert s[|p| + 1..] == Join(parts[1..], sep);
      SplitJoin(parts[1..], sep);
    }
  }

  /** The text of `s` before the first `c`, or all of `s` when there is none. */
  function BeforeFirst(s: string, c: char): (r: string)
    ensures c !in r && |r| <= |s| && s[..|r|] == r
    ensures |r| == |s| || s[|r|] == c
  {
    match IndexOf(s, c)
    case None => s
    case Some(i) => s[..i]
  }

  /** The first piece of a split is the text before the first separator, and
      the remaining pieces re-joined are the text after it. */
  lemma SplitFirst(s: string, sep: char)
    ensures var r := Split(s, sep);
      match IndexOf(s, sep)
      case None => r == [s]
      case Some(i) => r[0] == s[..i] && Join(r[1..], sep) == s[i + 1..]
    ensures Split(s, sep)[0] == BeforeFirst(s, sep)
  {
    match IndexOf(s, sep)
    case None =>
    case Some(i) =>
      var r := Split(s, sep);
      assert r[1..] == Split(s[i + 1..], sep);
  }
}

=== FILE: timefmt.dfy ===
/** The integer time formatters: `formatDuration` of the WakaTime route
    (`server/index.js`), `formatUptime` of the uptime hook
    (`src/utils/hooks.ts`), and `formatElapsedTime` and `calculateAge` of the
    Discord presence card (`src/components/DiscordPresence.tsx`). Durations are
    whole non-negative numbers; "today" is a parameter. */
module TimeFormat {
  import opened Basics
  import opened Text

  // ---------------------------------------------------------------- words

  /** A non-empty run of digits contains no separator that is not a digit. */
  lemma DecimalHasNo(s: string, c: char)
    requires IsDecimal(s) && !IsDigit(c)
    ensures c !in s
  {
  }

  /** Digit runs joined by a separator that is not a digit split back into
      the runs. */
  lemma DecimalsSplit(parts: seq<string>, sep: char)
    requires |parts| >= 1 && !IsDigit(sep)
    requires forall i :: 0 <= i < |parts| ==> IsDecimal(parts[i])
    ensures Split(Join(parts, sep), sep) == parts
  {
    forall i | 0 <= i < |parts|
      ensures sep !in parts[i]
    {
      DecimalHasNo(parts[i], sep);
    }
    SplitJoin(parts, sep);
  }

  /** Two digit runs joined by `sep`: the text that splits back into them. */
  function Fields2(a: string, b: string, sep: char): (r: string)
    requires IsDecimal(a) && IsDecimal(b) && !IsDigit(sep)
    ensures Split(r, sep) == [a, b]
  {
    DecimalsSplit([a, b], sep);
    Join([a, b], sep)
  }

  /** Three digit runs joined by `sep`: the text that splits back into them. */
  function Fields3(a: string, b: string, c: string, sep: char): (r: string)
    requires IsDecimal(a) && IsDecimal(b) && IsDecimal(c) && !IsDigit(sep)
    ensures Split(r, sep) == [a, b, c]
  {
    DecimalsSplit([a, b, c], sep);
    Join([a, b, c], sep)
  }

  /** `String(n).padStart(2, '0')`. */
  function Pad2(n: nat): (r: string)
    ensures IsDecimal(r) && ParseNat(r) == n && |r| >= 2
    ensures n < 100 ==> |r| == 2
    ensures n >= 10 ==> r == NatToString(n)
    ensures n < 10 ==> r == ['0'] + NatToString(n)
  {
    ParsePadded(n, 2);
    ShortDecimal(n);
    LongDecimal(n);
    PadStart(NatToString(n), 2, '0')
  }

  /** Numbers from 10 on have at least two digits. */
  lemma LongDecimal(n: nat)
    ensures n >= 10 ==> |NatToString(n)| >= 2
  {
    if n >= 10 {
      assert |NatToString(n / 10)| >= 1;
    }
  }

  /** Numbers below 100 have at most two digits. */
  lemma ShortDecimal(n: nat)
    ensures n < 100 ==> |NatToString(n)| <= 2
  {
    if 10 <= n < 100 {
      assert |NatToString(n / 10)| == 1;
    }
  }

  /** The decimal text of `n` reads back as `n` and is a digit run. */
  lemma Decimal(n: nat)
    ensures IsDecimal(NatToString(n)) && ParseNat(NatToString(n)) == n
  {
    ParseNatToString(n);
  }

  /** The number of seconds in `h` hours, `m` minutes and `s` seconds. */
  function ClockValue(h: nat, m: nat, s: nat): nat {
    h * 3600 + m * 60 + s
  }

  /** Whole hours, minutes of the hour and seconds of the minute of a number
      of seconds: `Math.floor(seconds / 3600)`, `Math.floor((seconds % 3600) / 60)`
      and `seconds % 60`. */
  function Hms(seconds: nat): (t: (nat, nat, nat))
    ensures t.1 < 60 && t.2 < 60 && ClockValue(t.0, t.1, t.2) == seconds
    ensures t.2 == seconds % 60
  {
    HoursMinutes(seconds);
    (seconds / 3600, (seconds % 3600) / 60, seconds % 60)
  }

  /** The whole hours and the whole minutes of the hour left in `seconds`
      account for all of it but the seconds of the last minute. */
  lemma HoursMinutes(seconds: nat)
    ensures seconds / 3600 * 3600 + (seconds % 3600) / 60 * 60 + seconds % 60 == seconds
    ensures (seconds % 3600) / 60 < 60 && seconds % 60 < 60
  {
    var r := seconds % 3600;
    assert seconds == seconds / 3600 * 3600 + r;
    assert r == r / 60 * 60 + r % 60;
    assert r % 60 == seconds % 60 by {
      assert seconds == (seconds / 3600 * 60 + r / 60) * 60 + r % 60;
    }
  }

  /** A number written as `k` sixties and a remainder below 60 has `k` as
      its quotient and the remainder as its remainder by 60. */
  lemma Sixties(k: nat, s: nat)
    requires s < 60
    ensures (k * 60 + s) / 60 == k && (k * 60 + s) % 60 == s
  {
  }

  /** Fields below 60 are determined by the number of seconds they make up. */
  lemma ClockValueUnique(h: nat, m: nat, s: nat, h': nat, m': nat, s': nat)
    requires m < 60 && s < 60 && m' < 60 && s' < 60
    requires ClockValue(h, m, s) == ClockValue(h', m', s')
    ensures h == h' && m == m' && s == s'
  {
    Sixties(h * 60 + m, s);
    Sixties(h' * 60 + m', s');
    Sixties(h, m);
    Sixties(h', m');
  }

  /** Fields below 60 making up less than an hour hold no whole hour. */
  lemma NoWholeHour(h: nat, m: nat, s: nat)
    requires m < 60 && s < 60 && ClockValue(h, m, s) < 3600
    ensures h == 0
  {
  }

  // ------------------------------------------------------ formatDuration

  /** `formatDuration(seconds)`: "H hrs M mins" from one hour on, "M mins"
      from one minute on, "S secs" below a minute. Hours and minutes are whole;
      the leftover seconds are dropped. */
  function FormatDuration(seconds: nat): (r: string)
    ensures var w := Split(r, ' ');
      && (seconds >= 3600 ==>
            && |w| == 4 && IsDecimal(w[0]) && w[1] == "hrs" && IsDecimal(w[2]) && w[3] == "mins"
            && Canonical(w[0]) && Canonical(w[2])
            && ParseNat(w[0]) >= 1 && ParseNat(w[2]) < 60
            && ClockValue(ParseNat(w[0]), ParseNat(w[2]), 0) <= seconds < ClockValue(ParseNat(w[0]), ParseNat(w[2]), 60))
      && (60 <= seconds < 3600 ==>
            && |w| == 2 && IsDecimal(w[0]) && w[1] == "mins"
            && Canonical(w[0]) && 1 <= ParseNat(w[0]) < 60
            && ClockValue(0, ParseNat(w[0]), 0) <= seconds < ClockValue(0, ParseNat(w[0]), 60))
      && (seconds < 60 ==> |w| == 2 && w[0] == NatToString(seconds) && w[1] == "secs")
  {
    var t := Hms(seconds);
    if t.0 > 0 then TwoCounts(t.0, "hrs", t.1, "mins")
    else if t.1 > 0 then OneCount(t.1, "mins")
    else OneCount(seconds, "secs")
  }

  /** A count and its unit, separated by a space. */
  function OneCount(x: nat, unit: string): (r: string)
    requires ' ' !in unit
    ensures var w := Split(r, ' ');
      |w| == 2 && w[0] == NatToString(x) && IsDecimal(w[0]) && ParseNat(w[0]) == x && w[1] == unit
  {
    Decimal(x);
    DecimalHasNo(NatToString(x), ' ');
    SplitJoin([NatToString(x), unit], ' ');
    Join([NatToString(x), unit], ' ')
  }

  /** Two counts, each followed by its unit, all separated by spaces. */
  function TwoCounts(x: nat, unitX: string, y: nat, unitY: string): (r: string)
    requires ' ' !in unitX && ' ' !in unitY
    ensures var w := Split(r, ' ');
      && |w| == 4 && w[0] == NatToString(x) && w[1] == unitX && w[2] == NatToString(y) && w[3] == unitY
      && IsDecimal(w[0]) && IsDecimal(w[2]) && ParseNat(w[0]) == x && ParseNat(w[2]) == y
  {
    var parts := [NatToString(x), unitX, NatToString(y), unitY];
    Decimal(x);
    Decimal(y);
    DecimalHasNo(parts[0], ' ');
    DecimalHasNo(parts[2], ' ');
    SplitJoin(parts, ' ');
    Join(parts, ' ')
  }

  /** Reads a duration text back as a number of seconds. */
  function ReadDuration(text: string): (r: Option<nat>)
    ensures r.Some? ==> |Split(text, ' ')| in {2, 4}
  {
    var w := Split(text, ' ');
    if |w| == 4 && IsDecimal(w[0]) && w[1] == "hrs" && IsDecimal(w[2]) && w[3] == "mins" then
      Some(ClockValue(ParseNat(w[0]), ParseNat(w[2]), 0))
    else if |w| == 2 && IsDecimal(w[0]) && w[1] == "mins" then Some(ClockValue(0, ParseNat(w[0]), 0))
    else if |w| == 2 && IsDecimal(w[0]) && w[1] == "secs" then Some(ParseNat(w[0]))
    else None
  }

  /** Hours and minutes that bracket `seconds` to the minute are `seconds`
      rounded down to a whole minute. */
  lemma MinuteFloor(h: nat, m: nat, seconds: nat)
    requires ClockValue(h, m, 0) <= seconds < ClockValue(h, m, 60)
    ensures seconds - seconds % 60 == ClockValue(h, m, 0)
  {
    Sixties(h * 60 + m, seconds - ClockValue(h, m, 0));
  }

  /** Reading a formatted duration gives the seconds back, rounded down to a
      whole minute from one minute on. */
  lemma ReadFormatDuration(seconds: nat)
    ensures ReadDuration(FormatDuration(seconds)) == Some(if seconds < 60 then seconds else seconds - seconds % 60)
  {
    if seconds >= 3600 {
      ReadHoursDuration(seconds);
    } else if seconds >= 60 {
      ReadMinutesDuration(seconds);
    } else {
      ReadSecondsDuration(seconds);
    }
  }

  /** From one hour on, the text reads as the seconds rounded down to a minute. */
  lemma ReadHoursDuration(seconds: nat)
    requires seconds >= 3600
    ensures ReadDuration(FormatDuration(seconds)) == Some(seconds - seconds % 60)
  {
    ReadBracketedHours(FormatDuration(seconds), seconds);
  }

  /** An "H hrs M mins" text whose fields bracket `seconds` to the minute
      reads as `seconds` rounded down to a minute. */
  lemma ReadBracketedHours(text: string, seconds: nat)
    requires var w := Split(text, ' ');
      && |w| == 4 && IsDecimal(w[0]) && w[1] == "hrs" && IsDecimal(w[2]) && w[3] == "mins"
      && ClockValue(ParseNat(w[0]), ParseNat(w[2]), 0) <= seconds < ClockValue(ParseNat(w[0]), ParseNat(w[2]), 60)
    ensures ReadDuration(text) == Some(seconds - seconds % 60)
  {
    var w := Split(text, ' ');
    ReadHoursWords(text);
    FloorOfBracket(ParseNat(w[0]), ParseNat(w[2]), seconds, ReadDuration(text));
  }

  /** A reading equal to the lower end of a minute bracket of `seconds` is
      `seconds` rounded down to a minute. */
  lemma FloorOfBracket(h: nat, m: nat, seconds: nat, read: Option<nat>)
    requires ClockValue(h, m, 0) <= seconds < ClockValue(h, m, 60)
    requires read == Some(ClockValue(h, m, 0))
    ensures read == Some(seconds - seconds % 60)
  {
    MinuteFloor(h, m, seconds);
  }

  /** From one minute to an hour, the text reads as the seconds rounded down
      to a minute. */
  lemma ReadMinutesDuration(seconds: nat)
    requires 60 <= seconds < 3600
    ensures ReadDuration(FormatDuration(seconds)) == Some(seconds - seconds % 60)
  {
    ReadBracketedMinutes(FormatDuration(seconds), seconds);
  }

  /** An "M mins" text whose field brackets `seconds` to the minute reads as
      `seconds` rounded down to a minute. */
  lemma ReadBracketedMinutes(text: string, seconds: nat)
    requires var w := Split(text, ' ');
      && |w| == 2 && IsDecimal(w[0]) && w[1] == "mins"
      && ClockValue(0, ParseNat(w[0]), 0) <= seconds < ClockValue(0, ParseNat(w[0]), 60)
    ensures ReadDuration(text) == Some(seconds - seconds % 60)
  {
    var w := Split(text, ' ');
    ReadUnitWords(text, "mins");
    FloorOfBracket(0, ParseNat(w[0]), seconds, ReadDuration(text));
  }

  /** Below a minute, the text reads as the seconds. */
  lemma ReadSecondsDuration(seconds: nat)
    requires seconds < 60
    ensures ReadDuration(FormatDuration(seconds)) == Some(seconds)
  {
    Decimal(seconds);
    ReadUnitWords(FormatDuration(seconds), "secs");
  }

  /** An "H hrs M mins" text reads as its hours and minutes. */
  lemma ReadHoursWords(text: string)
    requires var w := Split(text, ' ');
      |w| == 4 && IsDecimal(w[0]) && w[1] == "hrs" && IsDecimal(w[2]) && w[3] == "mins"
    ensures var w := Split(text, ' ');
      ReadDuration(text) == Some(ClockValue(ParseNat(w[0]), ParseNat(w[2]), 0))
  {
  }

  /** A "N mins" or "N secs" text reads as that many minutes or seconds. */
  lemma ReadUnitWords(text: string, unit: string)
    requires unit == "mins" || unit == "secs"
    requires var w := Split(text, ' '); |w| == 2 && IsDecimal(w[0]) && w[1] == unit
    ensures var w := Split(text, ' ');
      ReadDuration(text) == Some(if unit == "mins" then ClockValue(0, ParseNat(w[0]), 0) else ParseNat(w[0]))
  {
  }

  // ------------------------------------------------------- formatUptime

  /** "H:M:S" with every field zero-padded to two digits. */
  function Clock(hours: nat, minutes: nat, secs: nat): (r: string)
    ensures Split(r, ':') == [Pad2(hours), Pad2(minutes), Pad2(secs)]
  {
    Fields3(Pad2(hours), Pad2(minutes), Pad2(secs), ':')
  }

  /** `formatUptime(ms)`: "HH:MM:SS" of the whole seconds in `ms`; every
      field has at least two digits, minutes and seconds exactly two and below
      60, and hours are not wrapped. */
  function FormatUptime(ms: nat): (r: string)
    ensures var w := Split(r, ':');
      && |w| == 3
      && IsDecimal(w[0]) && IsDecimal(w[1]) && IsDecimal(w[2])
      && |w[0]| >= 2 && |w[1]| == 2 && |w[2]| == 2
      && w[0] == Pad2(ParseNat(w[0]))
      && ParseNat(w[1]) < 60 && ParseNat(w[2]) < 60
      && ClockValue(ParseNat(w[0]), ParseNat(w[1]), ParseNat(w[2])) == ms / 1000
    ensures ReadClock(r) == Some(ms / 1000)
  {
    UptimeOf(ms / 1000)
  }

  /** The uptime clock of a whole number of seconds. */
  function UptimeOf(seconds: nat): (r: string)
    ensures var w := Split(r, ':');
      && |w| == 3
      && IsDecimal(w[0]) && IsDecimal(w[1]) && IsDecimal(w[2])
      && |w[0]| >= 2 && |w[1]| == 2 && |w[2]| == 2
      && w[0] == Pad2(ParseNat(w[0]))
      && ParseNat(w[1]) < 60 && ParseNat(w[2]) < 60
      && ClockValue(ParseNat(w[0]), ParseNat(w[1]), ParseNat(w[2])) == seconds
    ensures ReadClock(r) == Some(seconds)
  {
    var t := Hms(seconds);
    var r := Clock(t.0, t.1, t.2);
    ClockFields(r, Pad2(t.0), Pad2(t.1), Pad2(t.2));
    r
  }

  /** Reads an "H:M:S" text back as a number of seconds. */
  function ReadClock(text: string): (r: Option<nat>)
    ensures r.Some? ==> |Split(text, ':')| == 3
  {
    var w := Split(text, ':');
    if |w| == 3 && IsDecimal(w[0]) && IsDecimal(w[1]) && IsDecimal(w[2]) then
      Some(ClockValue(ParseNat(w[0]), ParseNat(w[1]), ParseNat(w[2])))
    else None
  }

  /** A text that splits into three digit runs reads as their clock value. */
  lemma ClockFields(r: string, a: string, b: string, c: string)
    requires Split(r, ':') == [a, b, c]
    requires IsDecimal(a) && IsDecimal(b) && IsDecimal(c)
    ensures ReadClock(r) == Some(ClockValue(ParseNat(a), ParseNat(b), ParseNat(c)))
  {
  }

  /** Later uptimes never read as fewer seconds. */
  lemma UptimeMonotone(ms1: nat, ms2: nat)
    requires ms1 <= ms2
    ensures ReadClock(FormatUptime(ms1)).value <= ReadClock(FormatUptime(ms2)).value
  {
  }

  /** Two uptimes show the same clock exactly when they fall in the same
      whole second. */
  lemma UptimeSameSecond(ms1: nat, ms2: nat)
    ensures FormatUptime(ms1) == FormatUptime(ms2) <==> ms1 / 1000 == ms2 / 1000
  {
    if FormatUptime(ms1) == FormatUptime(ms2) {
      assert ReadClock(FormatUptime(ms1)) == ReadClock(FormatUptime(ms2));
    }
  }

  // -------------------------------------------------- formatElapsedTime

  /** The fields `formatElapsedTime` derives, `Math.floor(minutes / 60)`,
      `minutes % 60` and `seconds % 60` with `minutes = Math.floor(seconds / 60)`,
      are the hours, minutes of the hour and seconds of the minute; below an
      hour `minutes` itself is the minutes of the hour. */
  lemma ElapsedFields(seconds: nat)
    ensures Hms(seconds) == ((seconds / 60) / 60, (seconds / 60) % 60, seconds % 60)
    ensures (seconds / 60) / 60 == 0 ==> Hms(seconds).1 == seconds / 60
  {
    var t := Hms(seconds);
    var minutes := seconds / 60;
    assert seconds == minutes * 60 + seconds % 60;
    assert minutes == minutes / 60 * 60 + minutes % 60;
    assert ClockValue(minutes / 60, minutes % 60, seconds % 60) == seconds;
    ClockValueUnique(t.0, t.1, t.2, minutes / 60, minutes % 60, seconds % 60);
  }

  /** "H:MM:SS" with unpadded hours. */
  function HoursClock(hours: nat, minutes: nat, secs: nat): (r: string)
    requires minutes < 60 && secs < 60
    ensures var w := Split(r, ':');
      && |w| == 3 && Canonical(w[0]) && IsDecimal(w[1]) && IsDecimal(w[2])
      && |w[1]| == 2 && |w[2]| == 2
      && ParseNat(w[0]) == hours && ParseNat(w[1]) == minutes && ParseNat(w[2]) == secs
  {
    Decimal(hours);
    Fields3(NatToString(hours), Pad2(minutes), Pad2(secs), ':')
  }

  /** "M:SS" with unpadded minutes. */
  function MinutesClock(minutes: nat, secs: nat): (r: string)
    requires secs < 60
    ensures var w := Split(r, ':');
      && |w| == 2 && Canonical(w[0]) && IsDecimal(w[1]) && |w[1]| == 2
      && ParseNat(w[0]) == minutes && ParseNat(w[1]) == secs
  {
    Decimal(minutes);
    Fields2(NatToString(minutes), Pad2(secs), ':')
  }

  /** The clock followed by " elapsed". */
  function Elapsed(clock: string): (r: string)
    ensures |r| == |clock| + 8 && r[..|clock|] == clock && r[|clock|..] == " elapsed"
  {
    clock + " elapsed"
  }

  /** The clock is everything before the last eight characters. */
  lemma ElapsedClockPart(clock: string)
    ensures var r := Elapsed(clock);
      |r| >= 8 && r[|r| - 8..] == " elapsed" && r[..|r| - 8] == clock
  {
  }

  /** `formatElapsedTime(ms)`: "H:MM:SS elapsed" from one hour on, with
      unpadded hours, and "M:SS elapsed" below an hour. */
  function FormatElapsedTime(ms: nat): (r: string)
    ensures |r| >= 8 && r[|r| - 8..] == " elapsed"
    ensures var w := Split(r[..|r| - 8], ':');
      && (ms / 1000 >= 3600 ==>
            && |w| == 3 && IsDecimal(w[0]) && IsDecimal(w[1]) && IsDecimal(w[2])
            && |w[1]| == 2 && |w[2]| == 2 && Canonical(w[0])
            && ParseNat(w[0]) >= 1 && ParseNat(w[1]) < 60 && ParseNat(w[2]) < 60
            && ClockValue(ParseNat(w[0]), ParseNat(w[1]), ParseNat(w[2])) == ms / 1000)
      && (ms / 1000 < 3600 ==>
            && |w| == 2 && IsDecimal(w[0]) && IsDecimal(w[1]) && |w[1]| == 2
            && Canonical(w[0]) && ParseNat(w[0]) < 60 && ParseNat(w[1]) < 60
            && ClockValue(0, ParseNat(w[0]), ParseNat(w[1])) == ms / 1000)
  {
    ElapsedOf(ms / 1000)
  }

  /** The elapsed-time text of a whole number of seconds. */
  function ElapsedOf(seconds: nat): (r: string)
    ensures |r| >= 8 && r[|r| - 8..] == " elapsed"
    ensures var w := Split(r[..|r| - 8], ':');
      && (seconds >= 3600 ==>
            && |w| == 3 && IsDecimal(w[0]) && IsDecimal(w[1]) && IsDecimal(w[2])
            && |w[1]| == 2 && |w[2]| == 2 && Canonical(w[0])
            && ParseNat(w[0]) >= 1 && ParseNat(w[1]) < 60 && ParseNat(w[2]) < 60
            && ClockValue(ParseNat(w[0]), ParseNat(w[1]), ParseNat(w[2])) == seconds)
      && (seconds < 3600 ==>
            && |w| == 2 && IsDecimal(w[0]) && IsDecimal(w[1]) && |w[1]| == 2
            && Canonical(w[0]) && ParseNat(w[0]) < 60 && ParseNat(w[1]) < 60
            && ClockValue(0, ParseNat(w[0]), ParseNat(w[1])) == seconds)
  {
    if seconds >= 3600 then ElapsedHours(seconds) else ElapsedMinutes(seconds)
  }

  /** The elapsed-time text from one hour on. */
  function ElapsedHours(seconds: nat): (r: string)
    requires seconds >= 3600
    ensures |r| >= 8 && r[|r| - 8..] == " elapsed"
    ensures var w := Split(r[..|r| - 8], ':');
      && |w| == 3 && IsDecimal(w[0]) && IsDecimal(w[1]) && IsDecimal(w[2])
      && |w[1]| == 2 && |w[2]| == 2 && Canonical(w[0])
      && ParseNat(w[0]) >= 1 && ParseNat(w[1]) < 60 && ParseNat(w[2]) < 60
      && ClockValue(ParseNat(w[0]), ParseNat(w[1]), ParseNat(w[2])) == seconds
  {
    var t := Hms(seconds);
    var clock := HoursClock(t.0, t.1, t.2);
    ElapsedClockPart(clock);
    Elapsed(clock)
  }

  /** The elapsed-time text below an hour. */
  function ElapsedMinutes(seconds: nat): (r: string)
    requires seconds < 3600
    ensures |r| >= 8 && r[|r| - 8..] == " elapsed"
    ensures var w := Split(r[..|r| - 8], ':');
      && |w| == 2 && IsDecimal(w[0]) && IsDecimal(w[1]) && |w[1]| == 2
      && Canonical(w[0]) && ParseNat(w[0]) < 60 && ParseNat(w[1]) < 60
      && ClockValue(0, ParseNat(w[0]), ParseNat(w[1])) == seconds
  {
    var t := Hms(seconds);
    NoWholeHour(t.0, t.1, t.2);
    var clock := MinutesClock(t.1, t.2);
    ElapsedClockPart(clock);
    Elapsed(clock)
  }

  /** Reads an elapsed-time text back as a number of seconds. */
  function ReadElapsed(text: string): (r: Option<nat>)
    ensures r.Some? ==> |text| >= 8 && text[|text| - 8..] == " elapsed"
  {
    if |text| < 8 || text[|text| - 8..] != " elapsed" then None
    else
      var w := Split(text[..|text| - 8], ':');
      if |w| == 3 && IsDecimal(w[0]) && IsDecimal(w[1]) && IsDecimal(w[2]) then
        Some(ClockValue(ParseNat(w[0]), ParseNat(w[1]), ParseNat(w[2])))
      else if |w| == 2 && IsDecimal(w[0]) && IsDecimal(w[1]) then
        Some(ClockValue(0, ParseNat(w[0]), ParseNat(w[1])))
      else None
  }

  /** The elapsed-time text reads back as the whole seconds of `ms`. */
  lemma ReadFormatElapsedTime(ms: nat)
    ensures ReadElapsed(FormatElapsedTime(ms)) == Some(ms / 1000)
  {
  }

  // --------------------------------------------------------- calculateAge

  /** A calendar date; `month` counts from 0 as `getMonth` does. */
  datatype Date = Date(year: int, month: int, day: int)

  /** `a` comes strictly before `b` in the calendar. */
  predicate Before(a: Date, b: Date) {
    a.year < b.year || (a.year == b.year && (a.month < b.month || (a.month == b.month && a.day < b.day)))
  }

  /** The `years`-th anniversary of `d`. */
  function Anniversary(d: Date, years: int): Date {
    d.(year := d.year + years)
  }

  /** `calculateAge(birthDate)` on the day `today`: the year difference, less
      one when this year's birthday is still to come. */
  function CalculateAge(birth: Date, today: Date): (age: int)
    ensures !Before(today, Anniversary(birth, age))
    ensures Before(today, Anniversary(birth, age + 1))
  {
    var age := today.year - birth.year;
    var monthDiff := today.month - birth.month;
    if monthDiff < 0 || (monthDiff == 0 && today.day < birth.day) then age - 1 else age
  }

  /** The anniversary bracket determines the age: no other number of years
      has `today` between its anniversary and the next. */
  lemma AgeUnique(birth: Date, today: Date, n: int)
    requires !Before(today, Anniversary(birth, n)) && Before(today, Anniversary(birth, n + 1))
    ensures CalculateAge(birth, today) == n
  {
  }

  /** On the exact birthday the age is the full year difference. */
  lemma AgeOnBirthday(birth: Date, n: int)
    ensures CalculateAge(birth, Anniversary(birth, n)) == n
  {
  }
}

=== FILE: wakatime.dfy ===
/** The integer part of the WakaTime statistics route (`server/index.js`):
    the fold over the daily summaries that adds up the total, picks the best
    day and merges per-language time by name, then the language list sorted by
    time and the human-readable total. Seconds are whole numbers. */
module WakaTime {
  import opened Basics
  import opened Text
  import opened TimeFormat

  /** One language entry of a day; `totalSeconds` is `None` when missing. */
  datatype Lang = Lang(name: string, totalSeconds: Option<nat>)

  /** One daily summary: its date, its grand total and text when present, and
      its language list when present. */
  datatype Day = Day(date: string, totalSeconds: Option<nat>, text: Option<string>, languages: Option<seq<Lang>>)

  /** The reported best day. */
  datatype BestDay = BestDay(date: string, text: string)

  /** A merged language: its name and the seconds added up so far. */
  datatype LangTotal = LangTotal(name: string, totalSeconds: nat)

  /** The fold's state: `totalSeconds`, `bestDay`, `bestDaySeconds` and the
      `languages` object as the entries in the order their names were first seen. */
  datatype Acc = Acc(total: nat, best: Option<BestDay>, bestSeconds: nat, langs: seq<LangTotal>)

  /** `day.grand_total?.total_seconds || 0`. */
  function DayTotal(d: Day): nat {
    d.totalSeconds.GetOr(0)
  }

  /** `lang.total_seconds || 0`. */
  function Seconds(l: Lang): nat {
    l.totalSeconds.GetOr(0)
  }

  /** The languages of a day; a day without the list contributes none. */
  function LangsOf(d: Day): seq<Lang> {
    d.languages.GetOr([])
  }

  /** The best-day record of a day: its date and its text, or '0 secs'. */
  function BestOf(d: Day): BestDay {
    BestDay(d.date, if d.text.Some? && d.text.value != "" then d.text.value else "0 secs")
  }

  // ---------------------------------------------------------- languages

  function SameName(name: string): LangTotal -> bool {
    (t: LangTotal) => t.name == name
  }

  predicate HasName(ts: seq<LangTotal>, name: string) {
    exists k :: 0 <= k < |ts| && ts[k].name == name
  }

  /** No two merged entries share a name (the keys of an object). */
  predicate UniqueNames(ts: seq<LangTotal>) {
    forall i, j :: 0 <= i < j < |ts| ==> ts[i].name != ts[j].name
  }

  /** One `languages[lang.name]` update: adds to the entry of that name,
      creating it with 0 seconds first when there is none. */
  function AddLang(acc: seq<LangTotal>, l: Lang): (r: seq<LangTotal>)
    ensures |acc| <= |r| <= |acc| + 1
    ensures forall k :: 0 <= k < |acc| ==> r[k].name == acc[k].name
    ensures |r| == |acc| + 1 <==> !HasName(acc, l.name)
    ensures |r| == |acc| + 1 ==> r[|acc|] == LangTotal(l.name, Seconds(l))
  {
    match FindFirst(acc, SameName(l.name))
    case Some(i) => acc[i := acc[i].(totalSeconds := acc[i].totalSeconds + Seconds(l))]
    case None => acc + [LangTotal(l.name, Seconds(l))]
  }

  /** `AddLang` for each language in turn. */
  function AddLangs(acc: seq<LangTotal>, ls: seq<Lang>): seq<LangTotal> {
    if ls == [] then acc else AddLang(AddLangs(acc, ls[..|ls| - 1]), ls[|ls| - 1])
  }

  /** One step of `summaries.forEach`. */
  function Step(acc: Acc, d: Day): Acc {
    var t := DayTotal(d);
    var langs := AddLangs(acc.langs, LangsOf(d));
    if t > acc.bestSeconds then Acc(acc.total + t, Some(BestOf(d)), t, langs)
    else Acc(acc.total + t, acc.best, acc.bestSeconds, langs)
  }

  /** The whole `summaries.forEach`, from `totalSeconds = 0`, `bestDay = null`,
      `bestDaySeconds = 0` and no languages. */
  function Fold(days: seq<Day>): Acc {
    if days == [] then Acc(0, None, 0, [])
    else Step(Fold(days[..|days| - 1]), days[|days| - 1])
  }

  // -------------------------------------------- independent definitions

  /** The sum of the day totals. */
  function SumTotals(days: seq<Day>): nat {
    if days == [] then 0 else DayTotal(days[0]) + SumTotals(days[1..])
  }

  /** Every language entry of every day, in order. */
  function AllLangs(days: seq<Day>): seq<Lang> {
    if days == [] then [] else LangsOf(days[0]) + AllLangs(days[1..])
  }

  /** Some entry of `ls` has the name. */
  predicate Named(ls: seq<Lang>, name: string) {
    exists k :: 0 <= k < |ls| && ls[k].name == name
  }

  /** The seconds of all entries of `ls` with the name. */
  function LangSum(ls: seq<Lang>, name: string): nat {
    if ls == [] then 0 else (if ls[0].name == name then Seconds(ls[0]) else 0) + LangSum(ls[1..], name)
  }

  /** Day `i` has a positive total that no day exceeds and no earlier day reaches. */
  predicate FirstMaximum(days: seq<Day>, i: int)
    requires 0 <= i < |days|
  {
    && DayTotal(days[i]) > 0
    && (forall j :: 0 <= j < |days| ==> DayTotal(days[j]) <= DayTotal(days[i]))
    && (forall j :: 0 <= j < i ==> DayTotal(days[j]) < DayTotal(days[i]))
  }

  // ----------------------------------------------------------- the total

  lemma {:induction false} SumTotalsSnoc(days: seq<Day>, d: Day)
    ensures SumTotals(days + [d]) == SumTotals(days) + DayTotal(d)
  {
    if days == [] {
      assert days + [d] == [d];
    } else {
      assert (days + [d])[1..] == days[1..] + [d];
      SumTotalsSnoc(days[1..], d);
    }
  }

  /** The fold's total is the sum of the day totals, missing ones counting 0. */
  lemma {:induction false} FoldTotal(days: seq<Day>)
    ensures Fold(days).total == SumTotals(days)
  {
    if days != [] {
      var p := days[..|days| - 1];
      FoldTotal(p);
      assert days == p + [days[|days| - 1]];
      SumTotalsSnoc(p, days[|days| - 1]);
    }
  }

  // -------------------------------------------------------- the best day

  /** What the fold knows about the best day after `days`. */
  predicate BestDayKnown(days: seq<Day>, acc: Acc) {
    && (forall j :: 0 <= j < |days| ==> DayTotal(days[j]) <= acc.bestSeconds)
    && (acc.best.None? <==> forall j :: 0 <= j < |days| ==> DayTotal(days[j]) == 0)
    && (acc.best.None? ==> acc.bestSeconds == 0)
    && (acc.best.Some? ==> exists i :: 0 <= i < |days| && FirstMaximum(days, i) &&
                                        acc.best == Some(BestOf(days[i])) && acc.bestSeconds == DayTotal(days[i]))
  }

  lemma BestDayStep(p: seq<Day>, d: Day, acc: Acc)
    requires BestDayKnown(p, acc)
    ensures BestDayKnown(p + [d], Step(acc, d))
  {
    var days := p + [d];
    var n := |p|;
    assert forall j :: 0 <= j < n ==> days[j] == p[j];
    assert days[n] == d;
    if DayTotal(d) > acc.bestSeconds {
      assert FirstMaximum(days, n);
    } else if acc.best.Some? {
      var i :| 0 <= i < |p| && FirstMaximum(p, i) && acc.best == Some(BestOf(p[i])) && acc.bestSeconds == DayTotal(p[i]);
      assert FirstMaximum(days, i);
    }
  }

  /** `bestDay` is the first day with the strictly greatest positive total,
      and `null` when no day has a positive total. */
  lemma {:induction false} FoldBestDay(days: seq<Day>)
    ensures BestDayKnown(days, Fold(days))
  {
    if days != [] {
      var p := days[..|days| - 1];
      assert days == p + [days[|days| - 1]];
      FoldBestDay(p);
      BestDayStep(p, days[|days| - 1], Fold(p));
    }
  }

  // ------------------------------------------------------- the languages

  lemma {:induction false} LangSumSnoc(ls: seq<Lang>, l: Lang, name: string)
    ensures LangSum(ls + [l], name) == LangSum(ls, name) + (if l.name == name then Seconds(l) else 0)
  {
    if ls == [] {
      assert ls + [l] == [l];
    } else {
      assert (ls + [l])[1..] == ls[1..] + [l];
      LangSumSnoc(ls[1..], l, name);
    }
  }

  lemma {:induction false} LangSumAbsent(ls: seq<Lang>, name: string)
    requires !Named(ls, name)
    ensures LangSum(ls, name) == 0
  {
    if ls != [] {
      assert !Named(ls[1..], name) by {
        forall k | 0 <= k < |ls[1..]| ensures ls[1..][k].name != name {
          assert ls[1..][k] == ls[k + 1];
        }
      }
      LangSumAbsent(ls[1..], name);
    }
  }

  /** One update keeps names unique, adds at most the new name, and adds the
      entry's seconds to exactly the entry of its name. */
  lemma AddLangFacts(acc: seq<LangTotal>, l: Lang)
    requires UniqueNames(acc)
    ensures var r := AddLang(acc, l);
      && UniqueNames(r)
      && (forall name :: HasName(r, name) <==> HasName(acc, name) || name == l.name)
      && (forall k :: 0 <= k < |r| ==>
            r[k].totalSeconds == (if k < |acc| then acc[k].totalSeconds else 0) + (if r[k].name == l.name then Seconds(l) else 0))
  {
    var r := AddLang(acc, l);
    match FindFirst(acc, SameName(l.name))
    case Some(i) =>
      forall name ensures HasName(r, name) <==> HasName(acc, name) || name == l.name {
        if name == l.name {
          assert r[i].name == name;
        }
        if HasName(acc, name) {
          var k :| 0 <= k < |acc| && acc[k].name == name;
          assert r[k].name == name;
        }
      }
    case None =>
      forall name ensures HasName(r, name) <==> HasName(acc, name) || name == l.name {
        if HasName(acc, name) {
          var k :| 0 <= k < |acc| && acc[k].name == name;
          assert r[k].name == name;
        }
        if HasName(r, name) {
          var k :| 0 <= k < |r| && r[k].name == name;
          if k < |acc| {
            assert acc[k].name == name;
          }
        }
      }
  }

  /** A name occurs in a list with one more entry exactly when it occurs in
      the list or is the new entry's. */
  lemma NamedSnoc(p: seq<Lang>, l: Lang, name: string)
    ensures Named(p + [l], name) <==> Named(p, name) || name == l.name
  {
    var ls := p + [l];
    if Named(ls, name) {
      var k :| 0 <= k < |ls| && ls[k].name == name;
      if k < |p| {
        assert p[k].name == name;
      }
    }
    if Named(p, name) {
      var k :| 0 <= k < |p| && p[k].name == name;
      assert ls[k].name == name;
    }
    assert ls[|p|] == l;
  }

  /** Merging a list of language entries: names unique, exactly the names of
      the list, and each name's total the sum of its entries' seconds. */
  lemma {:induction false} MergeFacts(ls: seq<Lang>)
    ensures var r := AddLangs([], ls);
      && UniqueNames(r)
      && (forall name :: HasName(r, name) <==> Named(ls, name))
      && (forall k :: 0 <= k < |r| ==> r[k].totalSeconds == LangSum(ls, r[k].name))
  {
    if ls != [] {
      var p := ls[..|ls| - 1];
      var l := ls[|ls| - 1];
      assert ls == p + [l];
      MergeFacts(p);
      var m := AddLangs([], p);
      AddLangFacts(m, l);
      var r := AddLang(m, l);
      forall name {
        NamedSnoc(p, l, name);
      }
      forall k | 0 <= k < |r| ensures r[k].totalSeconds == LangSum(ls, r[k].name) {
        LangSumSnoc(p, l, r[k].name);
        if k >= |m| {
          assert !HasName(m, l.name);
          LangSumAbsent(p, l.name);
        }
      }
    }
  }

  /** Merging day by day is merging the concatenated entries. */
  lemma {:induction false} AddLangsConcat(acc: seq<LangTotal>, a: seq<Lang>, b: seq<Lang>)
    ensures AddLangs(acc, a + b) == AddLangs(AddLangs(acc, a), b)
    decreases |b|
  {
    if b == [] {
      assert a + b == a;
    } else {
      var b' := b[..|b| - 1];
      assert (a + b)[..|a + b| - 1] == a + b';
      assert (a + b)[|a + b| - 1] == b[|b| - 1];
      AddLangsConcat(acc, a, b');
    }
  }

  lemma {:induction false} AllLangsSnoc(days: seq<Day>, d: Day)
    ensures AllLangs(days + [d]) == AllLangs(days) + LangsOf(d)
  {
    if days == [] {
      assert days + [d] == [d];
      assert AllLangs([d]) == LangsOf(d) + [];
    } else {
      assert (days + [d])[1..] == days[1..] + [d];
      AllLangsSnoc(days[1..], d);
    }
  }

  /** The fold's language entries are the merge of every day's entries. */
  lemma {:induction false} FoldLangs(days: seq<Day>)
    ensures Fold(days).langs == AddLangs([], AllLangs(days))
  {
    if days != [] {
      var p := days[..|days| - 1];
      var d := days[|days| - 1];
      assert days == p + [d];
      FoldLangs(p);
      AllLangsSnoc(p, d);
      AddLangsConcat([], AllLangs(p), LangsOf(d));
    }
  }

  // --------------------------------------------------------- the result

  /** A row of the reported language list. */
  datatype LangRow = LangRow(name: string, totalSeconds: nat, text: string)

  /** The route's `data` apart from the constant flags and `percent`. */
  datatype Summary = Summary(humanTotal: string, totalSeconds: nat, languages: seq<LangRow>, bestDay: Option<BestDay>)

  function ByTotal(): LangTotal -> int {
    (t: LangTotal) => t.totalSeconds
  }

  /** `human_readable_total`: "H hrs M mins" from one hour on, else "M mins"
      (so "0 mins" below a minute, where `formatDuration` would count seconds). */
  function HumanTotal(seconds: nat): (r: string)
    ensures seconds >= 60 ==> r == FormatDuration(seconds)
    ensures seconds < 60 ==> r == "0 mins"
  {
    var t := Hms(seconds);
    if t.0 > 0 then TwoCounts(t.0, "hrs", t.1, "mins") else OneCount(t.1, "mins")
  }

  /** The merged languages of all days, most time first: names unique,
      exactly the names that occur, each with the sum of its entries. */
  function Languages(days: seq<Day>): (r: seq<LangTotal>)
    ensures SortedDesc(r, ByTotal())
    ensures UniqueNames(r)
    ensures forall name :: HasName(r, name) <==> Named(AllLangs(days), name)
    ensures forall k :: 0 <= k < |r| ==> r[k].totalSeconds == LangSum(AllLangs(days), r[k].name)
  {
    FoldLangs(days);
    MergeFacts(AllLangs(days));
    SortedLangs(Fold(days).langs)
  }

  /** Each merged language with its `formatDuration` text. */
  function Rows(ts: seq<LangTotal>): (rows: seq<LangRow>)
    ensures |rows| == |ts|
    ensures forall k :: 0 <= k < |ts| ==>
      rows[k] == LangRow(ts[k].name, ts[k].totalSeconds, FormatDuration(ts[k].totalSeconds))
    ensures forall name :: HasName(ts, name) <==> (exists k :: 0 <= k < |rows| && rows[k].name == name)
  {
    var rows := seq(|ts|, k requires 0 <= k < |ts| => LangRow(ts[k].name, ts[k].totalSeconds, FormatDuration(ts[k].totalSeconds)));
    RowNames(ts, rows);
    rows
  }

  /** Rows that copy the names of `ts` position by position carry exactly
      its names. */
  lemma RowNames(ts: seq<LangTotal>, rows: seq<LangRow>)
    requires |rows| == |ts| && forall k :: 0 <= k < |ts| ==> rows[k].name == ts[k].name
    ensures forall name :: HasName(ts, name) <==> (exists k :: 0 <= k < |rows| && rows[k].name == name)
  {
    forall name ensures HasName(ts, name) <==> (exists k :: 0 <= k < |rows| && rows[k].name == name) {
      if HasName(ts, name) {
        var k :| 0 <= k < |ts| && ts[k].name == name;
        assert rows[k].name == name;
      }
    }
  }

  /** The `languages` rows of all days: most time first, names unique,
      exactly the names that occur, each with the sum of its entries and the
      `formatDuration` text of that sum. */
  function LanguageRows(days: seq<Day>): (rows: seq<LangRow>)
    ensures forall i, j :: 0 <= i < j < |rows| ==> rows[i].totalSeconds >= rows[j].totalSeconds
    ensures forall i, j :: 0 <= i < j < |rows| ==> rows[i].name != rows[j].name
    ensures forall name :: (exists k :: 0 <= k < |rows| && rows[k].name == name) <==> Named(AllLangs(days), name)
    ensures forall k :: 0 <= k < |rows| ==>
      && rows[k].totalSeconds == LangSum(AllLangs(days), rows[k].name)
      && rows[k].text == FormatDuration(rows[k].totalSeconds)
  {
    Rows(Languages(days))
  }

  /** The statistics of a list of daily summaries. */
  function Summarize(days: seq<Day>): (r: Summary)
    ensures r.totalSeconds == SumTotals(days)
    ensures r.humanTotal == HumanTotal(SumTotals(days))
    ensures r.bestDay.None? <==> forall j :: 0 <= j < |days| ==> DayTotal(days[j]) == 0
    ensures r.bestDay.Some? ==> exists i :: 0 <= i < |days| && FirstMaximum(days, i) && r.bestDay == Some(BestOf(days[i]))
    ensures r.languages == LanguageRows(days)
  {
    var acc := Fold(days);
    FoldTotal(days);
    FoldBestDay(days);
    Summary(HumanTotal(acc.total), acc.total, LanguageRows(days), acc.best)
  }

  /** `Object.values(languages).sort((a, b) => b.total_seconds - a.total_seconds)`:
      the same entries, most time first, ties in first-seen order. */
  function SortedLangs(langs: seq<LangTotal>): (r: seq<LangTotal>)
    requires UniqueNames(langs)
    ensures multiset(r) == multiset(langs)
    ensures SortedDesc(r, ByTotal())
    ensures UniqueNames(r)
    ensures forall name :: HasName(r, name) <==> HasName(langs, name)
    ensures forall k :: 0 <= k < |r| ==> exists j :: 0 <= j < |langs| && langs[j] == r[k]
  {
    var r := SortDesc(langs, ByTotal());
    forall k | 0 <= k < |r| ensures exists j :: 0 <= j < |langs| && langs[j] == r[k] {
      SortDescMembers(langs, ByTotal(), r[k]);
    }
    forall name ensures HasName(r, name) <==> HasName(langs, name) {
      if HasName(langs, name) {
        var j :| 0 <= j < |langs| && langs[j].name == name;
        SortDescMembers(langs, ByTotal(), langs[j]);
      }
    }
    assert NoDup(langs);
    SortDescNoDup(langs, ByTotal());
    forall i, j | 0 <= i < j < |r| ensures r[i].name != r[j].name {
      var a :| 0 <= a < |langs| && langs[a] == r[i];
      var b :| 0 <= b < |langs| && langs[b] == r[j];
    }
    r
  }
}
